=== FILE: README.md ===
# genpor workflow core in Dafny

This project models the deterministic core of genpor, a Django site that generates
character images and videos on ComfyUI backends. It covers:

- **Image workflows.** Which outputs a ComfyUI API-format workflow can produce, and which
  parameters it carries (checkpoint, LoRAs, size, seed, sampler settings).
- **Image request injection.** Which nodes receive the positive and the negative prompt:
  title keywords first, then a depth-first trace from the samplers' links, then a
  clean-up in which the title decides. Then how prompts, LoRAs, model, size and seed are
  written into the nodes, and how the `DW_KsamplerAdvanced` node is patched.
- **Image outputs.** How an output node is classified: by title first, then by walking back
  through reroutes and decoders.
- **Image generation.** The pure parts of generating an image for a character: the
  "sandwich" prompt, the seed choice, the wait for the end of the run, and the images kept
  from the run's output manifest.
- **Video workflows.** The video backend choice: protocols, address normalisation,
  queue-load scores, and the least-loaded backend. Then how a video workflow is analysed
  and adapted by node titles, the wait for a video run, and the pick of the video file.
- **Small site rules:**
  - the private-media access rule;
  - the guards in front of an image generation (login, prompt length, 10 s cooldown);
  - the admin rules: hero-carousel limit, singleton settings, configuration panel
    merge, POST filter, inherited character configuration, inline image list;
  - the model save rules: upload path, single active connection, singleton company
    settings;
  - the PayPal IPN crediting transition;
  - the `split` template filter.

## How the model reads the program

- **Modules.**
  - `Results` holds Python's uncaught exceptions as `Err(fault)`.
  - `Text` holds the string operations used: `in`, `split`, `join`, `strip`,
    `lower`/`upper`, and `int()` on text.
  - `Graphs` holds the JSON values, ordered dictionaries and workflow graphs.
  - Every other module follows one source file or one function group.
- **Dictionaries.** A Python dict is an insertion-ordered sequence of `(key, value)` pairs
  (`Dict<V>`); lookup returns the first pair with the key. Order matters in the source in
  several places:
  - the last matching node wins;
  - ties between backends go to the first configuration;
  - manifest order is output order.
- **Workflows.** A workflow is a `Graph`: a sequence of `(node id, Node)`. A `Node` carries
  its `class_type`, its `_meta.title` ("" when missing), and its `inputs` as an ordered
  dictionary of `Value`s. A `Value` is one of:
  - a string, an integer, or a number (an opaque real compared only for equality);
  - a boolean;
  - a link `[id, slot]`, or the empty list;
  - `None`.

  Every node is taken to be a JSON object with these fields. Only the top-level document
  may be a non-object (`Document`).
- **Error outcomes.** `int()`, `float()`, `[0]` on an empty list, `.lower()` on a non-string,
  and a missing dictionary key are partial. Where the source does not catch the exception,
  the operation returns `Err`.
- **Parameters.** I/O, clocks and randomness are parameters:
  - probe results are a list;
  - websocket messages are an event sequence;
  - the history is a manifest;
  - image downloads are a function that may fail, as `raise_for_status` does in
    `get_image`; video downloads read a failure as empty bytes, since `get_video_file`
    catches it and returns `None`;
  - `random.randint` is an `int` argument;
  - the database is a sequence of rows, or a map from user id to staff flag.
- **Where the code differs from the design description, the model follows the code:**
  - `update_workflow` overwrites every present prompt key of a role node, even one
    holding a link (`NodePrompt`).
  - Python's `isinstance(True, int)` holds, so the second pass of `analyze_workflow`
    accepts booleans for `steps`, `seed` and `cfg`.
  - The video stack's "None" test is case-sensitive, while the image stack's is not
    (`LowercaseNoneIsListed`).
  - The image wait only prints execution errors, while the video wait raises on them.
  - `update_workflow` changes its argument in place. The model returns the changed
    graph as a value; callers use only that result.

## Model

| member | source | states |
|---|---|---|
| WorkflowAnalysis.ScanCapabilities | myapp/services.py:84-100 | upscaling is reported iff some node's class or title names it; face detailing iff some node carries one of the face keywords |
| WorkflowAnalysis.AnalyzeWorkflowOutputs | myapp/services.py:73-102 | a non-object document reports nothing; otherwise each capability is reported exactly when some node announces it |
| WorkflowAnalysis.StackLoras | myapp/services.py:120-123 | a LoRA stack lists at most one entry per remaining slot, none of them named "none" in any case; it raises exactly when some slot holds a truthy non-string name |
| WorkflowAnalysis.FirstPassNode | myapp/services.py:113-133 | one node raises iff it is a LoRA stack with a bad name; `EmptyLatentImage` never overwrites a width or height already found |
| WorkflowAnalysis.FirstPass | myapp/services.py:113-133 | the first pass fails iff some node has a bad LoRA name; it lists at most 6 LoRAs per stack node, all with kept names |
| WorkflowAnalysis.FirstOfType | myapp/services.py:137-150 | the value found is `None` iff no node has that input with the right type; otherwise it is the first such input in file order |
| WorkflowAnalysis.SecondPassFillsUnset | myapp/services.py:137-150 | the second pass fills only the fields still unset, each with the first input of the right type, and keeps every other field |
| WorkflowAnalysis.AnalyzeWorkflow | myapp/services.py:104-152 | a non-object gives the all-None analysis; otherwise the analysis fails iff some node has a bad LoRA name; at most 6 LoRAs per stack, none named "none" |
| WorkflowAnalysis.CheckpointFromLastLoader | myapp/services.py:113-118 | the checkpoint is the `ckpt_name` of the last `CheckpointLoaderSimple` node, `None` without one |
| PromptRoles.RefIds | myapp/services.py:198-199 | every id the trace pushes is the first element of some list input of the node |
| PromptRoles.Visit | myapp/services.py:183-199 | the trace loop terminates on every graph, cyclic or with dangling ids; its result holds the visited set and the stack and is closed under the trace's steps |
| PromptRoles.VisitSound | myapp/services.py:183-199 | everything the trace visits is reachable from the start through link inputs |
| PromptRoles.ClosedHoldsReachable | myapp/services.py:183-199 | a visited set closed under the trace's steps holds every node reachable from the start |
| PromptRoles.FindAllTextNodes | myapp/services.py:179-200 | the result is exactly the text nodes reachable from the start id through link inputs |
| PromptRoles.TitleRoles | myapp/services.py:163-169 | a title with "positive" gives the positive role; otherwise a title with "negative" gives the negative role; only ids of the workflow get a role |
| PromptRoles.TracedIsFirst | myapp/services.py:202-207 | the set a role's trace yields comes from the first sampler, in file order, whose link traces to any text node, and it is empty exactly when no sampler's does |
| PromptRoles.TraceRoles | myapp/services.py:202-207 | an empty role set ends as the text nodes traced from the first sampler whose link finds any, since a trace that finds nothing leaves the set empty for the next sampler; a non-empty set is kept as it is, and only text nodes are added |
| PromptRoles.Cleanup | myapp/services.py:212-223 | after the clean-up no positive node has "negative" in its title; the title moves titled nodes to their own side; untitled nodes keep both roles; no node is gained or lost |
| PromptRoles.DetectRoles | myapp/services.py:159-223 | the final positive set holds no node titled "negative", and every node with a role is a node of the workflow |
| PromptRoles.TitleDecidesRoles | myapp/services.py:163-223 | a node titled "positive" but not "negative" is only positive; a node titled "negative" is only negative |
| PromptRoles.UntitledFollowsTrace | myapp/services.py:163-223 | a node with no role keyword in its title holds a role exactly when the title scan found no node for that role and that role's trace found the node; a node found by both traces while neither title set is filled keeps both roles |
| PromptRoles.TitlesSuffice | myapp/services.py:172 | when both title sets are non-empty the trace does not run: every node with a role has a role keyword in its title |
| WorkflowUpdate.ScanLinks | myapp/services.py:234-238 | the source scan raises `IndexError` iff some sampler's input is the empty list |
| WorkflowUpdate.ScanLinksLast | myapp/services.py:234-238 | a successful scan keeps its start value when no sampler links the key, and otherwise ends on the link of the last sampler holding one |
| WorkflowUpdate.ScanSources | myapp/services.py:226-238 | the sources fail iff a steps, cfg or seed input of a sampler is `[]`; there is no seed source iff no sampler links its seed |
| WorkflowUpdate.SetPresent | myapp/services.py:250-251 | every listed key the inputs hold takes the value; no key is added; every other key is unchanged |
| WorkflowUpdate.InjectPrompts | myapp/services.py:247-255 | a present prompt key of a node gets the negative prompt if the node is negative, else the prompt if it is positive; other keys are unchanged |
| WorkflowUpdate.ResetLoras | myapp/services.py:259-260 | resetting the LoRA slots changes no other input |
| WorkflowUpdate.ResetSlot | myapp/services.py:259-260 | slots from the reset point on read name "None" and strength 1.0; earlier slots are as they were |
| WorkflowUpdate.ApplyLoras | myapp/services.py:261-263 | filling the slots fails iff some paired strength is rejected by `float()`; no other input changes |
| WorkflowUpdate.ApplySlot | myapp/services.py:261-263 | a filled slot holds the requested name and, where one is given, the parsed strength; other slots are kept |
| WorkflowUpdate.InjectLoras | myapp/services.py:258-263 | the LoRA writes fail iff a paired strength does not parse, and touch only the twelve slot keys |
| WorkflowUpdate.InjectLorasSlot | myapp/services.py:258-263 | slot s holds the s-th requested name for s ≤ min(6, names), else "None"; its strength is the parsed one where supplied, else 1.0 |
| WorkflowUpdate.IntParam | myapp/services.py:268 | `int(new_values[k])` raises `KeyError(k)` on a missing key and converts the value otherwise |
| WorkflowUpdate.InjectModel | myapp/services.py:266-270 | only the model and size keys change; other classes are untouched; width without height raises `KeyError("height")`; a VAE of "None" is not written |
| WorkflowUpdate.InjectValues | myapp/services.py:273-283 | no other node's seed changes here; `value` changes only on the value nodes; only `seed` and `value` are written |
| WorkflowUpdate.InjectValuesSeed | myapp/services.py:273-274 | the seed source and `DW_seed` nodes get `int(seed)`, failing exactly when `int()` does, and nothing else changes |
| WorkflowUpdate.SamplerSeed | myapp/services.py:286-288 | a sampler's own seed is overwritten only when the sampler is no source and the seed is present and not a link; nothing else changes |
| WorkflowUpdate.PatchAdvanced | myapp/services.py:292-298 | the tiling inputs are defaulted to 512/512/32 only when absent; `guide_size` and `max_size` are gone; nothing else changes |
| WorkflowUpdate.PatchIdempotent | myapp/services.py:292-298 | patching a patched node changes nothing |
| WorkflowUpdate.UpdateNode | myapp/services.py:241-298 | a node's update keeps its class and title |
| WorkflowUpdate.UpdateNodes | myapp/services.py:241-298 | the update succeeds iff every node's update does; node i of the result is node i's own update; a failure is some node's failure |
| WorkflowUpdate.UpdateWorkflow | myapp/services.py:154-300 | a successful update keeps the ids, their order, the classes and the titles; an empty sampler link raises `IndexError` |
| WorkflowUpdate.NodePrompt | myapp/services.py:247-255 | every present prompt key of a role node gets the prompt, even a link; the negative write comes last and wins |
| WorkflowUpdate.NodeLoras | myapp/services.py:258-263 | a LoRA stack node's six slots hold the requested names and strengths, then "None" and 1.0 |
| WorkflowUpdate.SeedBeforeSamplerStep | myapp/services.py:273-274 | before its own seed write, a sampler that is no seed source and no `DW_seed` node still has its original seed |
| WorkflowUpdate.NodeSamplerSeed | myapp/services.py:273-288 | a sampler keeps a linked or absent seed, and takes `int(seed)` otherwise only when it is no steps, cfg or seed source |
| WorkflowUpdate.SamplerStepSeed | myapp/services.py:286-298 | the patch after the sampler's seed step leaves the seed as that step wrote it |
| WorkflowUpdate.NodeUnchanged | myapp/services.py:241-298 | a node with no role, no special class, no sampler class and no source link keeps its inputs |
| WorkflowUpdate.UpdatedIsNodeUpdate | myapp/services.py:154-300 | node i of a successful update is that node's own update under the workflow's roles and sources |
| WorkflowUpdate.PromptReachesRoleNodes | myapp/services.py:249-255 | in a successful update, every present prompt key of a role node holds the prompt of its role |
| WorkflowUpdate.LoraSlotsFilled | myapp/services.py:258-263 | in a successful update, every LoRA stack holds the requested LoRAs in order, padded with "None"/1.0 |
| WorkflowUpdate.SamplerSeedGuarded | myapp/services.py:286-288 | in a successful update, a sampler's own seed is rewritten only when it is no source and its seed is present and not a link |
| WorkflowUpdate.OtherNodesUnchanged | myapp/services.py:241-298 | in a successful update, every node no rule targets is unchanged |
| ImageClassify.ListHead | myapp/services.py:334-337 | a list input yields its first id; the empty list raises `IndexError`; a missing or non-list input yields nothing |
| ImageClassify.Trace | myapp/services.py:341-377 | the backtracking walk terminates, never reports Gen_Unknown, and raises only `IndexError` |
| ImageClassify.ClassifyImageNode | myapp/services.py:304-379 | the flag is always True; Gen_Unknown iff the node is missing; the title rules decide in the order FACE/DETAILER, UPSCALE, NORMAL/BASE; a node with no image link is Gen_Normal |
| ImageClassify.TraceSound | myapp/services.py:344-377 | the walk reports a face detailer or upscaler only when the workflow has a node of that stage |
| ImageClassify.ClassifySound | myapp/services.py:326-379 | a node the title does not decide is classified as a face detailer or upscaler only when some node of the workflow is one |
| ImageClassify.TraceStopsOnRevisit | myapp/services.py:344-347 | a walk reaching a visited or missing id ends as Gen_Normal, so a link cycle ends as Gen_Normal |
| ImageGeneration.SandwichParts | myapp/services.py:407-416 | the prompt parts are the non-empty ones among prefix, user prompt and suffix, at most three |
| ImageGeneration.SandwichIsJoin | myapp/services.py:403-418 | the positive prompt is the ", "-join of the non-empty prefix, user prompt and suffix, in that order |
| ImageGeneration.SandwichSplits | myapp/services.py:418 | splitting the positive prompt at ", " gives back its parts when none contains a comma |
| ImageGeneration.SeedChoice | myapp/services.py:439-444 | a list seed raises `TypeError`; `None`, blank or "-1" select the configured behaviour; an integer other than -1 is used; a string is used only if it parses |
| ImageGeneration.SeedTextAgrees | myapp/services.py:439-442 | the decimal text of a number selects the same seed as the number |
| ImageGeneration.DefaultSeed | myapp/services.py:446-453 | without a chosen seed, the random value is used under "random" (the default) or when no seed is configured; nothing but the seed changes |
| ImageGeneration.WithSeed | myapp/services.py:437-453 | a chosen seed is written; otherwise the configured default applies; no other key changes |
| ImageGeneration.Overrides | myapp/services.py:423-431 | the prompts are written over the configuration; width and height only when truthy; all other keys are kept |
| ImageGeneration.BuildRequest | myapp/services.py:423-456 | the LoRA lists are popped into the request; every configured key other than the prompts, sizes and seed is kept |
| ImageGeneration.BuildRequestPrompts | myapp/services.py:423-431 | the request holds the positive and negative prompts, and each size where it is truthy, else the configured one |
| ImageGeneration.BuildRequestSeed | myapp/services.py:437-453 | the request holds the chosen seed, else a fresh random one under the "random" behaviour or without a configured seed |
| ImageGeneration.PrepareRequest | myapp/services.py:386-456 | the request fails iff the character has no configuration (`ValueError`) or the seed is a list |
| ImageGeneration.SandwichReachesPositiveNodes | myapp/services.py:403-459 | end to end, every present prompt key of an only-positive node holds the sandwiched prompt |
| ImageGeneration.ImageWait | myapp/services.py:474-484 | the image loop stops at the first event that finishes this prompt or closes the connection; no stop means it keeps waiting |
| ImageGeneration.ImageWaitSkipsErrors | myapp/services.py:479-480 | an execution error message does not change where the image loop stops |
| ImageGeneration.ImageWaitIs | myapp/services.py:474-484 | any position characterised as the first ending event is the one the loop finds |
| ImageGeneration.Downloads | myapp/services.py:500-503 | a node's downloads fail exactly when one image's download (`get_image`) fails; otherwise the saved images are its non-empty downloads, each with the node's kind, and every non-empty download is saved |
| ImageGeneration.CollectFails | myapp/services.py:489-503 | collecting fails exactly when the classifier fails on some manifest node, or an image of a kept node fails to download |
| ImageGeneration.CollectSound | myapp/services.py:489-503 | every saved image is a non-empty download of a kept node whose kind passes the `allowed_types` filter |
| ImageGeneration.CollectComplete | myapp/services.py:495-503 | every non-empty download of a kept node's images is saved |
| ImageGeneration.CollectAppend | myapp/services.py:489-503 | manifest order is output order: the images of a manifest are those of its first part, then those of the rest |
| Backends.GetProtocols | myapp/video_services.py:15-19 | ("https","wss") exactly for addresses containing "runpod.net", "cloudflare" or "ngrok", else ("http","ws"); the two always agree |
| Backends.Normalise | myapp/video_services.py:31 | the probe address is no longer than the base URL and never ends in '/' |
| Backends.NormaliseOfPlain | myapp/video_services.py:31 | a bare host is its own address, and "http://" in front of it is dropped |
| Backends.NormaliseOfSecure | myapp/video_services.py:31 | "https://" in front of a bare host is dropped |
| Backends.ScoreMeaning | myapp/video_services.py:35-44 | the score is running + pending on HTTP 200 and 9999 otherwise; a real load of 9999 looks like a failed probe |
| Backends.InsertSorted | myapp/video_services.py:62 | inserting into a sorted list keeps it sorted |
| Backends.InsertPermutes | myapp/video_services.py:62 | insertion only adds the one element |
| Backends.SortSorted | myapp/video_services.py:62 | the sort by score returns its input ordered by score |
| Backends.SortPermutes | myapp/video_services.py:62 | the sort only reorders the probe results |
| Backends.FirstMin | myapp/video_services.py:62-63 | the chosen position holds the least score, and no earlier position does |
| Backends.SortHeadIsFirstMin | myapp/video_services.py:62-63 | the stable sort's head is the earliest of the least-loaded backends |
| Backends.SelectLeastLoaded | myapp/video_services.py:51-68 | no configuration gives "127.0.0.1:8188"; one gives itself without a probe; otherwise the normalised address of the configuration whose probe score is least, the earliest one on a tie, or the first configuration when that least score is 9999 |
| VideoWorkflow.StackSlots | myapp/video_services.py:186-193 | a stack lists at most one LoRA per slot, each with a truthy name other than "None" and marked non-legacy |
| VideoWorkflow.StackSlotsComplete | myapp/video_services.py:186-193 | every slot with a usable name is listed, with its strength or 1.0 |
| VideoWorkflow.AnalyzeVideoNode | myapp/video_services.py:163-213 | one node fails iff it is a legacy loader whose name is no string; it sets only its own field; it adds at most 6 LoRAs; HIGH is tested before LOW |
| VideoWorkflow.AnalyzeVideoNodes | myapp/video_services.py:163-213 | `enable_blacklist` is never changed, and each node adds at most 6 LoRAs |
| VideoWorkflow.AnalyzeVideoWorkflow | myapp/video_services.py:145-215 | a non-object gives the defaults; `enable_blacklist` stays True; at most 6 LoRAs per node |
| VideoWorkflow.AnalyzeVideoNodeWellNamed | myapp/video_services.py:186-209 | one node keeps every listed LoRA well named |
| VideoWorkflow.AnalyzeVideoNodesWellNamed | myapp/video_services.py:163-213 | every LoRA the analysis lists has a truthy name, and no stack entry is named "None" |
| VideoWorkflow.AnalyzeVideoNodesFails | myapp/video_services.py:194-198 | the analysis fails exactly when some legacy loader has a name that is no string |
| VideoWorkflow.LastNodeWins | myapp/video_services.py:175-178 | for the VAE, the CLIP and the black-list tags, the last matching node wins |
| VideoWorkflow.LowercaseNoneIsListed | myapp/video_services.py:189 | a stack slot named "none" is listed, because the test is case-sensitive |
| VideoWorkflow.LegacyRouting | myapp/video_services.py:194-209 | a legacy loader goes to the high list on "high" or id "26", else to the low list on "low" or id "27", with its id recorded |
| VideoWorkflow.FoundMeaning | myapp/video_services.py:242-263 | a role is found iff some node plays it, and then at the last such node |
| VideoWorkflow.Write | myapp/video_services.py:267 | the write changes exactly one input of the targeted node and keeps ids, classes and titles |
| VideoWorkflow.BlacklistText | myapp/video_services.py:274-279 | enabled with the key present writes the value, even `None`; disabled writes ""; enabled without the key writes nothing |
| VideoWorkflow.NumberParam | myapp/video_services.py:288 | `int(params.get(key, default))` gives the default when the key is absent and the integer when one is given |
| VideoWorkflow.UsedSeed | myapp/video_services.py:302-309 | `None`, "-1", "" or an unparsable string give the random value; an integer is used; a list raises |
| VideoWorkflow.WriteSomeAt | myapp/video_services.py:266-283 | a conditional write changes only the target's key, and only when there is a value |
| VideoWorkflow.WriteTexts | myapp/video_services.py:265-283 | the text steps keep ids, classes and titles |
| VideoWorkflow.WriteNumbers | myapp/video_services.py:285-299 | the number steps keep the shape, and fail only with `ValueError` or `TypeError` from `int()` |
| VideoWorkflow.UpdateVideoWorkflow | myapp/video_services.py:218-319 | the adapted copy keeps ids, classes and titles; failures come only from `int()` |
| VideoWorkflow.WriteTextsEffect | myapp/video_services.py:265-283 | each input after the text steps is what the last step writing it wrote, else the original |
| VideoWorkflow.WriteNumbersEffect | myapp/video_services.py:285-299 | each input after the number steps is what its step wrote, else what it was |
| VideoWorkflow.UpdateVideoEffect | myapp/video_services.py:224-319 | the update changes exactly the listed inputs of the found nodes, each to what its step writes |
| VideoWorkflow.SeedTargetPrefersDw | myapp/video_services.py:311-313 | the last DW_SEED node (by title or class) takes the seed, whatever SEED-titled nodes exist |
| VideoWorkflow.SeedTargetFallsBack | myapp/video_services.py:311-313 | without a DW_SEED node the last SEED-titled node takes the seed |
| VideoWorkflow.UsedSeedWritten | myapp/video_services.py:302-319 | the seed returned is the seed written into the seed node |
| VideoGeneration.FinalResolution | myapp/video_services.py:374-377 | a falsy quality or quality 25 keeps the resolution; another quality replaces it with `int(quality)`; it fails iff `int(quality)` does |
| VideoGeneration.VideoParamsLookup | myapp/video_services.py:379-389 | each parameter reads back as given; the tags are `None` without configuration; the switch defaults to on |
| VideoGeneration.VideoParamsNoWhiteList | myapp/video_services.py:379-389 | the request never carries a white list |
| VideoGeneration.BlacklistAlwaysWritten | myapp/video_services.py:387-388 | an existing black-list node always gets the configured tags (possibly `None`) while enabled, and "" once disabled |
| VideoGeneration.VideoWait | myapp/video_services.py:407-426 | the video loop can fail only by raising on an execution error |
| VideoGeneration.VideoWaitMeaning | myapp/video_services.py:407-426 | the video loop raises iff an execution error comes before the point where the image loop would stop; otherwise it stops at the same point |
| VideoGeneration.Tried | myapp/video_services.py:447-450 | of the `images` list, exactly the .mp4/.gif/.webm names are tried |
| VideoGeneration.FirstDownload | myapp/video_services.py:439-462 | the first file with a non-empty download, with its own name; none only when every download is empty |
| VideoGeneration.FirstDownloadAppend | myapp/video_services.py:439-462 | the first download of a concatenation comes from the first part when it has one |
| VideoGeneration.TryFilesIsFirst | myapp/video_services.py:441-445 | one list's loop yields its first non-empty download |
| VideoGeneration.NodePickIsFirst | myapp/video_services.py:440-460 | one node yields the first download among its gifs, video-named images and videos, in that order |
| VideoGeneration.PickLoopIsFirst | myapp/video_services.py:439-462 | the loop over the nodes yields the first download among all candidates in manifest order |
| VideoGeneration.PickVideo | myapp/video_services.py:435-465 | a picked video is never empty; a failure is the raised "not found" exception |
| VideoGeneration.PickVideoIsFirstDownload | myapp/video_services.py:439-465 | the pick is the first non-empty candidate download under its own name, and raises when there is none |
| VideoGeneration.GenerateVideo | myapp/video_services.py:324-468 | a prompt that is neither a string nor a list raises `TypeError` first, at the `prompt[:30]` of line 330; no configured workflow fails the video job, and so does a wait that raises; a video is returned only after the run has ended, and it is non-empty with a workflow of the same shape; while the run has not ended there is no video |
| VideoGeneration.UnfinishedRunYieldsNothing | myapp/video_services.py:407-426 | events with no error and no end of the run give no video, whatever the outputs hold |
| VideoGeneration.ErrorFailsTask | myapp/video_services.py:412-414 | an execution error before the end of the run fails the video job, whatever the outputs |
| Views.SplitFront | myapp/views.py:32 | splitting at '/' cuts after a first segment that holds no '/' |
| Views.OwnerOfStoredImage | myapp/views.py:31-38 | the owner parsed from a user image's storage name is that user; the name of an image without a user gives no owner, so a 404 |
| Views.HasAccess | myapp/views.py:41-55 | access iff the visitor is logged in and is the owner or staff, or the owner exists and is staff |
| Views.ServePrivateMedia | myapp/views.py:18-63 | a file is served iff the path stays in the media root, names an owner, access is granted and the file exists; otherwise 404 |
| Views.OwnImageServed | myapp/views.py:43-46 | a member always gets their own stored images |
| Views.StaffImagesPublic | myapp/views.py:48-55 | images of staff users are served to every visitor, anonymous ones included |
| Views.CustomerImagesPrivate | myapp/views.py:41-63 | a customer's image is hidden from anonymous visitors and from other customers |
| Views.UnownedImagesNotServed | myapp/views.py:31-38 | images stored without a user are never served by this view |
| Views.GenerateGuard | myapp/views.py:95-111 | 401 comes first; a missing prompt raises; 400 iff the prompt is over 500 characters; 429 iff a truthy last time lies less than 10 s back; only an accepted request records `now` |
| Views.WaitWithinCooldown | myapp/views.py:107-109 | the wait reported with a 429 is between 0 and 10 seconds |
| Views.AcceptedAreSpaced | myapp/views.py:104-111 | two accepted generations of one session are at least 10 s apart |
| Views.UnpackTwo | myapp/views.py:117 | unpacking a tuple into two names succeeds iff it has two values |
| Views.GenerateReplyAsWritten | myapp/views.py:113-136 | as written, an unknown character gives 404 |
| Views.AsWrittenNeverStores | myapp/views.py:117 | as written, every accepted generation fails with a caught `ValueError` and stores nothing |
| Views.GenerateReply | myapp/views.py:113-131 | as intended, an image is stored iff the character exists and the generation returned images, and it is the first one |
| Views.StoredImageServedToMember | myapp/views.py:119-129 | an image the intended step stores is served back to the member who asked for it |
| Admin.CleanHeroCharacters | myapp/admin.py:66-70 | more than 6 characters is rejected; at most 6 are returned unchanged |
| Admin.CanAddSettings | myapp/admin.py:95-97 | adding settings is allowed only while none exist, and then as the default rule says |
| Admin.CanDeleteSettings | myapp/admin.py:98 | settings can never be deleted |
| Admin.SettingsStaySingleton | myapp/admin.py:95-98 | whatever the admin does, at most one settings row exists |
| Admin.Override | myapp/admin.py:183-191 | a saved key replaces the analysed value; an unsaved one keeps it |
| Admin.PairLoras | myapp/admin.py:193-197 | the pairs number at most the shorter list, and every name is truthy and not "None" |
| Admin.PairLorasMembers | myapp/admin.py:195-197 | the pairs are exactly the positions, up to the shorter list, whose name is listed |
| Admin.PairLorasAllListed | myapp/admin.py:195-197 | with every name listed, the pairs are the plain zip, in order |
| Admin.MergeSaved | myapp/admin.py:179-198 | without a saved configuration the analysis is shown as it is; `upscale_by` is never overridden |
| Admin.MergeSavedOverrides | myapp/admin.py:183-197 | exactly the nine listed keys the configuration holds are overridden; the LoRAs are replaced only when both lists are saved |
| Admin.PostedEntries | myapp/admin.py:201-215 | the form dictionary has the thirteen fields |
| Admin.KeepPresent | myapp/admin.py:216 | dropping `None` values adds no key |
| Admin.KeepPresentGet | myapp/admin.py:216 | after the filter a key reads its old value when it was not `None`, and is absent otherwise |
| Admin.PostedConfig | myapp/admin.py:200-216 | the saved configuration has at most thirteen keys |
| Admin.PostedEntriesDistinct | myapp/admin.py:201-215 | every form field is listed once |
| Admin.PostedSeedBehaviour | myapp/admin.py:207 | the seed behaviour is always saved, "random" when the form leaves it out |
| Admin.PostedLoraLists | myapp/admin.py:212-213 | both LoRA lists are always saved, empty when the form has no LoRA rows |
| Admin.PostedTextField | myapp/admin.py:201-216 | a text field is saved exactly when the form posted it, with the last text posted |
| Admin.SaveCharacterConfig | myapp/admin.py:295-298 | a new character without a configuration inherits the workflow's; an existing character, or one with a configuration, is unchanged |
| Admin.InlineListedArePublic | myapp/admin.py:262-269 | every listed image of a user can be fetched by any visitor |
| Admin.InlineHidesCustomers | myapp/admin.py:262-269 | a customer's image is not listed |
| Models.CharacterImagePath | myapp/models.py:13-18 | "user_images/{uid}/{name}/{file}" with a user, "character_images/{name}/{file}" without; it ends with the file name |
| Models.Upsert | myapp/models.py:72 | saving updates the row with the same key or appends one; other rows are unchanged; the saved row is present |
| Models.UpsertKeepsDistinct | myapp/models.py:72 | saving keeps the primary keys distinct |
| Models.DeactivateOthers | myapp/models.py:71 | deactivating keeps the rows and their keys |
| Models.DeactivateOthersAt | myapp/models.py:71 | every other row loses its active flag and nothing else changes |
| Models.SaveConnection | myapp/models.py:69-72 | the saved connection is present and no row is lost |
| Models.SavedActiveIsOnlyActive | myapp/models.py:69-72 | after an active connection is saved it is the only active one, and keys stay distinct |
| Models.SavedInactiveChangesNothingElse | myapp/models.py:69-72 | saving an inactive connection leaves every other row unchanged |
| Models.CompanyStaysSingle | myapp/models.py:93-97 | a new settings object reuses the first row's key, so the row count does not grow |
| Signals.Paid | myapp/signals.py:17-18 | only an existing transaction can be paid |
| Signals.PaymentNotification | myapp/signals.py:11-45 | no transaction or balance is created or removed, and no exception escapes |
| Signals.InvalidChangesNothing | myapp/signals.py:13-21 | a notification that is not Completed, names no transaction or has another amount changes nothing |
| Signals.ValidCredits | myapp/signals.py:21-36 | a valid notification completes the transaction with the PayPal id and adds the package's tokens to the buyer; with no profile or no package, no tokens; nothing else changes |
| Signals.RepeatCreditsTwice | myapp/signals.py:18-36 | the same valid notification delivered twice credits the tokens twice |
| Filters.StrippedPieces | myapp/templatetags/custom_filters.py:12 | every kept piece is non-empty and has no surrounding whitespace |
| Filters.SplitFilter | myapp/templatetags/custom_filters.py:6-13 | a falsy value gives []; a truthy value with an empty separator raises `ValueError`, and nothing else fails; every item is non-empty and stripped |
| Filters.StrippedPiecesAppend | myapp/templatetags/custom_filters.py:12 | the items are the stripped non-blank pieces in their original order |
| Filters.SplitFilterSingle | myapp/templatetags/custom_filters.py:12 | a non-blank value without the separator gives [value.strip()] |
| Filters.SplitFilterJoin | myapp/templatetags/custom_filters.py:12 | joining stripped, non-empty, separator-free items and filtering gives the items back |

## Left out

- Network I/O, websockets and `asyncio.gather`. The probe results, websocket messages,
  history manifest, uploads and downloads are inputs.
- `random.randint`. The random value is a parameter, and its range is not checked.
- The Django ORM. Tables are sequences of rows in primary-key order, and users are a map
  from id to staff flag.
- Reading workflow files and decoding JSON. A configuration that is missing or not valid
  JSON is `None`.
- Messages, redirects and templates; the admin HTML previews; the user admin querysets;
  `get_comfyui_object_info`; `get_active_comfyui_address`.
- The HTML minifying middleware, because it relies on Python regular expressions.
- The `os.path.abspath` traversal check. It is the boolean `inMedia`.
- `os.path.exists`. It is membership in a set of stored files.
- `CharacterImage.delete`, because it only removes a file.
- The storage backend's choice of file name. It is the parameter `stored`.
- Floating point. LoRA strengths, cfg, `upscale_by` and the IPN amount are opaque values,
  compared only for equality. Timestamps are reals.
- `PaymentTransaction` and `ClientProfile`. Neither is defined in `myapp/models.py`; their
  fields are taken from how `myapp/signals.py` uses them. `ST_PP_COMPLETED` is taken to be
  "Completed".
- Company settings fields that no rule reads, such as the logo and the contact fields.
- `Character.prompt_prefix` and `Character.prompt_suffix`. Neither is defined in
  `myapp/models.py`, whose `Character` has `positive_prompt` and `negative_prompt`
  instead. The fields are taken from how `myapp/services.py:403-404` uses them; against
  this `models.py`, line 403 raises `AttributeError`.
- `CompanySettings.hero_characters` and `hero_mode`. Neither is defined in
  `myapp/models.py`. The carousel limit is taken from how `myapp/admin.py:66-70` cleans
  `hero_characters`.
- Debug scripts, routing tables, forms and context processors.
- Views.ParseOwner: it has no contract of its own. Its meaning is stated by
  `OwnerOfStoredImage` for storage names and by `ServePrivateMedia` for every path.
- Graphs.ToFloat: it accepts only plain decimal literals. It does not accept exponents,
  "inf", "nan", underscores or non-ASCII digits, all of which Python's `float()` accepts.
- Text.ParseInt: it accepts an optional sign, ASCII digits and surrounding whitespace. It
  does not accept the underscores and non-ASCII digits that Python's `int()` allows.
- Text.Lower: upper- and lower-casing map ASCII letters only.
- ImageGeneration.ImageWait: when the events run out without an end, the loop would wait
  forever. This is `None`.
- VideoGeneration.VideoWait: same as `ImageWait` when the events run out. `GenerateVideo`
  then returns `Ok(None)`: no video, and no history is read.
- Views.GenerateGuard: an absent `last_generation_time` and the value 0.0 are both read
  as falsy, as in the source. Timestamps are reals, not floats.
- Admin.PostGet: `request.POST` is a map from field to non-empty value lists. Django reads
  a missing key and an empty list the same way.
- Admin.CleanHeroCharacters: the `ValidationError` is `None`.

## Findings

| source | as written | input that shows it | evidently intended | confidence | as-written member | corrected member |
|---|---|---|---|---|---|---|
| myapp/views.py:117 | unpacks the result of `generate_image_from_character` into two names, but that function returns three values (myapp/services.py:505) | any logged-in AJAX POST with a prompt of at most 500 characters, outside the cooldown, for an existing character: the unpacking raises `ValueError`, which line 135 catches, so the answer is a 500 and no image is stored | unpack the images, the prompt id and the workflow; store the first image under the member's folder | high; not executed | Views.GenerateReplyAsWritten | Views.GenerateReply |

The as-written half is proved by `Views.AsWrittenNeverStores`. The intended half is proved
by `Views.GenerateReply`'s contract and `Views.StoredImageServedToMember`.
Against this `myapp/models.py`, `myapp/services.py:403` would raise `AttributeError` even
before line 117 is reached, because `Character` has no `prompt_prefix`. The answer is the
same 500. The model takes the field as present, so the row shows the defect of line 117
alone.

=== FILE: admin.dfy ===
/** The rules of the admin site: the hero-carousel limit, the singleton permissions of
    the company settings, the configuration panel of a workflow or a character (the saved
    configuration laid over the analysed parameters, and the configuration a POST saves),
    the configuration a new character inherits, and which images the character page lists. */
module Admin {
  import opened Results
  import opened Graphs
  import opened WorkflowAnalysis
  import opened ImageGeneration
  import opened Models
  import opened Views

  // ---------------------------------------------------------------------------
  // Company settings
  // ---------------------------------------------------------------------------

  /** The most characters the hero carousel may show. */
  const MaxHeroes := 6

  /** `clean_hero_characters`: the selection unchanged, or `None` for the validation
      error on more than six characters. */
  function CleanHeroCharacters(chars: seq<nat>): (r: Option<seq<nat>>)
    ensures r.Some? <==> |chars| <= MaxHeroes
    ensures r.Some? ==> r.value == chars
  {
    if |chars| > MaxHeroes then None else Some(chars)
  }

  /** `has_add_permission`: adding is allowed only while no settings row exists, and then
      only to users the default rule allows. */
  function CanAddSettings(rows: seq<Row<Company>>, allowedByDefault: bool): (r: bool)
    ensures r ==> |rows| == 0
    ensures |rows| == 0 ==> r == allowedByDefault
  {
    if |rows| > 0 then false else allowedByDefault
  }

  /** `has_delete_permission`: settings are never deleted. */
  function CanDeleteSettings(rows: seq<Row<Company>>, target: Option<nat>): (r: bool)
    ensures !r
  {
    false
  }

  /** Whatever the admin does to the settings, at most one row exists afterwards: an add
      is offered only on an empty table, deletion never, and a save of a new object
      reuses the existing row's key. */
  lemma SettingsStaySingleton(rows: seq<Row<Company>>, pk: Option<nat>, data: Company, newPk: nat,
                              allowedByDefault: bool)
    requires |rows| <= 1 && !HasPk(rows, newPk)
    requires pk.Some? ==> HasPk(rows, pk.value)
    ensures |SaveCompany(rows, pk, data, newPk)| <= 1
    ensures pk.None? && CanAddSettings(rows, allowedByDefault) ==> SaveCompany(rows, pk, data, newPk) == [Row(newPk, data)]
    ensures !CanDeleteSettings(rows, pk)
  {
    CompanyStaysSingle(rows, pk, data, newPk);
  }

  // ---------------------------------------------------------------------------
  // The configuration panel
  // ---------------------------------------------------------------------------

  /** The nine analysed parameters a saved configuration may override. */
  const SavedKeys: seq<string> := ["checkpoint", "vae", "width", "height", "seed", "steps", "cfg",
                                   "sampler_name", "scheduler"]

  /** The analysed parameter stored under a key of the parameter dictionary. */
  function Field(a: Analysis, k: string): Value
  {
    if k == "checkpoint" then a.checkpoint
    else if k == "vae" then a.vae
    else if k == "width" then a.width
    else if k == "height" then a.height
    else if k == "seed" then a.seed
    else if k == "steps" then a.steps
    else if k == "cfg" then a.cfg
    else if k == "sampler_name" then a.samplerName
    else if k == "scheduler" then a.scheduler
    else if k == "upscale_by" then a.upscaleBy
    else Null
  }

  /** `if key in saved_config: workflow_params[key] = saved_config[key]`. */
  function Override(saved: Dict<Value>, k: string, current: Value): (r: Value)
    ensures Has(saved, k) ==> Get(saved, k) == Some(r)
    ensures !Has(saved, k) ==> r == current
  {
    match Get(saved, k)
    case Some(v) => v
    case None => current
  }

  /** A saved LoRA name that is listed: truthy and not the text "None". */
  predicate ListedName(v: Value)
  {
    Truthy(v) && v != Str("None")
  }

  /** `zip(lora_names, lora_strengths)` keeping the pairs with a listed name. */
  function PairLoras(names: seq<Value>, strengths: seq<Value>): (r: seq<LoraEntry>)
    ensures |r| <= |names| && |r| <= |strengths|
    ensures forall k :: 0 <= k < |r| ==> ListedName(r[k].name)
    decreases |names|
  {
    if |names| == 0 || |strengths| == 0 then []
    else
      var rest := PairLoras(names[1..], strengths[1..]);
      if ListedName(names[0]) then [LoraEntry(names[0], strengths[0])] + rest else rest
  }

  /** The pairs are exactly the positions, up to the shorter list, whose name is listed. */
  lemma {:induction false} PairLorasMembers(names: seq<Value>, strengths: seq<Value>, e: LoraEntry)
    ensures e in PairLoras(names, strengths)
            <==> exists i :: 0 <= i < |names| && i < |strengths| && ListedName(names[i])
                             && e == LoraEntry(names[i], strengths[i])
    decreases |names|
  {
    if |names| > 0 && |strengths| > 0 {
      PairLorasMembers(names[1..], strengths[1..], e);
      if e in PairLoras(names[1..], strengths[1..]) {
        var i :| 0 <= i < |names| - 1 && i < |strengths| - 1 && ListedName(names[1..][i])
                 && e == LoraEntry(names[1..][i], strengths[1..][i]);
        assert names[i + 1] == names[1..][i];
      }
      if exists i :: 0 <= i < |names| && i < |strengths| && ListedName(names[i])
                     && e == LoraEntry(names[i], strengths[i]) {
        var i :| 0 <= i < |names| && i < |strengths| && ListedName(names[i])
                 && e == LoraEntry(names[i], strengths[i]);
        if i > 0 {
          assert names[1..][i - 1] == names[i] && strengths[1..][i - 1] == strengths[i];
        }
      }
    }
  }

  /** With every name listed, the pairs are the plain zip, in order. */
  lemma {:induction false} PairLorasAllListed(names: seq<Value>, strengths: seq<Value>)
    requires forall i :: 0 <= i < |names| ==> ListedName(names[i])
    ensures |PairLoras(names, strengths)| == if |names| <= |strengths| then |names| else |strengths|
    ensures forall i :: 0 <= i < |PairLoras(names, strengths)| ==>
              PairLoras(names, strengths)[i] == LoraEntry(names[i], strengths[i])
    decreases |names|
  {
    if |names| > 0 && |strengths| > 0 {
      PairLorasAllListed(names[1..], strengths[1..]);
    }
  }

  /** The parameters shown by the configuration panel: the analysis with the saved
      configuration laid over it. `saved` is `None` when the stored configuration is
      null, empty or not valid JSON. */
  function MergeSaved(a: Analysis, saved: Option<Config>): (r: Analysis)
    ensures saved.None? ==> r == a
    ensures r.upscaleBy == a.upscaleBy
  {
    match saved
    case None => a
    case Some(c) =>
      var v := c.values;
      Analysis(
        checkpoint := Override(v, "checkpoint", a.checkpoint),
        vae := Override(v, "vae", a.vae),
        loras := if c.loraNames.Some? && c.loraStrengths.Some?
                 then PairLoras(c.loraNames.value, c.loraStrengths.value) else a.loras,
        width := Override(v, "width", a.width),
        height := Override(v, "height", a.height),
        seed := Override(v, "seed", a.seed),
        steps := Override(v, "steps", a.steps),
        cfg := Override(v, "cfg", a.cfg),
        samplerName := Override(v, "sampler_name", a.samplerName),
        scheduler := Override(v, "scheduler", a.scheduler),
        upscaleBy := a.upscaleBy)
  }

  /** Each of the nine keys takes the saved value when the configuration holds it and
      keeps the analysed value otherwise; the LoRAs are replaced only when both lists
      are saved. */
  lemma MergeSavedOverrides(a: Analysis, c: Config, k: string)
    requires k in SavedKeys
    ensures Has(c.values, k) ==> Get(c.values, k) == Some(Field(MergeSaved(a, Some(c)), k))
    ensures !Has(c.values, k) ==> Field(MergeSaved(a, Some(c)), k) == Field(a, k)
    ensures MergeSaved(a, Some(c)).loras
            == if c.loraNames.Some? && c.loraStrengths.Some?
               then PairLoras(c.loraNames.value, c.loraStrengths.value) else a.loras
  {
  }

  /** One form field as it is saved: a single text or the list `getlist` returns. */
  datatype Posted = Text(s: string) | Texts(items: seq<string>)

  /** `request.POST.get(k)`: the last value posted under `k`; a field is never posted
      with an empty list of values. */
  function PostGet(post: Dict<seq<string>>, k: string): Option<string>
  {
    match Get(post, k)
    case Some(vs) => if |vs| > 0 then Some(vs[|vs| - 1]) else None
    case None => None
  }

  /** `request.POST.getlist(k)`. */
  function PostList(post: Dict<seq<string>>, k: string): seq<string>
  {
    Get(post, k).GetOr([])
  }

  /** The dictionary literal built from the form, before the `None` values are dropped. */
  function PostedEntries(post: Dict<seq<string>>): (r: seq<(string, Option<Posted>)>)
    ensures |r| == 13
  {
    var text := (k: string) => match PostGet(post, k) case Some(s) => Some(Text(s)) case None => None;
    [("checkpoint", text("checkpoint")),
     ("vae", text("vae")),
     ("width", text("width")),
     ("height", text("height")),
     ("seed", text("seed")),
     ("seed_behavior", Some(Text(PostGet(post, "seed_behavior").GetOr("random")))),
     ("steps", text("steps")),
     ("cfg", text("cfg")),
     ("sampler_name", text("sampler_name")),
     ("scheduler", text("scheduler")),
     ("lora_names", Some(Texts(PostList(post, "lora_name")))),
     ("lora_strengths", Some(Texts(PostList(post, "lora_strength")))),
     ("prompt", text("prompt"))]
  }

  /** `{k: v for k, v in d.items() if v is not None}`. */
  function KeepPresent<V>(d: Dict<Option<V>>): (r: Dict<V>)
    ensures |r| <= |d|
    ensures Keys(r) <= Keys(d)
  {
    if d == [] then []
    else
      var rest := KeepPresent(d[1..]);
      assert Keys(d[1..]) <= Keys(d) by {
        forall k | k in Keys(d[1..]) ensures k in Keys(d) {
          var i :| 0 <= i < |d| - 1 && d[1..][i].0 == k;
          assert d[i + 1].0 == k;
        }
      }
      match d[0].1
      case Some(v) => [(d[0].0, v)] + rest
      case None => rest
  }

  /** A stored value that is itself present. */
  function Present<V>(o: Option<Option<V>>): Option<V>
  {
    match o
    case Some(Some(v)) => Some(v)
    case _ => None
  }

  /** The kept dictionary answers every key with the value it had, when that value was
      not `None`, and lacks the key otherwise. */
  lemma {:induction false} KeepPresentGet<V>(d: Dict<Option<V>>, k: string)
    requires DistinctKeys(d)
    ensures Get(KeepPresent(d), k) == Present(Get(d, k))
  {
    if d != [] {
      assert DistinctKeys(d[1..]) by {
        forall i, j | 0 <= i < j < |d| - 1 ensures d[1..][i].0 != d[1..][j].0 {
          assert d[1..][i] == d[i + 1] && d[1..][j] == d[j + 1];
        }
      }
      KeepPresentGet(d[1..], k);
      if d[0].0 == k {
        assert k !in Keys(KeepPresent(d[1..]));
        NotInKeysGet(KeepPresent(d[1..]), k);
      }
    }
  }

  lemma {:induction false} NotInKeysGet<V>(d: Dict<V>, k: string)
    requires k !in Keys(d)
    ensures Get(d, k) == None
  {
    if d != [] {
      assert d[0].0 in Keys(d);
      assert Keys(d[1..]) <= Keys(d) by {
        forall x | x in Keys(d[1..]) ensures x in Keys(d) {
          var i :| 0 <= i < |d| - 1 && d[1..][i].0 == x;
          assert d[i + 1].0 == x;
        }
      }
      NotInKeysGet(d[1..], k);
    }
  }

  /** The configuration a POST saves: the form's fields without the absent ones. */
  function PostedConfig(post: Dict<seq<string>>): (r: Dict<Posted>)
    ensures |r| <= 13
  {
    KeepPresent(PostedEntries(post))
  }

  /** The form's fields are listed once each. */
  lemma PostedEntriesDistinct(post: Dict<seq<string>>)
    ensures DistinctKeys(PostedEntries(post))
  {
    var d := PostedEntries(post);
    FormKeysDistinct();
    forall i | 0 <= i < |d| ensures d[i].0 == FormKeys[i] {
    }
  }

  /** The form's field names, in the order the form lists them. */
  const FormKeys: seq<string> := ["checkpoint", "vae", "width", "height", "seed", "seed_behavior", "steps",
                                  "cfg", "sampler_name", "scheduler", "lora_names", "lora_strengths", "prompt"]

  lemma FormKeysDistinct()
    ensures forall i, j :: 0 <= i < j < |FormKeys| ==> FormKeys[i] != FormKeys[j]
  {
    forall i, j | 0 <= i < j < |FormKeys| ensures FormKeys[i] != FormKeys[j] {
      assert |FormKeys[i]| != |FormKeys[j]| || FormKeys[i][0] != FormKeys[j][0];
    }
  }

  /** The seed behaviour is always saved, "random" when the form leaves it out. */
  lemma PostedSeedBehaviour(post: Dict<seq<string>>)
    ensures Get(PostedConfig(post), "seed_behavior") == Some(Text(PostGet(post, "seed_behavior").GetOr("random")))
  {
    var d := PostedEntries(post);
    PostedEntriesDistinct(post);
    GetAt(d, 5);
    KeepPresentGet(d, "seed_behavior");
  }

  /** Both LoRA lists are always saved, empty when the form has no LoRA rows. */
  lemma PostedLoraLists(post: Dict<seq<string>>)
    ensures Get(PostedConfig(post), "lora_names") == Some(Texts(PostList(post, "lora_name")))
    ensures Get(PostedConfig(post), "lora_strengths") == Some(Texts(PostList(post, "lora_strength")))
  {
    var d := PostedEntries(post);
    PostedEntriesDistinct(post);
    GetAt(d, 10);
    GetAt(d, 11);
    KeepPresentGet(d, "lora_names");
    KeepPresentGet(d, "lora_strengths");
  }

  /** A text field is saved exactly when the form posted it, with the posted text. */
  lemma PostedTextField(post: Dict<seq<string>>, i: nat)
    requires i < 13 && i != 5 && i != 10 && i != 11
    ensures Get(PostedConfig(post), FormKeys[i])
            == match PostGet(post, FormKeys[i]) case Some(s) => Some(Text(s)) case None => None
  {
    var d := PostedEntries(post);
    PostedEntriesDistinct(post);
    assert d[i] == (FormKeys[i], match PostGet(post, FormKeys[i]) case Some(s) => Some(Text(s)) case None => None);
    GetAt(d, i);
    KeepPresentGet(d, FormKeys[i]);
  }

  // ---------------------------------------------------------------------------
  // Characters
  // ---------------------------------------------------------------------------

  /** A stored text field that Python reads as true: present and non-empty. */
  predicate TruthyText(t: Option<string>)
  {
    t.Some? && t.value != ""
  }

  /** `CharacterAdmin.save_model`: a new character without a configuration inherits its
      workflow's active configuration. */
  function SaveCharacterConfig(isNew: bool, config: Option<string>, workflowConfig: Option<string>): (r: Option<string>)
    ensures !isNew ==> r == config
    ensures TruthyText(config) ==> r == config
    ensures r == config || r == workflowConfig
    ensures TruthyText(r) <==> TruthyText(config) || (isNew && TruthyText(workflowConfig))
  {
    if isNew && !TruthyText(config) && TruthyText(workflowConfig) then workflowConfig else config
  }

  /** `CharacterImageInline.get_queryset`: an image is listed when it has no user or its
      user is staff. `users` maps each user's id to its staff flag. */
  predicate InlineShows(user: Option<int>, users: map<int, bool>)
  {
    user.None? || (user.value in users && users[user.value])
  }

  /** Every listed image that belongs to a user can be fetched by any visitor through the
      private media view. */
  lemma InlineListedArePublic(uid: int, character: string, filename: string, visitor: Visitor,
                              users: map<int, bool>, files: set<string>)
    requires InlineShows(Some(uid), users)
    requires CharacterImagePath(Some(uid), character, filename) in files
    ensures ServePrivateMedia(CharacterImagePath(Some(uid), character, filename), true,
                              visitor, users, files).File?
  {
    StaffImagesPublic(uid, character, filename, visitor, users, files);
  }

  /** A customer's image is not listed. */
  lemma InlineHidesCustomers(uid: int, users: map<int, bool>)
    requires uid in users && !users[uid]
    ensures !InlineShows(Some(uid), users)
  {
  }
}

=== FILE: backends.dfy ===
/** Choosing the video backend: the protocol an address is reached with, the address a
    configured base URL is normalised to, the score of one queue probe, and the choice
    of the least-loaded active configuration. */
module Backends {
  import opened Text

  /** The HTTP and websocket schemes used for one backend. */
  datatype Protocols = Protocols(web: string, socket: string)

  /** Addresses behind a TLS-terminating tunnel or proxy. */
  predicate Tunnelled(address: string)
  {
    Contains(address, "runpod.net") || Contains(address, "cloudflare") || Contains(address, "ngrok")
  }

  /** `get_protocols(address)`. */
  function GetProtocols(address: string): (r: Protocols)
    ensures r == Protocols("https", "wss") <==> Tunnelled(address)
    ensures r == Protocols("http", "ws") <==> !Tunnelled(address)
    ensures r.web == "https" <==> r.socket == "wss"
  {
    if Tunnelled(address) then Protocols("https", "wss") else Protocols("http", "ws")
  }

  /** `base_url.replace("http://", "").replace("https://", "").rstrip('/')`. */
  function Normalise(baseUrl: string): (r: string)
    ensures |r| <= |baseUrl|
    ensures r == [] || r[|r| - 1] != '/'
  {
    DropTrailing(DeleteAll(DeleteAll(baseUrl, "http://"), "https://"), '/')
  }

  /** A text none of whose characters starts `pat` keeps `s` free of `pat` in front of it. */
  lemma {:induction false} NoFirstCharNoContains(p: string, s: string, pat: string)
    requires |pat| > 0 && pat[0] !in p && !Contains(s, pat)
    ensures !Contains(p + s, pat)
  {
    if p != [] {
      assert p[0] in p;
      assert (p + s)[0] == p[0];
      assert !StartsWith(p + s, pat);
      assert (p + s)[1..] == p[1..] + s;
      NoFirstCharNoContains(p[1..], s, pat);
    } else {
      assert p + s == s;
    }
  }

  /** A bare host, free of both schemes and of a trailing '/', is its own address, and
      the plain scheme is dropped from it. */
  lemma NormaliseOfPlain(host: string)
    requires !Contains(host, "http://") && !Contains(host, "https://")
    requires host == [] || host[|host| - 1] != '/'
    ensures Normalise(host) == host
    ensures Normalise("http://" + host) == host
  {
    var url := "http://" + host;
    assert StartsWith(url, "http://") by {
      assert url[..7] == "http://";
    }
    assert url[7..] == host;
    assert DeleteAll(url, "http://") == DeleteAll(host, "http://");
  }

  /** "http://" does not occur in a secure URL whose host is free of it. */
  lemma SecureHasNoPlain(host: string)
    requires !Contains(host, "http://")
    ensures !Contains("https://" + host, "http://")
  {
    var url := "https://" + host;
    NoFirstCharNoContains("ttps://", host, "http://");
    assert url[4] == 's';
    assert !StartsWith(url, "http://");
    assert url[1..] == "ttps://" + host;
  }

  /** The secure scheme survives the first replacement and is dropped by the second. */
  lemma NormaliseOfSecure(host: string)
    requires !Contains(host, "http://") && !Contains(host, "https://")
    requires host == [] || host[|host| - 1] != '/'
    ensures Normalise("https://" + host) == host
  {
    var url := "https://" + host;
    SecureHasNoPlain(host);
    var once := DeleteAll(url, "http://");
    assert once == url;
    assert StartsWith(url, "https://") by {
      assert url[..8] == "https://";
    }
    assert url[8..] == host;
    assert DeleteAll(url, "https://") == DeleteAll(host, "https://");
  }

  /** The outcome of `GET /queue` on one backend: an answer with its status and queue
      lengths, or any failure (timeout, refused connection, undecodable body). */
  datatype Probe = Answered(status: int, running: nat, pending: nat) | Failed

  /** The score of a backend that could not be probed. */
  const FailedScore: nat := 9999

  /** The load `check_video_gpu_load` reports for one probe. */
  function Score(p: Probe): nat
  {
    if p.Answered? && p.status == 200 then p.running + p.pending else FailedScore
  }

  /** A backend's score is its queue length when it answered 200, and the failure score
      otherwise; a real load of 9999 cannot be told from a failed probe. */
  lemma ScoreMeaning(p: Probe)
    ensures p.Answered? && p.status == 200 ==> Score(p) == p.running + p.pending
    ensures !(p.Answered? && p.status == 200) ==> Score(p) == FailedScore
    ensures Score(Answered(200, 9999, 0)) == Score(Failed)
  {
  }

  /** One probed backend: its normalised address and its load. */
  datatype Load = Load(address: string, score: nat)

  /** The probe results, in configuration order. */
  function Loads(configs: seq<string>, probes: seq<Probe>): (r: seq<Load>)
    requires |probes| == |configs|
    ensures |r| == |configs|
  {
    seq(|configs|, i requires 0 <= i < |configs| => Load(Normalise(configs[i]), Score(probes[i])))
  }

  predicate SortedByScore(s: seq<Load>)
  {
    forall i, j :: 0 <= i < j < |s| ==> s[i].score <= s[j].score
  }

  /** Places `x` in front of the first element of `s` whose score is not smaller. */
  function Insert(x: Load, s: seq<Load>): (r: seq<Load>)
    ensures |r| == |s| + 1
    ensures r[0] == x || (|s| > 0 && r[0] == s[0])
  {
    if s == [] || x.score <= s[0].score then [x] + s
    else [s[0]] + Insert(x, s[1..])
  }

  /** Inserting into a sorted list keeps it sorted. */
  lemma {:induction false} InsertSorted(x: Load, s: seq<Load>)
    requires SortedByScore(s)
    ensures SortedByScore(Insert(x, s))
  {
    if s != [] && x.score > s[0].score {
      var rest := Insert(x, s[1..]);
      InsertSorted(x, s[1..]);
      var r := [s[0]] + rest;
      assert Insert(x, s) == r;
      assert s[0].score <= rest[0].score;
      forall i, j | 0 <= i < j < |r| ensures r[i].score <= r[j].score {
        if i == 0 && j > 1 {
          assert r[j] == rest[j - 1] && rest[0].score <= rest[j - 1].score;
        }
      }
    }
  }

  lemma {:induction false} InsertPermutes(x: Load, s: seq<Load>)
    ensures multiset(Insert(x, s)) == multiset(s) + multiset{x}
  {
    if s != [] && x.score > s[0].score {
      InsertPermutes(x, s[1..]);
      assert s == [s[0]] + s[1..];
    }
  }

  /** `sorted(results, key=lambda x: x[1])`: a stable sort by score. */
  function SortByScore(rs: seq<Load>): (r: seq<Load>)
    ensures |r| == |rs|
  {
    if rs == [] then [] else Insert(rs[0], SortByScore(rs[1..]))
  }

  /** The sort returns its input ordered by score. */
  lemma {:induction false} SortSorted(rs: seq<Load>)
    ensures SortedByScore(SortByScore(rs))
  {
    if rs != [] {
      SortSorted(rs[1..]);
      InsertSorted(rs[0], SortByScore(rs[1..]));
    }
  }

  /** The sort only reorders the probe results. */
  lemma {:induction false} SortPermutes(rs: seq<Load>)
    ensures multiset(SortByScore(rs)) == multiset(rs)
  {
    if rs != [] {
      var sorted := SortByScore(rs[1..]);
      SortPermutes(rs[1..]);
      InsertPermutes(rs[0], sorted);
      assert SortByScore(rs) == Insert(rs[0], sorted);
      assert rs == [rs[0]] + rs[1..];
      assert multiset(rs) == multiset{rs[0]} + multiset(rs[1..]);
    }
  }

  /** `i` holds the smallest score, and no earlier position holds it. */
  predicate IsFirstMin(s: seq<Load>, i: int)
  {
    0 <= i < |s|
    && (forall j :: 0 <= j < |s| ==> s[i].score <= s[j].score)
    && (forall j :: 0 <= j < i ==> s[j].score > s[i].score)
  }

  function FirstMin(s: seq<Load>): (i: nat)
    requires |s| > 0
    ensures IsFirstMin(s, i)
  {
    if |s| == 1 then 0
    else
      var k := FirstMin(s[1..]);
      if s[0].score <= s[k + 1].score then 0 else k + 1
  }

  /** Stability at the head: the first element after sorting is the earliest of the
      least-loaded backends. */
  lemma {:induction false} SortHeadIsFirstMin(rs: seq<Load>)
    requires |rs| > 0
    ensures SortByScore(rs)[0] == rs[FirstMin(rs)]
  {
    if |rs| > 1 {
      SortHeadIsFirstMin(rs[1..]);
    }
  }

  /** Where jobs go when no video backend is configured. */
  const DefaultAddress := "127.0.0.1:8188"

  /** `get_active_video_comfyui_address()`, given the active base URLs in order and one
      probe result per configuration. */
  function SelectBackend(configs: seq<string>, probes: seq<Probe>): string
    requires |probes| == |configs|
  {
    if |configs| == 0 then DefaultAddress
    else if |configs| == 1 then Normalise(configs[0])
    else
      var best := SortByScore(Loads(configs, probes))[0];
      if best.score == FailedScore then Normalise(configs[0]) else best.address
  }

  /** No configuration selects the default address, one selects itself whatever its
      probe says, and several select the earliest least-loaded one, falling back to the
      first configuration when that load is the failure score. */
  lemma SelectLeastLoaded(configs: seq<string>, probes: seq<Probe>)
    requires |probes| == |configs|
    ensures |configs| == 0 ==> SelectBackend(configs, probes) == DefaultAddress
    ensures |configs| == 1 ==> forall q :: SelectBackend(configs, [q]) == Normalise(configs[0])
    ensures |configs| >= 2 ==>
      exists i :: EarliestLeast(probes, i)
        && SelectBackend(configs, probes)
           == if Score(probes[i]) == FailedScore then Normalise(configs[0]) else Normalise(configs[i])
  {
    if |configs| >= 2 {
      var ls := Loads(configs, probes);
      SortHeadIsFirstMin(ls);
      var i := FirstMin(ls);
      assert IsFirstMin(ls, i);
      assert forall j :: 0 <= j < |ls| ==> ls[j].score == Score(probes[j]);
      assert EarliestLeast(probes, i);
    }
  }

  /** Probe `i` has the least score, and no earlier probe has it. */
  predicate EarliestLeast(probes: seq<Probe>, i: int)
  {
    0 <= i < |probes|
    && (forall j :: 0 <= j < |probes| ==> Score(probes[i]) <= Score(probes[j]))
    && (forall j :: 0 <= j < i ==> Score(probes[j]) > Score(probes[i]))
  }
}

=== FILE: filters.dfy ===
/** The `split` template filter. */
module Filters {
  import opened Results
  import opened Text

  /** `[item.strip() for item in value.split(arg) if item.strip()]`. */
  function StrippedPieces(pieces: seq<string>): (r: seq<string>)
    ensures |r| <= |pieces|
    ensures forall k :: 0 <= k < |r| ==> r[k] != [] && !IsSpace(r[k][0]) && !IsSpace(r[k][|r[k]| - 1])
  {
    if pieces == [] then []
    else
      var t := Strip(pieces[0]);
      (if t != [] then [t] else []) + StrippedPieces(pieces[1..])
  }

  /** `split(value, arg)`: `value` is `None` for a missing value; a falsy value (absent or
      empty) gives the empty list, and `str.split` raises `ValueError` on an empty separator. */
  function SplitFilter(value: Option<string>, arg: string): (r: Result<seq<string>>)
    ensures value.None? || value == Some("") ==> r == Ok([])
    ensures r.Err? <==> value.Some? && value != Some("") && arg == ""
    ensures r.Err? ==> r.fault == ValueError
    ensures r.Ok? ==> forall k :: 0 <= k < |r.value| ==> r.value[k] != [] && r.value[k] == Strip(r.value[k])
  {
    match value
    case None => Ok([])
    case Some(s) =>
      if s == "" then Ok([])
      else if arg == "" then Err(ValueError)
      else
        var r := StrippedPieces(Split(s, arg));
        forall k | 0 <= k < |r| ensures r[k] == Strip(r[k]) {
          StripOfTrimmed(r[k]);
        }
        Ok(r)
  }

  /** The kept items are the stripped pieces, in order, that are not blank: each piece
      contributes its stripped text or nothing. */
  lemma {:induction false} StrippedPiecesAppend(a: seq<string>, b: seq<string>)
    ensures StrippedPieces(a + b) == StrippedPieces(a) + StrippedPieces(b)
  {
    if a != [] {
      assert (a + b)[1..] == a[1..] + b;
      StrippedPiecesAppend(a[1..], b);
    } else {
      assert a + b == b;
    }
  }

  /** A non-blank value without the separator is its own stripped single item. */
  lemma SplitFilterSingle(s: string, arg: string)
    requires |arg| > 0 && Strip(s) != [] && NoEarlySep(s, arg)
    ensures SplitFilter(Some(s), arg) == Ok([Strip(s)])
  {
    assert s != "" by {
      assert Strip("") == "";
    }
    SplitOfSingle(s, arg);
    assert Split(s, arg) == [s];
    assert StrippedPieces([s]) == [Strip(s)] + StrippedPieces([]);
    assert StrippedPieces(Split(s, arg)) == [Strip(s)];
    assert SplitFilter(Some(s), arg) == Ok(StrippedPieces(Split(s, arg)));
  }

  /** Items that are already stripped, non-empty and free of the separator come back
      from the filter applied to their join. */
  lemma {:induction false} SplitFilterJoin(items: seq<string>, arg: string)
    requires |arg| > 0 && |items| > 0
    requires forall i :: 0 <= i < |items| ==> items[i] != [] && Strip(items[i]) == items[i]
    requires forall i :: 0 <= i < |items| ==> NoEarlySep(items[i], arg)
    ensures SplitFilter(Some(Join(items, arg)), arg) == Ok(items)
  {
    SplitJoin(items, arg);
    assert Join(items, arg) != "" by {
      JoinNonEmpty(items, arg);
    }
    StrippedOfClean(items);
  }

  lemma {:induction false} JoinNonEmpty(items: seq<string>, sep: string)
    requires |items| > 0 && items[0] != []
    ensures Join(items, sep) != []
  {
    if |items| > 1 {
      assert |Join(items, sep)| >= |items[0]|;
    }
  }

  lemma {:induction false} StrippedOfClean(items: seq<string>)
    requires forall i :: 0 <= i < |items| ==> items[i] != [] && Strip(items[i]) == items[i]
    ensures StrippedPieces(items) == items
  {
    if items != [] {
      StrippedOfClean(items[1..]);
    }
  }
}

=== FILE: graphs.dfy ===
/** The API-format workflow: an insertion-ordered JSON object from node id to
    `{class_type, _meta.title, inputs}`, whose inputs are literals or `[source_id, slot]`
    references. Python dicts keep insertion order, and the modelled code depends on it
    (last node wins, configuration order breaks ties, manifest order is output order),
    so every JSON object here is a sequence of (key, value) pairs. */
module Graphs {
  import opened Results
  import opened Text

  /** One input value of a node. `Num` is a JSON float, compared only for equality;
      `Ref` is a non-empty list `[source_id, slot]`, `EmptyList` is `[]`. */
  datatype Value =
    | Str(s: string)
    | Int(i: int)
    | Num(r: real)
    | Bool(b: bool)
    | Ref(id: string, slot: int)
    | EmptyList
    | Null

  /** Python truthiness of a value. */
  predicate Truthy(v: Value)
  {
    match v
    case Str(s) => s != ""
    case Int(i) => i != 0
    case Num(r) => r != 0.0
    case Bool(b) => b
    case Ref(_, _) => true
    case EmptyList => false
    case Null => false
  }

  /** `isinstance(v, list)`. */
  predicate IsList(v: Value)
  {
    v.Ref? || v.EmptyList?
  }

  /** An insertion-ordered JSON object with string keys. */
  type Dict<V> = seq<(string, V)>

  /** `d.get(k)`: the value stored under `k`, if any. */
  function Get<V>(d: Dict<V>, k: string): Option<V>
  {
    if |d| == 0 then None
    else if d[0].0 == k then Some(d[0].1)
    else Get(d[1..], k)
  }

  /** `k in d`. */
  predicate Has<V>(d: Dict<V>, k: string)
  {
    Get(d, k).Some?
  }

  function Keys<V>(d: Dict<V>): set<string>
  {
    set i | 0 <= i < |d| :: d[i].0
  }

  lemma HasIffKey<V>(d: Dict<V>, k: string)
    ensures Has(d, k) <==> k in Keys(d)
  {
    if |d| > 0 {
      HasIffKey(d[1..], k);
      assert Keys(d) == {d[0].0} + Keys(d[1..]) by {
        forall x | x in Keys(d) ensures x in {d[0].0} + Keys(d[1..]) {
          var i :| 0 <= i < |d| && d[i].0 == x;
          if i > 0 { assert d[1..][i - 1].0 == x; }
        }
      }
    }
  }

  /** Two objects with the same keys in the same order hold the same keys. */
  lemma {:induction false} SameKeysHas<V, W>(a: Dict<V>, b: Dict<W>, k: string)
    requires |a| == |b| && forall i :: 0 <= i < |a| ==> a[i].0 == b[i].0
    ensures Has(a, k) <==> Has(b, k)
  {
    if |a| > 0 && a[0].0 != k {
      SameKeysHas(a[1..], b[1..], k);
    }
  }

  /** `d[k] = v`: an existing key keeps its position, a new key is appended. */
  function Put<V>(d: Dict<V>, k: string, v: V): (r: Dict<V>)
    ensures Get(r, k) == Some(v)
    ensures forall k' :: k' != k ==> Get(r, k') == Get(d, k')
    ensures |r| == if Has(d, k) then |d| else |d| + 1
    ensures forall i :: 0 <= i < |d| ==> r[i].0 == d[i].0
  {
    if |d| == 0 then [(k, v)]
    else if d[0].0 == k then [(k, v)] + d[1..]
    else [d[0]] + Put(d[1..], k, v)
  }

  /** `del d[k]` (a no-op when `k` is absent). */
  function Delete<V>(d: Dict<V>, k: string): (r: Dict<V>)
    ensures !Has(r, k)
    ensures forall k' :: k' != k ==> Get(r, k') == Get(d, k')
    ensures |r| <= |d|
  {
    if |d| == 0 then d
    else if d[0].0 == k then Delete(d[1..], k)
    else [d[0]] + Delete(d[1..], k)
  }

  /** Deleting an absent key changes nothing. */
  lemma {:induction false} DeleteAbsent<V>(d: Dict<V>, k: string)
    requires !Has(d, k)
    ensures Delete(d, k) == d
  {
    if |d| > 0 {
      DeleteAbsent(d[1..], k);
    }
  }

  /** A key that `Get` finds is stored at some position of the object. */
  lemma {:induction false} GetFound<V>(d: Dict<V>, k: string)
    requires Get(d, k).Some?
    ensures exists i :: 0 <= i < |d| && d[i].0 == k && d[i].1 == Get(d, k).value
  {
    if d[0].0 != k {
      GetFound(d[1..], k);
      var i :| 0 <= i < |d[1..]| && d[1..][i].0 == k && d[1..][i].1 == Get(d[1..], k).value;
      assert d[i + 1] == d[1..][i];
    }
  }

  /** The keys of a JSON object are unique. */
  predicate DistinctKeys<V>(d: Dict<V>)
  {
    forall i, j :: 0 <= i < j < |d| ==> d[i].0 != d[j].0
  }

  /** In an object with unique keys, looking up an entry's key finds that entry. */
  lemma {:induction false} GetAt<V>(d: Dict<V>, i: nat)
    requires DistinctKeys(d) && i < |d|
    ensures Get(d, d[i].0) == Some(d[i].1)
  {
    if i > 0 {
      assert d[1..][i - 1] == d[i];
      GetAt(d[1..], i - 1);
    }
  }

  /** One node of the workflow. A missing `_meta.title` reads as ""; every node is taken to
      carry a string `class_type` (`update_workflow` reads it without a default). */
  datatype Node = Node(classType: string, title: string, inputs: Dict<Value>)

  /** The workflow: node id to node, in file order. */
  type Graph = Dict<Node>

  /** A decoded workflow file: the analysis functions also accept a non-object. */
  datatype Document = Object(graph: Graph) | NotAnObject

  /** `inputs.get(k)`: absent inputs read as `None`. */
  function Input(n: Node, k: string): Value
  {
    Get(n.inputs, k).GetOr(Null)
  }

  /** The node ids of a graph. */
  function Ids(g: Graph): set<string>
  {
    Keys(g)
  }

  /** The title of the node `id`, or "" when there is no such node
      (`workflow.get(id, {}).get("_meta", {}).get("title", "")`). */
  function TitleOf(g: Graph, id: string): string
  {
    match Get(g, id)
    case Some(n) => n.title
    case None => ""
  }

  /** The same ids, class types and titles in the same order: only inputs may differ. */
  predicate SameShape(a: Graph, b: Graph)
  {
    && |a| == |b|
    && forall i :: 0 <= i < |a| ==>
         a[i].0 == b[i].0 && a[i].1.classType == b[i].1.classType && a[i].1.title == b[i].1.title
  }

  lemma SameShapeTrans(a: Graph, b: Graph, c: Graph)
    requires SameShape(a, b) && SameShape(b, c)
    ensures SameShape(a, c)
  {
  }

  /** The index of the last entry satisfying `p`, or None when none does. */
  function LastIndex<V>(d: Dict<V>, p: (string, V) -> bool): (r: Option<nat>)
    ensures r.Some? ==> r.value < |d| && p(d[r.value].0, d[r.value].1)
    ensures r.Some? ==> forall j :: r.value < j < |d| ==> !p(d[j].0, d[j].1)
    ensures r.None? ==> forall j :: 0 <= j < |d| ==> !p(d[j].0, d[j].1)
  {
    if |d| == 0 then None
    else if p(d[|d| - 1].0, d[|d| - 1].1) then Some(|d| - 1)
    else LastIndex(d[..|d| - 1], p)
  }

  /** The last match of a dict is the last match of its tail, shifted by one, or else
      its first entry when only that one matches. */
  lemma {:induction false} LastIndexFront<V>(d: Dict<V>, p: (string, V) -> bool)
    requires |d| > 0
    ensures LastIndex(d, p) == match LastIndex(d[1..], p)
                               case Some(j) => Some(j + 1)
                               case None => if p(d[0].0, d[0].1) then Some(0) else None
    decreases |d|
  {
    var n := |d|;
    if n > 1 {
      var tail := d[1..];
      assert tail[|tail| - 1] == d[n - 1];
      if !p(d[n - 1].0, d[n - 1].1) {
        var front := d[..n - 1];
        LastIndexFront(front, p);
        assert front[1..] == tail[..|tail| - 1];
        assert front[0] == d[0];
      }
    }
  }

  /** Python's `int(x)` truncation of a float toward zero. */
  function Truncate(r: real): int
  {
    if r >= 0.0 then r.Floor else -((-r).Floor)
  }

  /** Python's `int(v)`: strings are parsed, floats truncated, `bool` is 0 or 1,
      `None` and lists raise `TypeError`. */
  function ToInt(v: Value): (r: Result<int>)
    ensures v.Int? ==> r == Ok(v.i)
    ensures (v.Null? || IsList(v)) ==> r == Err(TypeError)
    ensures r.Err? ==> r.fault == TypeError || r.fault == ValueError
  {
    match v
    case Int(i) => Ok(i)
    case Bool(b) => Ok(if b then 1 else 0)
    case Num(x) => Ok(Truncate(x))
    case Str(s) =>
      (match ParseInt(s)
       case Some(i) => Ok(i)
       case None => Err(ValueError))
    case _ => Err(TypeError)
  }

  /** Python's `float(v)`, yielding the float as a `Num`. */
  function ToFloat(v: Value): (r: Result<Value>)
    ensures r.Ok? ==> r.value.Num?
    ensures v.Num? ==> r == Ok(v)
    ensures (v.Null? || IsList(v)) ==> r == Err(TypeError)
  {
    match v
    case Int(i) => Ok(Num(i as real))
    case Bool(b) => Ok(Num(if b then 1.0 else 0.0))
    case Num(x) => Ok(Num(x))
    case Str(s) =>
      (match ParseDecimal(s)
       case Some(x) => Ok(Num(x))
       case None => Err(ValueError))
    case _ => Err(TypeError)
  }

  /** The class of the LoRA stack node, which holds six name/strength slots. */
  const LoraStack := "DW_LoRAStackApplySimple"

  /** `f"lora_{i}_name"` for a slot 1..6. */
  function LoraNameKey(i: nat): string
    requires 1 <= i <= 6
  {
    "lora_" + [DigitChar(i)] + "_name"
  }

  /** `f"lora_{i}_strength"` for a slot 1..6. */
  function LoraStrengthKey(i: nat): string
    requires 1 <= i <= 6
  {
    "lora_" + [DigitChar(i)] + "_strength"
  }

  lemma LoraKeysDistinct(i: nat, j: nat)
    requires 1 <= i <= 6 && 1 <= j <= 6
    ensures LoraNameKey(i) != LoraStrengthKey(j)
    ensures i != j ==> LoraNameKey(i) != LoraNameKey(j) && LoraStrengthKey(i) != LoraStrengthKey(j)
  {
    assert LoraNameKey(i)[5] == DigitChar(i);
    assert LoraNameKey(j)[5] == DigitChar(j);
    assert LoraStrengthKey(i)[5] == DigitChar(i);
    assert LoraStrengthKey(j)[5] == DigitChar(j);
    assert |LoraNameKey(i)| != |LoraStrengthKey(j)|;
  }
}

=== FILE: image_classify.dfy ===
/** Classifying an output node of an image workflow: by its title first, then by
    following its image link back through reroutes and decoders. */
module ImageClassify {
  import opened Results
  import opened Text
  import opened Graphs

  datatype Kind = FaceDetailer | UpScaler | Normal | Unknown

  /** The name under which a kind is reported. */
  function KindName(k: Kind): string
  {
    match k
    case FaceDetailer => "Gen_FaceDetailer"
    case UpScaler => "Gen_UpScaler"
    case Normal => "Gen_Normal"
    case Unknown => "Gen_Unknown"
  }

  /** The pair the classifier returns: a kind and whether to save the image. */
  datatype Classification = Classification(kind: Kind, save: bool)

  /** A list-valued input `key`: `Some(Ok(id))` for `[id, slot]`, `Some(Err(IndexError))`
      for `[]` (reading its first element raises), `None` when absent or no list. */
  function ListHead(n: Node, key: string): (r: Option<Result<string>>)
    ensures r.None? <==> !IsList(Input(n, key))
    ensures r == Some(Err(IndexError)) <==> Input(n, key) == EmptyList
  {
    match Input(n, key)
    case Ref(id, _) => Some(Ok(id))
    case EmptyList => Some(Err(IndexError))
    case _ => None
  }

  /** `images` when it is a list, else `image`; "" stands for no source. */
  function ImageSource(n: Node): Result<string>
  {
    match ListHead(n, "images")
    case Some(x) => x
    case None =>
      match ListHead(n, "image")
      case Some(x) => x
      case None => Ok("")
  }

  /** The title rules, on the upper-cased title, in their order of precedence. */
  function TitleKind(title: string): Option<Kind>
  {
    if Contains(title, "FACE") || Contains(title, "DETAILER") then Some(FaceDetailer)
    else if Contains(title, "UPSCALE") then Some(UpScaler)
    else if Contains(title, "NORMAL") || Contains(title, "BASE") then Some(Normal)
    else None
  }

  /** A face-detailing stage, by lower-cased class name. */
  predicate FaceStage(c: string)
  {
    Contains(c, "face") || Contains(c, "detailer") || Contains(c, "segs")
  }

  /** An upscaling stage, by lower-cased class name or title. */
  predicate UpscaleStage(c: string, t: string)
  {
    Contains(c, "upscale") || Contains(t, "upscale")
  }

  /** A preview stage, by lower-cased class name or title. */
  predicate PreviewStage(c: string, t: string)
  {
    Contains(c, "preview") || Contains(t, "preview")
  }

  /** The link a pass-through node is followed along: a reroute's `image` (then
      `images`), else a decoder's `samples`; None when the walk stops here. */
  function Passthrough(n: Node): Option<Result<string>>
  {
    var c := Lower(n.classType);
    var viaReroute := if Contains(c, "reroute") then
                        (match ListHead(n, "image")
                         case Some(x) => Some(x)
                         case None => ListHead(n, "images"))
                      else None;
    if viaReroute.Some? then viaReroute
    else if Contains(c, "decode") then ListHead(n, "samples")
    else None
  }

  lemma VisitShrinks(ids: set<string>, visited: set<string>, x: string)
    requires x in ids && x !in visited
    ensures |ids - (visited + {x})| < |ids - visited|
  {
    var before, after := ids - visited, ids - (visited + {x});
    assert before == after + {x} && x !in after;
  }

  /** The backtracking walk from `cur`. It stops at "", at an id already visited or
      missing from the workflow, at a recognised stage, and at any node it cannot pass
      through; every stop without a recognised stage reads as Gen_Normal. */
  function Trace(g: Graph, cur: string, visited: set<string>): (r: Result<Kind>)
    ensures r.Ok? ==> r.value != Unknown
    ensures r.Err? ==> r.fault == IndexError
    decreases |Ids(g) - visited|
  {
    if cur == "" || cur in visited then Ok(Normal)
    else
      match Get(g, cur)
      case None => Ok(Normal)
      case Some(n) =>
        var c, t := Lower(n.classType), Lower(n.title);
        if FaceStage(c) then Ok(FaceDetailer)
        else if UpscaleStage(c, t) then Ok(UpScaler)
        else if PreviewStage(c, t) then Ok(Normal)
        else
          match Passthrough(n)
          case None => Ok(Normal)   // a sampler returns Gen_Normal, as does the final break
          case Some(next) =>
            var id :- next;
            HasIffKey(g, cur);
            VisitShrinks(Ids(g), visited, cur);
            Trace(g, id, visited + {cur})
  }

  /** `classify_image_node(node_id, workflow)`. */
  function ClassifyImageNode(id: string, g: Graph): (r: Result<Classification>)
    ensures r.Ok? ==> r.value.save
    ensures r.Ok? && r.value.kind == Unknown <==> !Has(g, id)
    ensures r.Err? ==> r.fault == IndexError
    ensures Has(g, id) ==> match TitleKind(Upper(Get(g, id).value.title))
                           case Some(k) => r == Ok(Classification(k, true))
                           case None => true
    ensures Has(g, id) && TitleKind(Upper(Get(g, id).value.title)).None?
            && !IsList(Input(Get(g, id).value, "images")) && !IsList(Input(Get(g, id).value, "image"))
            ==> r == Ok(Classification(Normal, true))
  {
    match Get(g, id)
    case None => Ok(Classification(Unknown, true))
    case Some(n) =>
      match TitleKind(Upper(n.title))
      case Some(k) => Ok(Classification(k, true))
      case None =>
        var source :- ImageSource(n);
        var kind :- Trace(g, source, {});
        Ok(Classification(kind, true))
  }

  /** Some node of the workflow is a face-detailing stage. */
  predicate HasFaceStage(g: Graph)
  {
    exists i :: 0 <= i < |g| && FaceStage(Lower(g[i].1.classType))
  }

  /** Some node of the workflow is an upscaling stage. */
  predicate HasUpscaleStage(g: Graph)
  {
    exists i :: 0 <= i < |g| && UpscaleStage(Lower(g[i].1.classType), Lower(g[i].1.title))
  }

  /** The walk reports a stage only when it stood on a node of that stage. */
  lemma {:induction false} TraceSound(g: Graph, cur: string, visited: set<string>)
    ensures Trace(g, cur, visited) == Ok(FaceDetailer) ==> HasFaceStage(g)
    ensures Trace(g, cur, visited) == Ok(UpScaler) ==> HasUpscaleStage(g)
    decreases |Ids(g) - visited|
  {
    if cur != "" && cur !in visited && Has(g, cur) {
      var n := Get(g, cur).value;
      GetFound(g, cur);
      var i :| 0 <= i < |g| && g[i].0 == cur && g[i].1 == n;
      var c, t := Lower(n.classType), Lower(n.title);
      if !FaceStage(c) && !UpscaleStage(c, t) && !PreviewStage(c, t) {
        match Passthrough(n)
        case None =>
        case Some(next) =>
          if next.Ok? {
            HasIffKey(g, cur);
            VisitShrinks(Ids(g), visited, cur);
            TraceSound(g, next.value, visited + {cur});
          }
      }
    }
  }

  /** A node the title rules do not decide is a face detailer or upscaler only when
      some node of the workflow is one. */
  lemma ClassifySound(id: string, g: Graph)
    requires Has(g, id) && TitleKind(Upper(Get(g, id).value.title)).None?
    ensures ClassifyImageNode(id, g) == Ok(Classification(FaceDetailer, true)) ==> HasFaceStage(g)
    ensures ClassifyImageNode(id, g) == Ok(Classification(UpScaler, true)) ==> HasUpscaleStage(g)
  {
    var n := Get(g, id).value;
    if ImageSource(n).Ok? {
      TraceSound(g, ImageSource(n).value, {});
    }
  }

  /** A walk that starts on a visited id, or on an id outside the workflow, is Gen_Normal:
      in particular a link cycle ends as Gen_Normal. */
  lemma TraceStopsOnRevisit(g: Graph, cur: string, visited: set<string>)
    requires cur in visited || !Has(g, cur)
    ensures Trace(g, cur, visited) == Ok(Normal)
  {
  }
}

=== FILE: image_generation.dfy ===
/** The deterministic parts of generating images for a character: the request built
    from the character and the user's input, the wait for the end of the run, and the
    images kept from the run's output manifest. Reading the workflow file, decoding the
    stored JSON, the websocket and the downloads are inputs here. */
module ImageGeneration {
  import opened Results
  import opened Text
  import opened Graphs
  import opened PromptRoles
  import opened WorkflowUpdate
  import opened ImageClassify

  // ---------------------------------------------------------------------------
  // The request

  /** The decoded `character_config`: its scalar entries, in order, and its two LoRA
      lists, which are popped off before the update. */
  datatype Config = Config(values: Dict<Value>, loraNames: Option<seq<Value>>, loraStrengths: Option<seq<Value>>)

  /** The character fields the request uses; `config` is None when `character_config`
      is null or empty. A null prefix or suffix reads as "". */
  datatype Character = Character(config: Option<Config>, prefix: string, suffix: string, negative: Value)

  /** The non-empty parts of the prompt, in the order prefix, user prompt, suffix. */
  function SandwichParts(prefix: string, user: string, suffix: string): (r: seq<string>)
    ensures forall i :: 0 <= i < |r| ==> r[i] != ""
    ensures |r| <= 3
  {
    (if prefix != "" then [prefix] else []) + (if user != "" then [user] else []) + (if suffix != "" then [suffix] else [])
  }

  /** Two pieces of prompt, with ", " between them when both are non-empty. */
  function Glue(a: string, b: string): string
  {
    if a == "" then b else if b == "" then a else a + ", " + b
  }

  /** The positive prompt, `", ".join(parts)` of the non-empty parts. */
  function Sandwich(prefix: string, user: string, suffix: string): string
  {
    Glue(Glue(prefix, user), suffix)
  }

  /** The prompt is the ", "-join of its non-empty parts, in order. */
  lemma SandwichIsJoin(prefix: string, user: string, suffix: string)
    ensures Sandwich(prefix, user, suffix) == Join(SandwichParts(prefix, user, suffix), ", ")
  {
    var parts := SandwichParts(prefix, user, suffix);
    assert |parts| == 3 ==> Join(parts[1..], ", ") == parts[1] + ", " + parts[2];
  }

  /** Splitting the positive prompt at ", " gives back its parts, in order, when no part
      contains a comma. */
  lemma SandwichSplits(prefix: string, user: string, suffix: string)
    requires ',' !in prefix && ',' !in user && ',' !in suffix
    requires prefix != "" || user != "" || suffix != ""
    ensures Split(Sandwich(prefix, user, suffix), ", ") == SandwichParts(prefix, user, suffix)
  {
    SandwichIsJoin(prefix, user, suffix);
    var parts := SandwichParts(prefix, user, suffix);
    forall i | 0 <= i < |parts| ensures NoEarlySep(parts[i], ", ") {
      NoEarlySepOfFirstChar(parts[i], ", ");
    }
    SplitJoin(parts, ", ");
  }

  /** The seed the caller asked for: `None` selects the configured behaviour (no seed,
      a blank one or "-1", or a string `int()` rejects). `int()` of a list raises a
      `TypeError`, which is not caught. */
  function SeedChoice(seed: Value): (r: Result<Option<int>>)
    ensures r.Err? <==> IsList(seed)
    ensures seed.Null? || seed == Int(-1) ==> r == Ok(None)
    ensures seed.Int? && seed.i != -1 ==> r == Ok(Some(seed.i))
    ensures seed.Str? && (Strip(seed.s) == "" || seed.s == "-1") ==> r == Ok(None)
    ensures seed.Str? && r == Ok(None) ==> Strip(seed.s) == "" || seed.s == "-1" || ParseInt(seed.s).None?
  {
    match seed
    case Null => Ok(None)
    case Int(i) => if i == -1 then Ok(None) else Ok(Some(i))
    case Bool(b) => Ok(Some(if b then 1 else 0))
    case Num(x) => Ok(Some(Truncate(x)))   // `str` of a float is never "" nor "-1"
    case Str(s) =>
      if Strip(s) == "" || s == "-1" then Ok(None)
      else
        (match ParseInt(s)
         case Some(i) => Ok(Some(i))
         case None => Ok(None))
    case _ => Err(TypeError)
  }

  /** A seed given as the decimal text of a number selects that number, as the number
      itself does. */
  lemma SeedTextAgrees(i: int)
    ensures SeedChoice(Str(IntToString(i))) == SeedChoice(Int(i))
  {
    var s := IntToString(i);
    ParseIntOfIntToString(i);
    StripOfTrimmed(s);
    MinusOneText();
    if i != -1 {
      assert s != "-1" by {
        ParseIntOfIntToString(-1);
      }
    }
  }

  /** `str(-1) == "-1"`. */
  lemma MinusOneText()
    ensures IntToString(-1) == "-1"
  {
    assert NatToString(1) == "1";
  }

  /** The seed left in the request when the caller selects none: a fresh random value
      under the "random" behaviour (the default) or when the configuration has no
      seed, the configured seed otherwise. */
  function DefaultSeed(values: Dict<Value>, rnd: int): (r: Dict<Value>)
    ensures Get(values, "seed_behavior").GetOr(Str("random")) == Str("random") ==> Get(r, "seed") == Some(Int(rnd))
    ensures !Has(values, "seed") ==> Get(r, "seed") == Some(Int(rnd))
    ensures forall k :: k != "seed" ==> Get(r, k) == Get(values, k)
  {
    if Get(values, "seed_behavior").GetOr(Str("random")) == Str("random") then Put(values, "seed", Int(rnd))
    else if !Has(values, "seed") then Put(values, "seed", Int(rnd))
    else values
  }

  /** The configuration with the seed the caller chose, or with the configured default. */
  function WithSeed(values: Dict<Value>, choice: Option<int>, rnd: int): (r: Dict<Value>)
    ensures choice.Some? ==> Get(r, "seed") == Some(Int(choice.value))
    ensures choice.None? && Get(values, "seed_behavior").GetOr(Str("random")) == Str("random") ==> Get(r, "seed") == Some(Int(rnd))
    ensures choice.None? && !Has(values, "seed") ==> Get(r, "seed") == Some(Int(rnd))
    ensures forall k :: k != "seed" ==> Get(r, k) == Get(values, k)
  {
    match choice
    case Some(i) => Put(values, "seed", Int(i))
    case None => DefaultSeed(values, rnd)
  }

  /** The keys the request writes over the character's configuration. */
  predicate RequestKey(k: string)
  {
    k in {"prompt", "negative_prompt", "width", "height", "seed"}
  }

  /** The keys the request writes, and `seed_behavior`, are pairwise distinct. */
  lemma RequestKeysDistinct()
    ensures "prompt" != "negative_prompt" && "prompt" != "width" && "prompt" != "height" && "prompt" != "seed"
    ensures "negative_prompt" != "width" && "negative_prompt" != "height" && "negative_prompt" != "seed"
    ensures "width" != "height" && "width" != "seed" && "height" != "seed"
    ensures "seed_behavior" != "prompt" && "seed_behavior" != "negative_prompt"
    ensures "seed_behavior" != "width" && "seed_behavior" != "height"
  {
    assert |"prompt"| == 6 && |"negative_prompt"| == 15 && |"width"| == 5 && |"height"| == 6 && |"seed"| == 4;
    assert |"seed_behavior"| == 13;
    assert "prompt"[0] != "height"[0];
  }

  /** The configuration with the prompts written over it and the given, truthy sizes. */
  function Overrides(values: Dict<Value>, prompt: string, negative: Value, width: Value, height: Value): (r: Dict<Value>)
    ensures Get(r, "prompt") == Some(Str(prompt)) && Get(r, "negative_prompt") == Some(negative)
    ensures Get(r, "width") == if Truthy(width) then Some(width) else Get(values, "width")
    ensures Get(r, "height") == if Truthy(height) then Some(height) else Get(values, "height")
    ensures forall k :: k !in {"prompt", "negative_prompt", "width", "height"} ==> Get(r, k) == Get(values, k)
    ensures Get(r, "seed") == Get(values, "seed") && Get(r, "seed_behavior") == Get(values, "seed_behavior")
  {
    RequestKeysDistinct();
    var v0 := Put(Put(values, "prompt", Str(prompt)), "negative_prompt", negative);
    var v1 := if Truthy(width) then Put(v0, "width", width) else v0;
    if Truthy(height) then Put(v1, "height", height) else v1
  }

  /** The request `update_workflow` receives, for a given positive prompt and seed
      choice; `rnd` is the random draw. */
  function BuildRequest(cfg: Config, prompt: string, negative: Value, width: Value, height: Value,
                        choice: Option<int>, rnd: int): (r: Request)
    ensures forall k :: !RequestKey(k) ==> Get(r.values, k) == Get(cfg.values, k)
    ensures r.loraNames == cfg.loraNames.GetOr([]) && r.loraStrengths == cfg.loraStrengths.GetOr([])
  {
    Request(WithSeed(Overrides(cfg.values, prompt, negative, width, height), choice, rnd),
            cfg.loraNames.GetOr([]), cfg.loraStrengths.GetOr([]))
  }

  /** The seed write keeps every other key. */
  lemma WithSeedKeeps(values: Dict<Value>, choice: Option<int>, rnd: int, k: string)
    requires k != "seed"
    ensures Get(WithSeed(values, choice, rnd), k) == Get(values, k)
  {
  }

  /** The request holds the prompts and, where truthy, the given sizes. */
  lemma BuildRequestPrompts(cfg: Config, prompt: string, negative: Value, width: Value, height: Value,
                            choice: Option<int>, rnd: int)
    ensures var r := BuildRequest(cfg, prompt, negative, width, height, choice, rnd);
      && Get(r.values, "prompt") == Some(Str(prompt))
      && Get(r.values, "negative_prompt") == Some(negative)
      && Get(r.values, "width") == (if Truthy(width) then Some(width) else Get(cfg.values, "width"))
      && Get(r.values, "height") == (if Truthy(height) then Some(height) else Get(cfg.values, "height"))
  {
    assert |"seed"| == 4;
    var v2 := Overrides(cfg.values, prompt, negative, width, height);
    WithSeedKeeps(v2, choice, rnd, "prompt");
    WithSeedKeeps(v2, choice, rnd, "negative_prompt");
    WithSeedKeeps(v2, choice, rnd, "width");
    WithSeedKeeps(v2, choice, rnd, "height");
  }

  /** The request holds the chosen seed, or the configured default: a fresh random
      value under the "random" behaviour or without a configured seed. */
  lemma BuildRequestSeed(cfg: Config, prompt: string, negative: Value, width: Value, height: Value,
                         choice: Option<int>, rnd: int)
    ensures var r := BuildRequest(cfg, prompt, negative, width, height, choice, rnd);
      && (choice.Some? ==> Get(r.values, "seed") == Some(Int(choice.value)))
      && (choice.None? && Get(cfg.values, "seed_behavior").GetOr(Str("random")) == Str("random") ==>
            Get(r.values, "seed") == Some(Int(rnd)))
      && (choice.None? && !Has(cfg.values, "seed") ==> Get(r.values, "seed") == Some(Int(rnd)))
  {
    var v2 := Overrides(cfg.values, prompt, negative, width, height);
    assert BuildRequest(cfg, prompt, negative, width, height, choice, rnd).values == WithSeed(v2, choice, rnd);
    assert Get(v2, "seed") == Get(cfg.values, "seed") && Get(v2, "seed_behavior") == Get(cfg.values, "seed_behavior");
  }

  /** The request for the user's prompt. A character without configuration is refused
      with a `ValueError`; a list seed raises a `TypeError`. */
  function PrepareRequest(ch: Character, user: string, width: Value, height: Value, seed: Value, rnd: int): (r: Result<Request>)
    ensures r.Err? <==> ch.config.None? || IsList(seed)
    ensures ch.config.None? ==> r == Err(ValueError)
    ensures r.Ok? ==> r.value == BuildRequest(ch.config.value, Sandwich(ch.prefix, user, ch.suffix), ch.negative,
                                              width, height, SeedChoice(seed).value, rnd)
  {
    if ch.config.None? then Err(ValueError)
    else
      var choice :- SeedChoice(seed);
      Ok(BuildRequest(ch.config.value, Sandwich(ch.prefix, user, ch.suffix), ch.negative, width, height, choice, rnd))
  }

  /** End to end: every present prompt key of a node the roles put in the positive set
      only ends up holding the sandwiched prompt. */
  lemma SandwichReachesPositiveNodes(ch: Character, user: string, width: Value, height: Value, seed: Value, rnd: int,
                                     g: Graph, i: nat, k: string)
    requires PrepareRequest(ch, user, width, height, seed, rnd).Ok?
    requires UpdateWorkflow(g, PrepareRequest(ch, user, width, height, seed, rnd).value).Ok? && i < |g|
    requires g[i].0 in DetectRoles(g).pos && g[i].0 !in DetectRoles(g).neg
    requires IsPromptKey(k) && Has(g[i].1.inputs, k)
    requires k == "value" ==> g[i].1.classType != "DW_IntValue" && g[i].1.classType != "DW_FloatValue"
    ensures Get(Updated(g, PrepareRequest(ch, user, width, height, seed, rnd).value, i), k)
            == Some(Str(Sandwich(ch.prefix, user, ch.suffix)))
  {
    var req := PrepareRequest(ch, user, width, height, seed, rnd).value;
    BuildRequestPrompts(ch.config.value, Sandwich(ch.prefix, user, ch.suffix), ch.negative, width, height,
                        SeedChoice(seed).value, rnd);
    PromptReachesRoleNodes(g, req, i, k);
  }

  // ---------------------------------------------------------------------------
  // Waiting for the run

  /** A websocket frame: a decoded text message, a binary frame, or the close. */
  datatype Event = Message(kind: string, node: Option<string>, promptId: string) | Binary | Closed

  /** The message announcing that prompt `pid` has finished executing. */
  predicate Finished(e: Event, pid: string)
  {
    e.Message? && e.kind == "executing" && e.node.None? && e.promptId == pid
  }

  /** An event that ends the image loop. */
  predicate EndsImageWait(e: Event, pid: string)
  {
    e.Closed? || Finished(e, pid)
  }

  /** The position of the event that ends the image loop, searching from `i`; None when
      none of the events does (the loop would keep waiting). Error messages are only
      logged. */
  function ImageWait(events: seq<Event>, pid: string, i: nat): (r: Option<nat>)
    requires i <= |events|
    ensures r.Some? ==> i <= r.value < |events| && EndsImageWait(events[r.value], pid)
    ensures r.Some? ==> forall j :: i <= j < r.value ==> !EndsImageWait(events[j], pid)
    ensures r.None? ==> forall j :: i <= j < |events| ==> !EndsImageWait(events[j], pid)
    decreases |events| - i
  {
    if i == |events| then None
    else if EndsImageWait(events[i], pid) then Some(i)
    else ImageWait(events, pid, i + 1)
  }

  /** An error message between two runs of events changes nothing about where the
      image loop stops but the shift by one. */
  lemma {:induction false} ImageWaitSkipsErrors(pre: seq<Event>, e: Event, post: seq<Event>, pid: string)
    requires e.Message? && e.kind == "execution_error"
    ensures ImageWait(pre + [e] + post, pid, 0) ==
      match ImageWait(pre + post, pid, 0)
      case None => None
      case Some(k) => Some(if k < |pre| then k else k + 1)
  {
    var a, b := pre + [e] + post, pre + post;
    assert forall j :: 0 <= j < |pre| ==> a[j] == b[j];
    assert forall j :: |pre| <= j < |post| + |pre| ==> a[j + 1] == b[j];
    assert !EndsImageWait(a[|pre|], pid);
    match ImageWait(b, pid, 0)
    case None =>
      forall j | 0 <= j < |a| ensures !EndsImageWait(a[j], pid) {
        if j > |pre| { assert a[j] == b[j - 1]; }
      }
      ImageWaitIs(a, pid, None);
    case Some(k) =>
      var t := if k < |pre| then k else k + 1;
      forall j | 0 <= j < t ensures !EndsImageWait(a[j], pid) {
        if j > |pre| { assert a[j] == b[j - 1]; }
      }
      ImageWaitIs(a, pid, Some(t));
  }

  /** `ImageWait` finds the first ending event: any position characterised as such is it. */
  lemma ImageWaitIs(events: seq<Event>, pid: string, k: Option<nat>)
    requires k.None? ==> forall j :: 0 <= j < |events| ==> !EndsImageWait(events[j], pid)
    requires k.Some? ==> k.value < |events| && EndsImageWait(events[k.value], pid)
                         && forall j :: 0 <= j < k.value ==> !EndsImageWait(events[j], pid)
    ensures ImageWait(events, pid, 0) == k
  {
  }

  // ---------------------------------------------------------------------------
  // Keeping the images

  /** One entry of a node's `images` output. */
  datatype ImageFile = ImageFile(filename: string, subfolder: string, folderType: string)

  /** One node of the history's `outputs`; `images` is None when the node has none. */
  datatype NodeOutput = NodeOutput(images: Option<seq<ImageFile>>)

  /** The run's `outputs`, in manifest order. */
  type Manifest = Dict<NodeOutput>

  type Bytes = seq<bv8>

  /** `classification not in allowed_types`, when a filter is given. */
  predicate Allowed(allowed: Option<seq<string>>, k: Kind)
  {
    allowed.None? || KindName(k) in allowed.value
  }

  /** Some file's download fails (`raise_for_status` raises). */
  predicate DownloadFails(files: seq<ImageFile>, download: ImageFile -> Result<Bytes>)
  {
    exists j :: 0 <= j < |files| && download(files[j]).Err?
  }

  /** The non-empty downloads of `files`, in order, each tagged with `kind`; the first
      failed download aborts. */
  function Downloads(files: seq<ImageFile>, kind: Kind, download: ImageFile -> Result<Bytes>)
    : (r: Result<seq<(Bytes, Kind)>>)
    ensures r.Err? <==> DownloadFails(files, download)
    ensures r.Ok? ==> |r.value| <= |files|
    ensures r.Ok? ==> forall x :: x in r.value ==> |x.0| > 0 && x.1 == kind
    ensures r.Ok? ==> forall x :: x in r.value ==> exists j :: 0 <= j < |files| && download(files[j]) == Ok(x.0)
    ensures r.Ok? ==> forall j :: 0 <= j < |files| && download(files[j]).Ok? && |download(files[j]).value| > 0
                                  ==> (download(files[j]).value, kind) in r.value
  {
    if |files| == 0 then Ok([])
    else
      assert forall j :: 1 <= j < |files| ==> files[j] == files[1..][j - 1];
      var bytes :- download(files[0]);
      var rest :- Downloads(files[1..], kind, download);
      Ok(if |bytes| > 0 then [(bytes, kind)] + rest else rest)
  }

  /** The images a node of the manifest contributes. */
  function NodeImages(id: string, out: NodeOutput, g: Graph, allowed: Option<seq<string>>,
                      download: ImageFile -> Result<Bytes>): Result<seq<(Bytes, Kind)>>
  {
    var c :- ClassifyImageNode(id, g);
    if !c.save || !Allowed(allowed, c.kind) || out.images.None? then Ok([])
    else Downloads(out.images.value, c.kind, download)
  }

  /** A manifest node whose images are kept: it classifies, and its kind passes the filter. */
  predicate Kept(id: string, g: Graph, allowed: Option<seq<string>>)
  {
    ClassifyImageNode(id, g).Ok? && Allowed(allowed, ClassifyImageNode(id, g).value.kind)
  }

  /** A manifest node that aborts the collection: the classifier fails on it, or it is
      kept and one of its images fails to download. */
  predicate NodeFails(e: (string, NodeOutput), g: Graph, allowed: Option<seq<string>>,
                      download: ImageFile -> Result<Bytes>)
  {
    || ClassifyImageNode(e.0, g).Err?
    || (Kept(e.0, g, allowed) && e.1.images.Some? && DownloadFails(e.1.images.value, download))
  }

  /** The concatenated results of `f` over `xs` in order; the first failure aborts. */
  function ConcatAll<T, U>(xs: seq<T>, f: T -> Result<seq<U>>): Result<seq<U>>
  {
    if |xs| == 0 then Ok([])
    else
      var first :- f(xs[0]);
      var rest :- ConcatAll(xs[1..], f);
      Ok(first + rest)
  }

  /** The concatenation over two parts is the concatenation of the parts' results. */
  lemma {:induction false} ConcatAllAppend<T, U>(a: seq<T>, b: seq<T>, f: T -> Result<seq<U>>)
    requires ConcatAll(a, f).Ok? && ConcatAll(b, f).Ok?
    ensures ConcatAll(a + b, f) == Ok(ConcatAll(a, f).value + ConcatAll(b, f).value)
    decreases |a|
  {
    if |a| == 0 {
      assert a + b == b;
      assert ConcatAll(a, f).value + ConcatAll(b, f).value == ConcatAll(b, f).value;
    } else {
      assert (a + b)[0] == a[0] && (a + b)[1..] == a[1..] + b;
      ConcatAllAppend(a[1..], b, f);
      var first, x, y := f(a[0]).value, ConcatAll(a[1..], f).value, ConcatAll(b, f).value;
      assert ConcatAll(a, f).value == first + x;
      assert ConcatAll(a + b, f) == Ok(first + (x + y));
      assert first + (x + y) == (first + x) + y;
    }
  }

  /** The images kept from the manifest, node by node in manifest order. A node the
      classifier fails on, or a failed download of a kept image, aborts the whole
      collection. */
  function CollectImages(m: Manifest, g: Graph, allowed: Option<seq<string>>, download: ImageFile -> Result<Bytes>)
    : Result<seq<(Bytes, Kind)>>
  {
    ConcatAll(m, (e: (string, NodeOutput)) => NodeImages(e.0, e.1, g, allowed, download))
  }

  /** The collection fails exactly when the classifier fails on some node or a kept
      node's image fails to download. */
  lemma {:induction false} CollectFails(m: Manifest, g: Graph, allowed: Option<seq<string>>,
                                        download: ImageFile -> Result<Bytes>)
    ensures CollectImages(m, g, allowed, download).Err? <==> exists i :: 0 <= i < |m| && NodeFails(m[i], g, allowed, download)
  {
    if |m| > 0 {
      assert forall i :: 1 <= i < |m| ==> m[i] == m[1..][i - 1];
      CollectFails(m[1..], g, allowed, download);
    }
  }

  /** Every kept image is a non-empty download from a kept node of the given kind. */
  lemma {:induction false} CollectSound(m: Manifest, g: Graph, allowed: Option<seq<string>>,
                                        download: ImageFile -> Result<Bytes>)
    requires CollectImages(m, g, allowed, download).Ok?
    ensures forall x :: x in CollectImages(m, g, allowed, download).value ==>
      (|x.0| > 0 && Allowed(allowed, x.1)
       && exists i :: 0 <= i < |m| && Kept(m[i].0, g, allowed) && ClassifyImageNode(m[i].0, g).value.kind == x.1)
  {
    if |m| > 0 {
      assert forall i :: 1 <= i < |m| ==> m[i] == m[1..][i - 1];
      CollectSound(m[1..], g, allowed, download);
    }
  }

  /** Every non-empty download of a kept node's images is among the kept images. */
  lemma {:induction false} CollectComplete(m: Manifest, g: Graph, allowed: Option<seq<string>>,
                                           download: ImageFile -> Result<Bytes>, i: nat, j: nat)
    requires CollectImages(m, g, allowed, download).Ok?
    requires i < |m| && Kept(m[i].0, g, allowed) && m[i].1.images.Some?
    requires j < |m[i].1.images.value| && download(m[i].1.images.value[j]).Ok?
    requires |download(m[i].1.images.value[j]).value| > 0
    ensures (download(m[i].1.images.value[j]).value, ClassifyImageNode(m[i].0, g).value.kind)
            in CollectImages(m, g, allowed, download).value
  {
    if i > 0 {
      assert m[i] == m[1..][i - 1];
      CollectComplete(m[1..], g, allowed, download, i - 1, j);
    }
  }

  /** Manifest order is output order: the images of a manifest are those of its first
      part followed by those of the rest. */
  lemma {:induction false} CollectAppend(m1: Manifest, m2: Manifest, g: Graph, allowed: Option<seq<string>>,
                                         download: ImageFile -> Result<Bytes>)
    requires CollectImages(m1, g, allowed, download).Ok? && CollectImages(m2, g, allowed, download).Ok?
    ensures CollectImages(m1 + m2, g, allowed, download)
            == Ok(CollectImages(m1, g, allowed, download).value + CollectImages(m2, g, allowed, download).value)
  {
    ConcatAllAppend(m1, m2, (e: (string, NodeOutput)) => NodeImages(e.0, e.1, g, allowed, download));
  }
}

=== FILE: models.dfy ===
/** The storage rules of the data model: where an uploaded character image is stored,
    the single-active rule of `ConnectionConfig.save`, and the singleton rule of
    `CompanySettings.save`. A table is a sequence of rows in primary-key order. */
module Models {
  import opened Results
  import opened Text

  /** `character_image_path(instance, filename)`: the storage name of an image, under the
      generating user's id when the image has a user. */
  function CharacterImagePath(user: Option<int>, character: string, filename: string): (r: string)
    ensures user.Some? ==> r == "user_images/" + IntToString(user.value) + "/" + character + "/" + filename
    ensures user.None? ==> r == "character_images/" + character + "/" + filename
    ensures r[|r| - |filename|..] == filename
  {
    match user
    case Some(uid) => "user_images/" + IntToString(uid) + "/" + character + "/" + filename
    case None => "character_images/" + character + "/" + filename
  }

  /** One database row: its primary key and its fields. */
  datatype Row<T> = Row(pk: nat, data: T)

  predicate DistinctPks<T>(rows: seq<Row<T>>)
  {
    forall i, j :: 0 <= i < j < |rows| ==> rows[i].pk != rows[j].pk
  }

  predicate HasPk<T>(rows: seq<Row<T>>, pk: nat)
  {
    exists i :: 0 <= i < |rows| && rows[i].pk == pk
  }

  /** Django's `Model.save()`: an UPDATE of the row with the same primary key, or an
      INSERT at the end when there is none. */
  function Upsert<T>(rows: seq<Row<T>>, x: Row<T>): (r: seq<Row<T>>)
    ensures HasPk(rows, x.pk) ==> |r| == |rows|
    ensures !HasPk(rows, x.pk) ==> r == rows + [x]
    ensures forall i :: 0 <= i < |rows| && rows[i].pk != x.pk ==> r[i] == rows[i]
    ensures forall i :: 0 <= i < |rows| && rows[i].pk == x.pk ==> r[i] == x
    ensures x in r
  {
    if HasPk(rows, x.pk) then
      var r := seq(|rows|, i requires 0 <= i < |rows| => if rows[i].pk == x.pk then x else rows[i]);
      var i :| 0 <= i < |rows| && rows[i].pk == x.pk;
      assert r[i] == x;
      r
    else rows + [x]
  }

  /** Saving keeps the primary keys distinct. */
  lemma UpsertKeepsDistinct<T>(rows: seq<Row<T>>, x: Row<T>)
    requires DistinctPks(rows)
    ensures DistinctPks(Upsert(rows, x))
  {
  }

  /** A row of `ConnectionConfig`. */
  datatype Connection = Connection(name: string, baseUrl: string, active: bool)

  /** `ConnectionConfig.objects.filter(is_active=True).exclude(pk=pk).update(is_active=False)`. */
  function DeactivateOthers(rows: seq<Row<Connection>>, pk: nat): (r: seq<Row<Connection>>)
    ensures |r| == |rows|
    ensures forall i :: 0 <= i < |r| ==> r[i].pk == rows[i].pk
  {
    if rows == [] then []
    else
      var row := rows[0];
      var row' := if row.data.active && row.pk != pk then Row(row.pk, row.data.(active := false)) else row;
      [row'] + DeactivateOthers(rows[1..], pk)
  }

  /** What `DeactivateOthers` does to each row: it clears the flag of every other row and
      changes nothing else. */
  lemma {:induction false} DeactivateOthersAt(rows: seq<Row<Connection>>, pk: nat, i: nat)
    requires i < |rows|
    ensures DeactivateOthers(rows, pk)[i]
            == if rows[i].pk == pk then rows[i] else Row(rows[i].pk, rows[i].data.(active := false))
  {
    if i > 0 {
      DeactivateOthersAt(rows[1..], pk, i - 1);
    }
  }

  /** `ConnectionConfig.save()`: saving an active configuration first deactivates every
      other one. A new configuration arrives with the primary key the database gives it. */
  function SaveConnection(rows: seq<Row<Connection>>, c: Row<Connection>): (r: seq<Row<Connection>>)
    ensures c in r && |r| >= |rows|
  {
    var before := if c.data.active then DeactivateOthers(rows, c.pk) else rows;
    Upsert(before, c)
  }

  /** After an active configuration is saved it is the only active one. */
  lemma SavedActiveIsOnlyActive(rows: seq<Row<Connection>>, c: Row<Connection>)
    requires DistinctPks(rows) && c.data.active
    ensures DistinctPks(SaveConnection(rows, c))
    ensures forall i :: 0 <= i < |SaveConnection(rows, c)| ==>
              (SaveConnection(rows, c)[i].data.active <==> SaveConnection(rows, c)[i].pk == c.pk)
  {
    var before := DeactivateOthers(rows, c.pk);
    assert DistinctPks(before);
    UpsertKeepsDistinct(before, c);
    var r := SaveConnection(rows, c);
    forall i | 0 <= i < |r|
      ensures r[i].data.active <==> r[i].pk == c.pk
    {
      if i < |before| {
        DeactivateOthersAt(rows, c.pk, i);
      }
    }
  }

  /** Saving an inactive configuration writes that row alone: every other row keeps its
      place and its fields, the active one included. */
  lemma SavedInactiveChangesNothingElse(rows: seq<Row<Connection>>, c: Row<Connection>)
    requires !c.data.active
    ensures |SaveConnection(rows, c)| >= |rows|
    ensures forall i :: 0 <= i < |rows| && rows[i].pk != c.pk ==> SaveConnection(rows, c)[i] == rows[i]
  {
  }

  /** A row of `CompanySettings`. */
  datatype Company = Company(name: string, description: string, phone: string, email: string,
                             facebook: string, discord: string)

  /** `CompanySettings.save()`: an object without a primary key takes the first row's key
      when a row exists, so the save overwrites that row. `newPk` is the key the database
      would give a new row. */
  function SaveCompany(rows: seq<Row<Company>>, pk: Option<nat>, data: Company, newPk: nat): (r: seq<Row<Company>>)
    requires !HasPk(rows, newPk)
  {
    var key := if pk.None? && |rows| > 0 then rows[0].pk else pk.GetOr(newPk);
    Upsert(rows, Row(key, data))
  }

  /** Saving settings never adds a second row: a new object overwrites the first row,
      and an edit rewrites its own row. */
  lemma CompanyStaysSingle(rows: seq<Row<Company>>, pk: Option<nat>, data: Company, newPk: nat)
    requires !HasPk(rows, newPk)
    requires pk.Some? ==> HasPk(rows, pk.value)
    ensures |rows| > 0 ==> |SaveCompany(rows, pk, data, newPk)| == |rows|
    ensures |rows| == 0 ==> SaveCompany(rows, pk, data, newPk) == [Row(newPk, data)]
    ensures pk.None? && |rows| > 0 ==> SaveCompany(rows, pk, data, newPk)[0] == Row(rows[0].pk, data)
  {
    if pk.None? && |rows| > 0 {
      assert HasPk(rows, rows[0].pk);
    }
  }
}

=== FILE: prompt_roles.dfy ===
/** Which nodes of an image workflow receive the positive and the negative prompt:
    title keywords first, then a depth-first trace from the samplers' `positive` and
    `negative` links, then a clean-up in which the title decides. */
module PromptRoles {
  import opened Results
  import opened Text
  import opened Graphs

  /** `"Sampler" in class_type or "sampler" in class_type.lower()`. */
  predicate IsSamplerClass(c: string)
  {
    Contains(c, "Sampler") || Contains(Lower(c), "sampler")
  }

  const TextKeys: seq<string> :=
    ["text", "text_g", "text_l", "prompt", "text_positive", "positive_prompt", "text_negative", "negative_prompt"]

  /** The text-node test of the trace. */
  predicate IsTextNode(n: Node)
  {
    || Contains(n.classType, "CLIPTextEncode")
    || (Contains(n.classType, "PrimitiveNode") && Input(n, "value").Str?)
    || exists k | k in TextKeys :: Input(n, k).Str?
  }

  /** `id` names a node of `g` that passes the text-node test. */
  predicate IsTextId(g: Graph, id: string)
  {
    match Get(g, id)
    case Some(n) => IsTextNode(n)
    case None => false
  }

  /** The ids of the reference-valued inputs, in input order. */
  function RefIds(ins: Dict<Value>): (r: seq<string>)
    ensures forall i :: 0 <= i < |r| ==> exists j :: 0 <= j < |ins| && ins[j].1.Ref? && ins[j].1.id == r[i]
  {
    if |ins| == 0 then []
    else
      var rest := RefIds(ins[1..]);
      assert forall j :: 0 <= j < |ins| - 1 ==> ins[1..][j] == ins[j + 1];
      match ins[0].1
      case Ref(id, _) => [id] + rest
      case _ => rest
  }

  /** What the trace pushes after visiting `id`: the first element of every non-empty
      list input; nothing for a missing node. */
  function Succ(g: Graph, id: string): seq<string>
  {
    match Get(g, id)
    case Some(n) => RefIds(n.inputs)
    case None => []
  }

  /** Every reference target mentioned anywhere in the graph. */
  ghost function AllTargets(g: Graph): set<string>
  {
    set i, j | 0 <= i < |g| && 0 <= j < |g[i].1.inputs| && g[i].1.inputs[j].1.Ref? :: g[i].1.inputs[j].1.id
  }

  lemma SuccInTargets(g: Graph, id: string)
    ensures forall c :: c in Succ(g, id) ==> c in AllTargets(g)
  {
    match Get(g, id)
    case None =>
    case Some(n) =>
      GetFound(g, id);
      var i :| 0 <= i < |g| && g[i].0 == id && g[i].1 == n;
      forall c | c in Succ(g, id) ensures c in AllTargets(g) {
        var k :| 0 <= k < |RefIds(n.inputs)| && RefIds(n.inputs)[k] == c;
        var j :| 0 <= j < |n.inputs| && n.inputs[j].1.Ref? && n.inputs[j].1.id == c;
        assert g[i].1.inputs[j].1.Ref?;
      }
  }

  function Elems(s: seq<string>): set<string>
  {
    set i | 0 <= i < |s| :: s[i]
  }

  lemma PopElems(s: seq<string>)
    requires |s| > 0
    ensures Elems(s) == Elems(s[..|s| - 1]) + {s[|s| - 1]}
  {
    assert forall i :: 0 <= i < |s| - 1 ==> s[..|s| - 1][i] == s[i];
  }

  lemma AppendElems(a: seq<string>, b: seq<string>)
    ensures Elems(a + b) == Elems(a) + Elems(b)
  {
    assert forall i :: 0 <= i < |a| ==> (a + b)[i] == a[i];
    assert forall i :: 0 <= i < |b| ==> (a + b)[|a| + i] == b[i];
  }

  /** Every visited node's targets are visited or still on the stack. */
  predicate ClosedUpTo(g: Graph, visited: set<string>, pending: set<string>)
  {
    forall v :: v in visited ==> forall c :: c in Succ(g, v) ==> c in visited || c in pending
  }

  /** The ids the trace may still visit for the first time. */
  ghost function Unvisited(g: Graph, stack: seq<string>, visited: set<string>): nat
  {
    |(AllTargets(g) + Elems(stack)) - visited|
  }

  /** Popping an already visited id leaves the measure unchanged. */
  lemma SkipStep(g: Graph, stack: seq<string>, visited: set<string>)
    requires |stack| > 0 && stack[|stack| - 1] in visited
    ensures Unvisited(g, stack[..|stack| - 1], visited) == Unvisited(g, stack, visited)
    ensures Elems(stack[..|stack| - 1]) + visited == Elems(stack) + visited
  {
    PopElems(stack);
    assert (AllTargets(g) + Elems(stack[..|stack| - 1])) - visited == (AllTargets(g) + Elems(stack)) - visited;
  }

  /** Visiting a new id and pushing its targets shrinks the measure. */
  lemma VisitStep(g: Graph, stack: seq<string>, visited: set<string>)
    requires |stack| > 0 && stack[|stack| - 1] !in visited
    ensures var curr := stack[|stack| - 1];
      && Unvisited(g, stack[..|stack| - 1] + Succ(g, curr), visited + {curr}) < Unvisited(g, stack, visited)
      && Elems(stack[..|stack| - 1] + Succ(g, curr)) == Elems(stack[..|stack| - 1]) + Elems(Succ(g, curr))
      && Elems(stack) == Elems(stack[..|stack| - 1]) + {curr}
  {
    var curr, rest := stack[|stack| - 1], stack[..|stack| - 1];
    PopElems(stack);
    AppendElems(rest, Succ(g, curr));
    SuccInTargets(g, curr);
    var before := (AllTargets(g) + Elems(stack)) - visited;
    var after := (AllTargets(g) + Elems(rest + Succ(g, curr))) - (visited + {curr});
    assert after <= before;
    assert curr in before && curr !in after;
    var gone := before - after;
    assert before == after + gone && after !! gone;
    assert curr in gone;
  }

  /** Marking the top of the stack and pushing its targets keeps the visited set closed. */
  lemma VisitClosed(g: Graph, stack: seq<string>, visited: set<string>)
    requires |stack| > 0 && stack[|stack| - 1] !in visited
    requires ClosedUpTo(g, visited, Elems(stack))
    ensures var curr := stack[|stack| - 1];
      ClosedUpTo(g, visited + {curr}, Elems(stack[..|stack| - 1] + Succ(g, curr)))
  {
    var curr, rest := stack[|stack| - 1], stack[..|stack| - 1];
    PopElems(stack);
    AppendElems(rest, Succ(g, curr));
  }

  /** The trace loop of `find_all_text_nodes`: pop the top of the stack, skip it if
      already visited, otherwise mark it and push its reference targets. Returns the
      final visited set, which holds the stack and is closed under the trace's steps. */
  function Visit(g: Graph, stack: seq<string>, visited: set<string>): (r: set<string>)
    requires ClosedUpTo(g, visited, Elems(stack))
    ensures visited <= r && Elems(stack) <= r
    ensures ClosedUpTo(g, r, {})
    decreases Unvisited(g, stack, visited), |stack|
  {
    if |stack| == 0 then visited
    else
      var curr, rest := stack[|stack| - 1], stack[..|stack| - 1];
      if curr in visited then
        SkipStep(g, stack, visited);
        PopElems(stack);
        Visit(g, rest, visited)
      else
        VisitStep(g, stack, visited);
        VisitClosed(g, stack, visited);
        Visit(g, rest + Succ(g, curr), visited + {curr})
  }

  /** `to` is reachable from `from` in at most `n` reference steps. */
  ghost predicate ReachN(g: Graph, from: string, to: string, n: nat)
    decreases n
  {
    from == to || (n > 0 && exists c :: ReachN(g, from, c, n - 1) && to in Succ(g, c))
  }

  ghost predicate Reachable(g: Graph, from: string, to: string)
  {
    exists n: nat :: ReachN(g, from, to, n)
  }

  /** Every element of the set is reachable from `root`. */
  ghost predicate AllReachable(g: Graph, root: string, s: set<string>)
  {
    forall v :: v in s ==> Reachable(g, root, v)
  }

  /** Everything the trace visits is reachable from where it started. */
  lemma {:induction false} VisitSound(g: Graph, stack: seq<string>, visited: set<string>, root: string)
    requires ClosedUpTo(g, visited, Elems(stack))
    requires AllReachable(g, root, visited) && AllReachable(g, root, Elems(stack))
    ensures AllReachable(g, root, Visit(g, stack, visited))
    decreases Unvisited(g, stack, visited), |stack|
  {
    if |stack| > 0 {
      var curr, rest := stack[|stack| - 1], stack[..|stack| - 1];
      PopElems(stack);
      if curr in visited {
        SkipStep(g, stack, visited);
        VisitSound(g, rest, visited, root);
      } else {
        VisitStep(g, stack, visited);
        var n: nat :| ReachN(g, root, curr, n);
        forall c | c in Succ(g, curr) ensures Reachable(g, root, c) {
          assert ReachN(g, root, c, n + 1);
        }
        VisitClosed(g, stack, visited);
        VisitSound(g, rest + Succ(g, curr), visited + {curr}, root);
      }
    }
  }

  /** A set closed under the trace's steps that holds the root holds everything
      reachable from it. */
  lemma {:induction false} ClosedHoldsReachable(g: Graph, s: set<string>, root: string, x: string, n: nat)
    requires root in s
    requires ClosedUpTo(g, s, {})
    requires ReachN(g, root, x, n)
    ensures x in s
    decreases n
  {
    if root != x {
      var c :| ReachN(g, root, c, n - 1) && x in Succ(g, c);
      ClosedHoldsReachable(g, s, root, c, n - 1);
    }
  }

  /** `find_all_text_nodes(start)`: the text nodes the trace visits. It terminates on
      every graph, cyclic or with dangling ids, and finds exactly the text nodes
      reachable from `start` through reference inputs. */
  function FindAllTextNodes(g: Graph, start: string): (r: set<string>)
    ensures forall x :: x in r <==> Reachable(g, start, x) && IsTextId(g, x)
  {
    var seen := Visit(g, [start], {});
    assert Elems([start]) == {start};
    assert ReachN(g, start, start, 0);
    VisitSound(g, [start], {}, start);
    forall x | Reachable(g, start, x) ensures x in seen {
      var n: nat :| ReachN(g, start, x, n);
      ClosedHoldsReachable(g, seen, start, x, n);
    }
    set x | x in seen && IsTextId(g, x)
  }

  predicate TitlePositive(t: string)
  {
    Contains(Lower(t), "positive")
  }

  predicate TitleNegative(t: string)
  {
    Contains(Lower(t), "negative")
  }

  datatype Roles = Roles(pos: set<string>, neg: set<string>)

  /** Step 1: "positive" in the title gives the positive role, otherwise "negative" in
      the title gives the negative role. */
  function TitleRoles(g: Graph): (r: Roles)
    ensures forall i :: 0 <= i < |g| && TitlePositive(g[i].1.title) ==> g[i].0 in r.pos
    ensures forall i :: 0 <= i < |g| && !TitlePositive(g[i].1.title) && TitleNegative(g[i].1.title) ==> g[i].0 in r.neg
    ensures forall x :: x in r.pos + r.neg ==> x in Ids(g)
  {
    Roles(set i | 0 <= i < |g| && TitlePositive(g[i].1.title) :: g[i].0,
          set i | 0 <= i < |g| && !TitlePositive(g[i].1.title) && TitleNegative(g[i].1.title) :: g[i].0)
  }

  /** The reference a sampler input holds, when it is a truthy list. */
  function Link(n: Node, key: string): Option<string>
  {
    match Input(n, key)
    case Ref(id, _) => Some(id)
    case _ => None
  }

  /** Sampler `n` links `key` to a node from which the trace finds text nodes. */
  predicate TracesSome(full: Graph, n: Node, key: string)
  {
    IsSamplerClass(n.classType) && Link(n, key).Some? && FindAllTextNodes(full, Link(n, key).value) != {}
  }

  /** The text nodes traced from the `key` link of the first sampler, in file order,
      whose trace finds any; none when no sampler's does. */
  function Traced(g: Graph, full: Graph, key: string): set<string>
  {
    if |g| == 0 then {}
    else if TracesSome(full, g[0].1, key) then FindAllTextNodes(full, Link(g[0].1, key).value)
    else Traced(g[1..], full, key)
  }

  /** `Traced` picks the first sampler whose trace finds text nodes, and is empty
      exactly when no sampler's trace finds any. */
  lemma {:induction false} TracedIsFirst(g: Graph, full: Graph, key: string)
    ensures Traced(g, full, key) == {} <==> forall i :: 0 <= i < |g| ==> !TracesSome(full, g[i].1, key)
    ensures forall i :: 0 <= i < |g| && TracesSome(full, g[i].1, key) && (forall j :: 0 <= j < i ==> !TracesSome(full, g[j].1, key)) ==>
              Traced(g, full, key) == FindAllTextNodes(full, Link(g[i].1, key).value)
  {
    if |g| > 0 {
      TracedIsFirst(g[1..], full, key);
      assert forall i :: 0 <= i < |g| - 1 ==> g[1..][i] == g[i + 1];
      forall i | 0 <= i < |g| && TracesSome(full, g[i].1, key) && (forall j :: 0 <= j < i ==> !TracesSome(full, g[j].1, key))
        ensures Traced(g, full, key) == FindAllTextNodes(full, Link(g[i].1, key).value)
      {
        if i > 0 {
          assert g[1..][i - 1] == g[i];
          assert forall j :: 0 <= j < i - 1 ==> !TracesSome(full, g[1..][j].1, key) by {
            forall j | 0 <= j < i - 1 ensures !TracesSome(full, g[1..][j].1, key) {
              assert g[1..][j] == g[j + 1];
            }
          }
        }
      }
    }
  }

  /** Step 2: for the samplers in file order, an empty role set takes the text nodes
      traced from the sampler's link; a trace that finds nothing leaves the set empty
      for the next sampler. */
  function TraceRoles(g: Graph, full: Graph, r: Roles): (out: Roles)
    ensures r.pos == {} ==> out.pos == Traced(g, full, "positive")
    ensures r.neg == {} ==> out.neg == Traced(g, full, "negative")
    ensures r.pos <= out.pos && r.neg <= out.neg
    ensures r.pos != {} ==> out.pos == r.pos
    ensures r.neg != {} ==> out.neg == r.neg
    ensures forall x :: x in out.pos - r.pos ==> IsTextId(full, x)
    ensures forall x :: x in out.neg - r.neg ==> IsTextId(full, x)
  {
    if |g| == 0 then r
    else
      var n := g[0].1;
      var r1 :=
        if !IsSamplerClass(n.classType) then r
        else
          Roles(
            if r.pos == {} && Link(n, "positive").Some? then r.pos + FindAllTextNodes(full, Link(n, "positive").value) else r.pos,
            if r.neg == {} && Link(n, "negative").Some? then r.neg + FindAllTextNodes(full, Link(n, "negative").value) else r.neg);
      TraceRoles(g[1..], full, r1)
  }

  /** Step 3: a node with "positive" in its title leaves the negative set for the
      positive one; then a node with "negative" in its title leaves the positive set
      for the negative one. */
  function Cleanup(g: Graph, r: Roles): (out: Roles)
    ensures forall x :: x in out.pos ==> !TitleNegative(TitleOf(g, x))
    ensures forall x :: x in r.pos + r.neg && TitlePositive(TitleOf(g, x)) && !TitleNegative(TitleOf(g, x)) ==>
              x in out.pos && x !in out.neg
    ensures forall x :: x in r.pos + r.neg && TitleNegative(TitleOf(g, x)) ==> x in out.neg && x !in out.pos
    ensures forall x :: !TitlePositive(TitleOf(g, x)) && !TitleNegative(TitleOf(g, x)) ==>
              (x in out.pos <==> x in r.pos) && (x in out.neg <==> x in r.neg)
    ensures out.pos + out.neg == r.pos + r.neg
  {
    var toPos := set x | x in r.neg && TitlePositive(TitleOf(g, x));
    var pos1, neg1 := r.pos + toPos, r.neg - toPos;
    var toNeg := set x | x in pos1 && TitleNegative(TitleOf(g, x));
    Roles(pos1 - toNeg, neg1 + toNeg)
  }

  /** The role sets `update_workflow` computes. */
  function DetectRoles(g: Graph): (r: Roles)
    ensures forall x :: x in r.pos ==> !TitleNegative(TitleOf(g, x))
    ensures forall x :: x in r.pos + r.neg ==> x in Ids(g)
  {
    var titled := TitleRoles(g);
    var traced := if titled.pos == {} || titled.neg == {} then TraceRoles(g, g, titled) else titled;
    assert forall x :: x in traced.pos + traced.neg ==> x in Ids(g) by {
      forall x | x in traced.pos + traced.neg ensures x in Ids(g) {
        if x !in titled.pos + titled.neg {
          assert IsTextId(g, x);
          GetFound(g, x);
        }
      }
    }
    Cleanup(g, traced)
  }

  /** The title decides: a node titled "positive" but not "negative" is only positive,
      and a node titled "negative" is only negative. */
  lemma TitleDecidesRoles(g: Graph, i: nat)
    requires DistinctKeys(g) && i < |g|
    ensures var r, t := DetectRoles(g), g[i].1.title;
      && (TitlePositive(t) && !TitleNegative(t) ==> g[i].0 in r.pos && g[i].0 !in r.neg)
      && (TitleNegative(t) ==> g[i].0 in r.neg && g[i].0 !in r.pos)
  {
    GetAt(g, i);
    var titled := TitleRoles(g);
    var traced := if titled.pos == {} || titled.neg == {} then TraceRoles(g, g, titled) else titled;
    assert titled.pos <= traced.pos && titled.neg <= traced.neg;
  }

  /** A node with no role keyword in its title holds a role exactly when the title scan
      left that role's set empty and the trace found the node; a node found by both
      traces ends in both sets. */
  lemma UntitledFollowsTrace(g: Graph, x: string)
    requires DistinctKeys(g)
    requires !TitlePositive(TitleOf(g, x)) && !TitleNegative(TitleOf(g, x))
    ensures x in DetectRoles(g).pos <==> TitleRoles(g).pos == {} && x in Traced(g, g, "positive")
    ensures x in DetectRoles(g).neg <==> TitleRoles(g).neg == {} && x in Traced(g, g, "negative")
    ensures TitleRoles(g).pos == {} && TitleRoles(g).neg == {} && x in Traced(g, g, "positive") && x in Traced(g, g, "negative") ==>
              x in DetectRoles(g).pos && x in DetectRoles(g).neg
  {
    var titled := TitleRoles(g);
    var traced := if titled.pos == {} || titled.neg == {} then TraceRoles(g, g, titled) else titled;
    assert x !in titled.pos + titled.neg by {
      if x in titled.pos + titled.neg {
        var i :| 0 <= i < |g| && g[i].0 == x && (TitlePositive(g[i].1.title) || TitleNegative(g[i].1.title));
        GetAt(g, i);
        assert false;
      }
    }
  }

  /** The trace runs only when a title set is empty: with both sets titled, every node
      holding a role carries a role keyword in its title. */
  lemma TitlesSuffice(g: Graph)
    requires DistinctKeys(g)
    requires TitleRoles(g).pos != {} && TitleRoles(g).neg != {}
    ensures forall x :: x in DetectRoles(g).pos + DetectRoles(g).neg ==>
      TitlePositive(TitleOf(g, x)) || TitleNegative(TitleOf(g, x))
  {
    var titled := TitleRoles(g);
    forall x | x in titled.pos + titled.neg
      ensures TitlePositive(TitleOf(g, x)) || TitleNegative(TitleOf(g, x))
    {
      var i :| 0 <= i < |g| && g[i].0 == x && (TitlePositive(g[i].1.title) || TitleNegative(g[i].1.title));
      GetAt(g, i);
    }
  }
}

=== FILE: results.dfy ===
/** Failure-carrying datatypes shared by every module of the model.
    `Fault` names the Python exception an operation raises and does not catch. */
module Results {

  datatype Option<+T> = None | Some(value: T) {
    function GetOr(default: T): T {
      match this
      case Some(v) => v
      case None => default
    }
  }

  /** The uncaught Python exceptions the modelled code can raise. */
  datatype Fault =
    | ValueError     // int()/float() of a malformed string
    | TypeError      // int()/float() of None or of a list
    | KeyError(key: string)
    | IndexError     // indexing an empty list: `[][0]`
    | AttributeError // calling a string method on a non-string
    | Raised(message: string) // an explicit `raise Exception(...)`

  datatype Result<+T> = Ok(value: T) | Err(fault: Fault) {
    predicate IsFailure() {
      Err?
    }

    function PropagateFailure<U>(): Result<U>
      requires Err?
    {
      Err(fault)
    }

    function Extract(): T
      requires Ok?
    {
      value
    }
  }
}

=== FILE: signals.dfy ===
/** The PayPal IPN receiver `payment_notification` as a transition of the ledger: the
    purchase transactions and the clients' bonus-token balances. */
module Signals {
  import opened Results
  import opened Text

  /** The `payment_status` of a completed PayPal payment. */
  const PaypalCompleted := "Completed"

  /** The status a credited purchase is given. */
  const CompletedStatus := "COMPLETED"

  /** A purchase: its buyer, its expected amount (an opaque decimal compared only for
      equality), its status, the PayPal transaction id once paid, and the tokens of its
      package (`None` when it has no package, on which `.tokens` raises). */
  datatype Transaction = Transaction(user: int, amount: real, status: string, paypalId: Option<string>,
                                     packageTokens: Option<int>)

  /** The notification's fields: `payment_status`, `custom` (the transaction's id as
      text), `mc_gross` and `txn_id`. */
  datatype Ipn = Ipn(paymentStatus: string, custom: string, gross: real, txnId: string)

  /** The transactions by id, and each client's `bonus_tokens` by user id. */
  datatype Ledger = Ledger(transactions: map<int, Transaction>, bonus: map<int, int>)

  /** The transaction a notification pays: `custom` must be an integer id of an existing
      transaction (otherwise the lookup raises and the handler logs it). */
  function Paid(ipn: Ipn, l: Ledger): (r: Option<int>)
    ensures r.Some? ==> r.value in l.transactions
  {
    match ParseInt(ipn.custom)
    case Some(id) => if id in l.transactions then Some(id) else None
    case None => None
  }

  /** A completed notification whose amount matches its transaction. */
  predicate Valid(ipn: Ipn, l: Ledger)
  {
    ipn.paymentStatus == PaypalCompleted && Paid(ipn, l).Some?
    && l.transactions[Paid(ipn, l).value].amount == ipn.gross
  }

  /** `payment_notification(ipn)`. Every exception is caught and logged, so the outcome
      is always a ledger: the transaction is saved as completed before the profile is
      looked up, and a missing profile or package leaves it completed with no tokens. */
  function PaymentNotification(ipn: Ipn, l: Ledger): (r: Ledger)
    ensures r.transactions.Keys == l.transactions.Keys
    ensures r.bonus.Keys == l.bonus.Keys
  {
    if ipn.paymentStatus != PaypalCompleted then l
    else
      match Paid(ipn, l)
      case None => l
      case Some(id) =>
        if l.transactions[id].amount != ipn.gross then l
        else Credit(l, id, ipn.txnId)
  }

  /** The valid branch: transaction `id` is saved as completed with the PayPal id, then its
      package's tokens go to the buyer's balance when both exist. */
  function Credit(l: Ledger, id: int, txnId: string): (r: Ledger)
    requires id in l.transactions
    ensures var t := l.transactions[id];
            && r.transactions == l.transactions[id := t.(status := CompletedStatus, paypalId := Some(txnId))]
            && r.bonus.Keys == l.bonus.Keys
            && (forall u :: u in l.bonus && u != t.user ==> r.bonus[u] == l.bonus[u])
            && (t.user in l.bonus && t.packageTokens.Some? ==>
                  r.bonus[t.user] == l.bonus[t.user] + t.packageTokens.value)
            && (t.user !in l.bonus || t.packageTokens.None? ==> r.bonus == l.bonus)
  {
    var t := l.transactions[id];
    var saved := l.(transactions := l.transactions[id := t.(status := CompletedStatus, paypalId := Some(txnId))]);
    if t.user in l.bonus && t.packageTokens.Some? then
      saved.(bonus := l.bonus[t.user := l.bonus[t.user] + t.packageTokens.value])
    else saved
  }

  /** A notification that is not "Completed", names no transaction, or carries another
      amount changes nothing. */
  lemma InvalidChangesNothing(ipn: Ipn, l: Ledger)
    requires !Valid(ipn, l)
    ensures PaymentNotification(ipn, l) == l
  {
  }

  /** A valid notification completes its transaction with the PayPal id, credits the
      package's tokens to the buyer when the profile and the package exist, and touches
      no other transaction and no other balance. */
  lemma ValidCredits(ipn: Ipn, l: Ledger)
    requires Valid(ipn, l)
    ensures var id := Paid(ipn, l).value;
            var t := l.transactions[id];
            var r := PaymentNotification(ipn, l);
            && r.transactions[id] == t.(status := CompletedStatus, paypalId := Some(ipn.txnId))
            && (forall j :: j in l.transactions && j != id ==> r.transactions[j] == l.transactions[j])
            && (forall u :: u in l.bonus && u != t.user ==> r.bonus[u] == l.bonus[u])
            && (t.user in l.bonus && t.packageTokens.Some? ==>
                  r.bonus[t.user] == l.bonus[t.user] + t.packageTokens.value)
            && (t.user !in l.bonus || t.packageTokens.None? ==> r.bonus == l.bonus)
  {
    assert PaymentNotification(ipn, l) == Credit(l, Paid(ipn, l).value, ipn.txnId);
  }

  /** Nothing guards against a repeated notification: the same valid IPN delivered twice
      credits the tokens twice. */
  lemma RepeatCreditsTwice(ipn: Ipn, l: Ledger)
    requires Valid(ipn, l)
    requires var t := l.transactions[Paid(ipn, l).value]; t.user in l.bonus && t.packageTokens.Some?
    ensures var t := l.transactions[Paid(ipn, l).value];
            PaymentNotification(ipn, PaymentNotification(ipn, l)).bonus[t.user]
            == l.bonus[t.user] + 2 * t.packageTokens.value
  {
    var id := Paid(ipn, l).value;
    var t := l.transactions[id];
    var l1 := PaymentNotification(ipn, l);
    ValidCredits(ipn, l);
    assert Paid(ipn, l1) == Some(id);
    assert l1.transactions[id].amount == t.amount;
    assert l1.transactions[id].user == t.user && l1.transactions[id].packageTokens == t.packageTokens;
    ValidCredits(ipn, l1);
  }
}

=== FILE: text.dfy ===
/** Python `str` operations used by the modelled code, on `seq<char>`.
    Case mapping follows ASCII (see README, "Left out"); whitespace is Python's full set. */
module Text {
  import opened Results

  /** `pat` occurs in `s` starting at position `p`. */
  predicate OccursAt(s: string, pat: string, p: int)
  {
    0 <= p && p + |pat| <= |s| && s[p..p + |pat|] == pat
  }

  predicate StartsWith(s: string, pre: string)
  {
    |pre| <= |s| && s[..|pre|] == pre
  }

  /** Python's `pat in s`: `pat` starts at some position of `s`. */
  predicate Contains(s: string, pat: string)
    decreases |s|
  {
    StartsWith(s, pat) || (|s| > 0 && Contains(s[1..], pat))
  }

  /** `Contains` holds exactly when `pat` occurs somewhere in `s`. */
  lemma {:induction false} ContainsIff(s: string, pat: string)
    ensures Contains(s, pat) <==> exists p :: OccursAt(s, pat, p)
    decreases |s|
  {
    assert StartsWith(s, pat) <==> OccursAt(s, pat, 0);
    if |s| > 0 {
      ContainsIff(s[1..], pat);
      ShiftOccurrence(s, pat);
      if OccursAt(s[1..], pat, 0) {
        assert OccursAt(s, pat, 0 + 1);
      }
      if p :| OccursAt(s, pat, p) {
        if p > 0 {
          assert OccursAt(s, pat, (p - 1) + 1);
          assert OccursAt(s[1..], pat, p - 1);
        }
      }
      if Contains(s[1..], pat) {
        var q :| OccursAt(s[1..], pat, q);
        assert OccursAt(s, pat, q + 1);
      }
    }
  }

  predicate EndsWith(s: string, suf: string)
  {
    |suf| <= |s| && s[|s| - |suf|..] == suf
  }

  function LowerChar(c: char): char
  {
    if 'A' <= c <= 'Z' then (c as int + 32) as char else c
  }

  function UpperChar(c: char): char
  {
    if 'a' <= c <= 'z' then (c as int - 32) as char else c
  }

  /** Python's `s.lower()`, restricted to ASCII letters. */
  function Lower(s: string): (r: string)
    ensures |r| == |s|
    ensures forall i :: 0 <= i < |s| ==> r[i] == LowerChar(s[i])
  {
    seq(|s|, i requires 0 <= i < |s| => LowerChar(s[i]))
  }

  /** Python's `s.upper()`, restricted to ASCII letters. */
  function Upper(s: string): (r: string)
    ensures |r| == |s|
    ensures forall i :: 0 <= i < |s| ==> r[i] == UpperChar(s[i])
  {
    seq(|s|, i requires 0 <= i < |s| => UpperChar(s[i]))
  }

  /** The characters for which Python's `str.isspace()` holds, and which `strip()` and
      `int()` skip: the Unicode space separators and the characters of bidirectional
      type WS, B or S. */
  predicate IsSpace(c: char)
  {
    || c == ' ' || c == '\t' || c == '\n' || c == '\r' || c == '\U{000B}' || c == '\U{000C}'
    || c == '\U{001C}' || c == '\U{001D}' || c == '\U{001E}' || c == '\U{001F}'
    || c == '\U{0085}' || c == '\U{00A0}' || c == '\U{1680}' || ('\U{2000}' <= c <= '\U{200A}')
    || c == '\U{2028}' || c == '\U{2029}' || c == '\U{202F}' || c == '\U{205F}' || c == '\U{3000}'
  }

  function TrimStart(s: string): (r: string)
    ensures |r| <= |s| && r == s[|s| - |r|..]
    ensures r == [] || !IsSpace(r[0])
    ensures forall i :: 0 <= i < |s| - |r| ==> IsSpace(s[i])
  {
    if s == [] || !IsSpace(s[0]) then s else TrimStart(s[1..])
  }

  function TrimEnd(s: string): (r: string)
    ensures |r| <= |s| && r == s[..|r|]
    ensures r == [] || !IsSpace(r[|r| - 1])
    ensures forall i :: |r| <= i < |s| ==> IsSpace(s[i])
  {
    if s == [] || !IsSpace(s[|s| - 1]) then s else TrimEnd(s[..|s| - 1])
  }

  /** Python's `s.strip()`: the whitespace-free core of `s`. */
  function Strip(s: string): (r: string)
    ensures r == [] || (!IsSpace(r[0]) && !IsSpace(r[|r| - 1]))
  {
    TrimEnd(TrimStart(s))
  }

  /** A string that starts and ends with a non-space character is its own `strip()`. */
  lemma StripOfTrimmed(s: string)
    requires s == [] || (!IsSpace(s[0]) && !IsSpace(s[|s| - 1]))
    ensures Strip(s) == s
  {
  }

  /** Python's `s.rstrip(c)` for one character `c`. */
  function DropTrailing(s: string, c: char): (r: string)
    ensures |r| <= |s| && r == s[..|r|]
    ensures r == [] || r[|r| - 1] != c
    ensures forall i :: |r| <= i < |s| ==> s[i] == c
  {
    if s == [] || s[|s| - 1] != c then s else DropTrailing(s[..|s| - 1], c)
  }

  /** Python's `s.replace(pat, "")`: left-to-right, non-overlapping deletion. */
  function DeleteAll(s: string, pat: string): (r: string)
    requires |pat| > 0
    ensures |r| <= |s|
    ensures !Contains(s, pat) ==> r == s
    decreases |s|
  {
    if |s| == 0 then s
    else if StartsWith(s, pat) then
      DeleteAll(s[|pat|..], pat)
    else
      [s[0]] + DeleteAll(s[1..], pat)
  }

  /** The position of the first occurrence of `pat` in `s`, if any. */
  function IndexOf(s: string, pat: string): (r: Option<nat>)
    requires |pat| > 0
    ensures r.Some? ==> OccursAt(s, pat, r.value)
    ensures r.Some? ==> forall p :: 0 <= p < r.value ==> !OccursAt(s, pat, p)
    ensures r.None? ==> forall p :: !OccursAt(s, pat, p)
    decreases |s|
  {
    if |s| < |pat| then None
    else if s[..|pat|] == pat then Some(0)
    else
      var rest := IndexOf(s[1..], pat);
      ShiftOccurrence(s, pat);
      assert !OccursAt(s, pat, 0);
      assert forall p :: 1 <= p ==> (OccursAt(s, pat, p) <==> OccursAt(s[1..], pat, p - 1)) by {
        forall p | 1 <= p ensures OccursAt(s, pat, p) <==> OccursAt(s[1..], pat, p - 1) {
          assert OccursAt(s, pat, (p - 1) + 1) <==> OccursAt(s[1..], pat, p - 1);
        }
      }
      match rest
      case None => None
      case Some(i) => Some(i + 1)
  }

  /** An occurrence at `p + 1` in `s` is an occurrence at `p` in `s[1..]`. */
  lemma ShiftOccurrence(s: string, pat: string)
    requires |s| > 0
    ensures forall p :: 0 <= p ==> (OccursAt(s, pat, p + 1) <==> OccursAt(s[1..], pat, p))
  {
    forall p | 0 <= p
      ensures OccursAt(s, pat, p + 1) <==> OccursAt(s[1..], pat, p)
    {
      if p + 1 + |pat| <= |s| {
        SliceOfTail(s, p, |pat|);
      }
    }
  }

  lemma SliceOfTail(s: string, p: int, n: int)
    requires |s| > 0 && 0 <= p && 0 <= n && p + 1 + n <= |s|
    ensures s[1..][p..p + n] == s[p + 1..p + 1 + n]
  {
  }

  lemma PrefixSlice(a: string, b: string, i: int, j: int)
    requires 0 <= i <= j <= |a|
    ensures (a + b)[i..j] == a[i..j]
  {
  }

  /** Python's `s.split(sep)` for a non-empty separator. */
  function Split(s: string, sep: string): (r: seq<string>)
    requires |sep| > 0
    ensures |r| >= 1
    decreases |s|
  {
    match IndexOf(s, sep)
    case None => [s]
    case Some(i) => [s[..i]] + Split(s[i + |sep|..], sep)
  }

  /** Python's `sep.join(parts)`. */
  function Join(parts: seq<string>, sep: string): string
  {
    if |parts| == 0 then ""
    else if |parts| == 1 then parts[0]
    else parts[0] + sep + Join(parts[1..], sep)
  }

  /** No occurrence of `sep` starts inside `item` when `sep` follows it, so a split
      of `item + sep + ...` cuts exactly after `item`. */
  predicate NoEarlySep(item: string, sep: string)
  {
    forall p :: 0 <= p < |item| ==> !OccursAt(item + sep, sep, p)
  }

  /** An item free of the separator's first character has no early separator. */
  lemma NoEarlySepOfFirstChar(item: string, sep: string)
    requires |sep| > 0 && sep[0] !in item
    ensures NoEarlySep(item, sep)
  {
    forall p | 0 <= p < |item|
      ensures !OccursAt(item + sep, sep, p)
    {
      assert (item + sep)[p] == item[p];
    }
  }

  lemma SplitCutsAfterItem(item: string, sep: string, rest: string)
    requires |sep| > 0 && NoEarlySep(item, sep)
    ensures IndexOf(item + sep + rest, sep) == Some(|item|)
  {
    var s := item + sep + rest;
    assert s == (item + sep) + rest;
    assert s[|item|..|item| + |sep|] == sep;
    assert OccursAt(s, sep, |item|);
    forall p | 0 <= p < |item|
      ensures !OccursAt(s, sep, p)
    {
      PrefixSlice(item + sep, rest, p, p + |sep|);
      assert !OccursAt(item + sep, sep, p);
    }
  }

  lemma SplitOfSingle(item: string, sep: string)
    requires |sep| > 0 && NoEarlySep(item, sep)
    ensures Split(item, sep) == [item]
  {
    match IndexOf(item, sep)
    case None =>
    case Some(i) =>
      assert item[i..i + |sep|] == (item + sep)[i..i + |sep|];
      assert OccursAt(item + sep, sep, i);
      assert false;
  }

  /** Splitting `item + sep + rest` cuts off `item` and splits the rest. */
  lemma SplitStep(item: string, sep: string, rest: string)
    requires |sep| > 0 && NoEarlySep(item, sep)
    ensures Split(item + sep + rest, sep) == [item] + Split(rest, sep)
  {
    SplitCutsAfterItem(item, sep, rest);
    var s := item + sep + rest;
    assert s[..|item|] == item;
    assert s[|item| + |sep|..] == rest;
  }

  /** Splitting a join recovers the parts when no separator straddles an item boundary. */
  lemma {:induction false} SplitJoin(parts: seq<string>, sep: string)
    requires |sep| > 0 && |parts| > 0
    requires forall i :: 0 <= i < |parts| ==> NoEarlySep(parts[i], sep)
    ensures Split(Join(parts, sep), sep) == parts
    decreases |parts|
  {
    if |parts| == 1 {
      SplitOfSingle(parts[0], sep);
    } else {
      var tail := Join(parts[1..], sep);
      assert Join(parts, sep) == parts[0] + sep + tail;
      SplitStep(parts[0], sep, tail);
      SplitJoin(parts[1..], sep);
      assert parts == [parts[0]] + parts[1..];
    }
  }

  function DigitChar(d: nat): char
    requires d < 10
  {
    ('0' as int + d) as char
  }

  predicate IsDigit(c: char)
  {
    '0' <= c <= '9'
  }

  function DigitValue(c: char): nat
    requires IsDigit(c)
  {
    c as int - '0' as int
  }

  predicate AllDigits(s: string)
  {
    forall i :: 0 <= i < |s| ==> IsDigit(s[i])
  }

  /** Decimal rendering of a natural number, as Python's `str(n)`. */
  function NatToString(n: nat): (r: string)
    ensures |r| > 0 && AllDigits(r)
  {
    if n < 10 then [DigitChar(n)] else NatToString(n / 10) + [DigitChar(n % 10)]
  }

  /** Python's `str(n)` for an integer (f-string interpolation of an int). */
  function IntToString(n: int): (r: string)
    ensures |r| > 0 && !IsSpace(r[0]) && !IsSpace(r[|r| - 1])
  {
    if n < 0 then "-" + NatToString(-n) else NatToString(n)
  }

  /** The value of a string of decimal digits. */
  function DigitsValue(s: string): nat
    requires AllDigits(s)
  {
    if s == [] then 0 else DigitsValue(s[..|s| - 1]) * 10 + DigitValue(s[|s| - 1])
  }

  lemma {:induction false} DigitsOfNat(n: nat)
    ensures DigitsValue(NatToString(n)) == n
  {
    if n >= 10 {
      var s := NatToString(n);
      assert s[..|s| - 1] == NatToString(n / 10);
      DigitsOfNat(n / 10);
    }
  }

  /** Python's `int(s)` on a string: surrounding whitespace, an optional sign and at
      least one decimal digit; `None` stands for the `ValueError`. */
  function ParseInt(s: string): (r: Option<int>)
    ensures r.Some? ==> |Strip(s)| > 0
  {
    var t := Strip(s);
    if |t| > 0 && (t[0] == '-' || t[0] == '+') then
      var body := t[1..];
      if |body| > 0 && AllDigits(body) then
        var v: int := if t[0] == '-' then 0 - DigitsValue(body) as int else DigitsValue(body);
        Some(v)
      else None
    else if |t| > 0 && AllDigits(t) then Some(DigitsValue(t))
    else None
  }

  /** `int(str(n)) == n`. */
  lemma ParseIntOfIntToString(n: int)
    ensures ParseInt(IntToString(n)) == Some(n)
  {
    var s := IntToString(n);
    StripOfTrimmed(s);
    if n < 0 {
      assert s[1..] == NatToString(-n);
      DigitsOfNat(-n);
    } else {
      DigitsOfNat(n);
    }
  }

  function Pow10(k: nat): (r: nat)
    ensures r > 0
  {
    if k == 0 then 1 else 10 * Pow10(k - 1)
  }

  /** The unsigned part of a plain decimal literal: `ddd`, `ddd.`, `ddd.ddd` or `.ddd`. */
  function UnsignedDecimal(s: string): Option<real>
  {
    match IndexOf(s, ".")
    case None => if |s| > 0 && AllDigits(s) then Some(DigitsValue(s) as real) else None
    case Some(i) =>
      var whole, frac := s[..i], s[i + 1..];
      if (|whole| > 0 || |frac| > 0) && AllDigits(whole) && AllDigits(frac) then
        Some(DigitsValue(whole) as real + DigitsValue(frac) as real / Pow10(|frac|) as real)
      else None
  }

  /** Python's `float(s)` on a string, for plain decimal literals only. */
  function ParseDecimal(s: string): Option<real>
  {
    var t := Strip(s);
    if |t| > 0 && (t[0] == '-' || t[0] == '+') then
      match UnsignedDecimal(t[1..])
      case None => None
      case Some(x) => Some(if t[0] == '-' then -x else x)
    else UnsignedDecimal(t)
  }
}

=== FILE: video_generation.dfy ===
/** The deterministic parts of generating a video: the parameters handed to the
    workflow update, the wait for the end of the run, and the choice of the video file
    among the run's outputs. The upload, the websocket, the history request and the
    downloads are inputs here. */
module VideoGeneration {
  import opened Results
  import opened Text
  import opened Graphs
  import opened ImageGeneration
  import opened VideoWorkflow

  // ---------------------------------------------------------------------------
  // Parameters

  /** The resolution sent to the workflow: `int(quality)` when quality is truthy and
      not the stored default 25, else `resolution`. */
  function FinalResolution(quality: Value, resolution: Value): (r: Result<Value>)
    ensures !Truthy(quality) ==> r == Ok(resolution)
    ensures Truthy(quality) && ToInt(quality) == Ok(25) ==> r == Ok(resolution)
    ensures Truthy(quality) && ToInt(quality).Ok? && ToInt(quality).value != 25 ==> r == Ok(Int(ToInt(quality).value))
    ensures r.Err? <==> Truthy(quality) && ToInt(quality).Err?
  {
    if !Truthy(quality) then Ok(resolution)
    else
      var q :- ToInt(quality);
      Ok(if q != 25 then Int(q) else resolution)
  }

  /** The `params` dictionary of `generate_video_task`, black-list settings taken from
      the decoded active configuration (`{}` when it is missing or undecodable). */
  function VideoParams(prompt: Value, negative: Value, duration: Value, fps: Value, resolution: Value,
                       seed: Value, config: Dict<Value>): Dict<Value>
  {
    [("prompt", prompt), ("negative_prompt", negative), ("duration", duration), ("fps", fps),
     ("resolution", resolution), ("seed", seed),
     ("black_list_tags", Get(config, "black_list_tags").GetOr(Null)),
     ("enable_blacklist", Get(config, "enable_blacklist").GetOr(Bool(true)))]
  }

  /** Each parameter is read back as given; the black-list tags are None when the
      configuration has none, and the switch defaults to on. */
  lemma VideoParamsLookup(prompt: Value, negative: Value, duration: Value, fps: Value, resolution: Value,
                          seed: Value, config: Dict<Value>)
    ensures var r := VideoParams(prompt, negative, duration, fps, resolution, seed, config);
            && Get(r, "prompt") == Some(prompt) && Get(r, "negative_prompt") == Some(negative)
            && Get(r, "duration") == Some(duration) && Get(r, "fps") == Some(fps)
            && Get(r, "resolution") == Some(resolution) && Get(r, "seed") == Some(seed)
            && Get(r, "black_list_tags") == Some(Get(config, "black_list_tags").GetOr(Null))
            && Get(r, "enable_blacklist") == Some(Get(config, "enable_blacklist").GetOr(Bool(true)))
  {
    var r := VideoParams(prompt, negative, duration, fps, resolution, seed, config);
    assert DistinctKeys(r) by {
      forall i, j | 0 <= i < j < |r| ensures r[i].0 != r[j].0 {
        assert r[i].0[0] != r[j].0[0];
      }
    }
    GetAt(r, 0);
    GetAt(r, 1);
    GetAt(r, 2);
    GetAt(r, 3);
    GetAt(r, 4);
    GetAt(r, 5);
    GetAt(r, 6);
    GetAt(r, 7);
  }

  /** The request never carries a white list, so the white-list node is never written. */
  lemma VideoParamsNoWhiteList(prompt: Value, negative: Value, duration: Value, fps: Value, resolution: Value,
                               seed: Value, config: Dict<Value>)
    ensures !Has(VideoParams(prompt, negative, duration, fps, resolution, seed, config), "white_list_tags")
  {
    var r := VideoParams(prompt, negative, duration, fps, resolution, seed, config);
    HasIffKey(r, "white_list_tags");
    forall i | 0 <= i < |r| ensures r[i].0 != "white_list_tags" {
    }
  }

  /** The tag key is always in the parameters, so an existing black-list node is always
      written: with the configured tags (None when the configuration has none) while the
      black list is enabled, with "" once it is disabled. */
  lemma BlacklistAlwaysWritten(prompt: Value, negative: Value, duration: Value, fps: Value, resolution: Value,
                               seed: Value, config: Dict<Value>)
    ensures var params := VideoParams(prompt, negative, duration, fps, resolution, seed, config);
            var enable := Get(config, "enable_blacklist").GetOr(Bool(true));
            && (Truthy(enable) ==> BlacklistText(params) == Some(Get(config, "black_list_tags").GetOr(Null)))
            && (!Truthy(enable) ==> BlacklistText(params) == Some(Str("")))
  {
    VideoParamsLookup(prompt, negative, duration, fps, resolution, seed, config);
  }

  // ---------------------------------------------------------------------------
  // Waiting for the run

  predicate IsExecutionError(e: Event)
  {
    e.Message? && e.kind == "execution_error"
  }

  /** The video wait from event `i` on: an execution error raises, the end of the prompt
      or a closed connection stops it (Some index), and a sequence that runs out leaves it
      waiting (None). */
  function VideoWait(events: seq<Event>, pid: string, i: nat): (r: Result<Option<nat>>)
    requires i <= |events|
    ensures r.Err? ==> r.fault.Raised?
    decreases |events| - i
  {
    if i == |events| then Ok(None)
    else if IsExecutionError(events[i]) then Err(Raised("ComfyUI Error"))
    else if EndsImageWait(events[i], pid) then Ok(Some(i))
    else VideoWait(events, pid, i + 1)
  }

  /** Where the image wait stops, or the end of the events when it does not. */
  function StopOf(events: seq<Event>, pid: string, i: nat): (r: nat)
    requires i <= |events|
    ensures i <= r <= |events|
  {
    match ImageWait(events, pid, i)
    case Some(t) => t
    case None => |events|
  }

  /** The video wait stops where the image wait stops, unless an execution error comes
      first, and then it raises. */
  lemma {:induction false} VideoWaitMeaning(events: seq<Event>, pid: string, i: nat)
    requires i <= |events|
    ensures VideoWait(events, pid, i).Err?
            <==> exists j :: i <= j < StopOf(events, pid, i) && IsExecutionError(events[j])
    ensures VideoWait(events, pid, i).Ok? ==> VideoWait(events, pid, i).value == ImageWait(events, pid, i)
    decreases |events| - i
  {
    if i < |events| && !IsExecutionError(events[i]) && !EndsImageWait(events[i], pid) {
      VideoWaitMeaning(events, pid, i + 1);
      assert StopOf(events, pid, i) == StopOf(events, pid, i + 1);
    }
  }

  // ---------------------------------------------------------------------------
  // Picking the video

  /** One node of the run's `outputs`; each list is None when the key is absent. */
  datatype VideoOutput = VideoOutput(gifs: Option<seq<ImageFile>>, images: Option<seq<ImageFile>>,
                                     video: Option<seq<ImageFile>>)

  /** A downloaded file and the name it is reported under. */
  datatype Pick = Pick(content: Bytes, filename: string)

  predicate IsVideoName(name: string)
  {
    EndsWith(name, ".mp4") || EndsWith(name, ".gif") || EndsWith(name, ".webm")
  }

  /** The loop over one list: every file tried is downloaded and its name remembered;
      the first non-empty download ends the loop. For `images`, only video names are
      tried. `p` is the state before the loop. */
  function TryFiles(files: seq<ImageFile>, videoOnly: bool, download: ImageFile -> Bytes, p: Pick): Pick
  {
    if files == [] then p
    else if videoOnly && !IsVideoName(files[0].filename) then TryFiles(files[1..], videoOnly, download, p)
    else
      var q := Pick(download(files[0]), files[0].filename);
      if |q.content| > 0 then q else TryFiles(files[1..], videoOnly, download, q)
  }

  /** One output node: its gifs, then its video-named images, then its videos, each
      list read only while nothing has been downloaded. */
  function NodePick(o: VideoOutput, download: ImageFile -> Bytes, p: Pick): Pick
  {
    var p1 := if o.gifs.Some? then TryFiles(o.gifs.value, false, download, p) else p;
    var p2 := if |p1.content| == 0 && o.images.Some? then TryFiles(o.images.value, true, download, p1) else p1;
    if |p2.content| == 0 && o.video.Some? then TryFiles(o.video.value, false, download, p2) else p2
  }

  /** The output nodes in manifest order, until one yields a download. */
  function PickLoop(outputs: Dict<VideoOutput>, download: ImageFile -> Bytes, p: Pick): Pick
  {
    if outputs == [] then p
    else
      var q := NodePick(outputs[0].1, download, p);
      if |q.content| > 0 then q else PickLoop(outputs[1..], download, q)
  }

  /** The artifact pick of `generate_video_task`: the video and its file name, or the
      exception raised when nothing could be downloaded. */
  function PickVideo(outputs: Dict<VideoOutput>, download: ImageFile -> Bytes, pid: string): (r: Result<Pick>)
    ensures r.Ok? ==> |r.value.content| > 0
    ensures r.Err? ==> r.fault.Raised?
  {
    var p := PickLoop(outputs, download, Pick([], "video_" + pid + ".mp4"));
    if |p.content| == 0 then Err(Raised("video not found")) else Ok(p)
  }

  /** The files of a list that are tried: all of them, or only the video names. */
  function Tried(files: seq<ImageFile>, videoOnly: bool): (r: seq<ImageFile>)
    ensures forall f :: f in r <==> f in files && (videoOnly ==> IsVideoName(f.filename))
  {
    if files == [] then []
    else
      var rest := Tried(files[1..], videoOnly);
      assert files == [files[0]] + files[1..];
      if videoOnly && !IsVideoName(files[0].filename) then rest else [files[0]] + rest
  }

  /** Every file the pick may try, in the order it tries them. */
  function Candidates(outputs: Dict<VideoOutput>): seq<ImageFile>
  {
    if outputs == [] then []
    else
      var o := outputs[0].1;
      o.gifs.GetOr([]) + Tried(o.images.GetOr([]), true) + o.video.GetOr([]) + Candidates(outputs[1..])
  }

  /** The first of `files` whose download is not empty, with its own name. */
  function FirstDownload(files: seq<ImageFile>, download: ImageFile -> Bytes): (r: Option<Pick>)
    ensures r.Some? ==> |r.value.content| > 0
    ensures r.Some? ==> exists j :: 0 <= j < |files| && r.value == Pick(download(files[j]), files[j].filename)
                                  && forall l :: 0 <= l < j ==> |download(files[l])| == 0
    ensures r.None? <==> forall j :: 0 <= j < |files| ==> |download(files[j])| == 0
  {
    if files == [] then None
    else if |download(files[0])| > 0 then Some(Pick(download(files[0]), files[0].filename))
    else
      var rest := FirstDownload(files[1..], download);
      assert forall j :: 1 <= j < |files| ==> files[j] == files[1..][j - 1];
      rest
  }

  lemma {:induction false} FirstDownloadAppend(a: seq<ImageFile>, b: seq<ImageFile>, download: ImageFile -> Bytes)
    ensures FirstDownload(a + b, download) == if FirstDownload(a, download).Some? then FirstDownload(a, download)
                                              else FirstDownload(b, download)
  {
    if a != [] {
      assert (a + b)[1..] == a[1..] + b;
      FirstDownloadAppend(a[1..], b, download);
    } else {
      assert a + b == b;
    }
  }

  /** From an empty state, one list's loop yields its first download, or stays empty. */
  lemma {:induction false} TryFilesIsFirst(files: seq<ImageFile>, videoOnly: bool, download: ImageFile -> Bytes, p: Pick)
    requires |p.content| == 0
    ensures var q := TryFiles(files, videoOnly, download, p);
            match FirstDownload(Tried(files, videoOnly), download)
            case Some(d) => q == d
            case None => |q.content| == 0
  {
    if files != [] {
      var q := Pick(download(files[0]), files[0].filename);
      if videoOnly && !IsVideoName(files[0].filename) {
        TryFilesIsFirst(files[1..], videoOnly, download, p);
      } else if |q.content| == 0 {
        TryFilesIsFirst(files[1..], videoOnly, download, q);
      }
    }
  }

  /** From an empty state, one node yields the first download among its candidates. */
  lemma NodePickIsFirst(o: VideoOutput, download: ImageFile -> Bytes, p: Pick)
    requires |p.content| == 0
    ensures var q := NodePick(o, download, p);
            match FirstDownload(o.gifs.GetOr([]) + Tried(o.images.GetOr([]), true) + o.video.GetOr([]), download)
            case Some(d) => q == d
            case None => |q.content| == 0
  {
    var gifs, images, videos := o.gifs.GetOr([]), Tried(o.images.GetOr([]), true), o.video.GetOr([]);
    FirstDownloadAppend(gifs + images, videos, download);
    FirstDownloadAppend(gifs, images, download);
    var p1 := if o.gifs.Some? then TryFiles(o.gifs.value, false, download, p) else p;
    if o.gifs.Some? {
      TryFilesIsFirst(o.gifs.value, false, download, p);
      assert Tried(o.gifs.value, false) == gifs by {
        TriedAll(o.gifs.value);
      }
    }
    var p2 := if |p1.content| == 0 && o.images.Some? then TryFiles(o.images.value, true, download, p1) else p1;
    if |p1.content| == 0 && o.images.Some? {
      TryFilesIsFirst(o.images.value, true, download, p1);
    }
    if |p2.content| == 0 && o.video.Some? {
      TryFilesIsFirst(o.video.value, false, download, p2);
      assert Tried(o.video.value, false) == videos by {
        TriedAll(o.video.value);
      }
    }
  }

  lemma {:induction false} TriedAll(files: seq<ImageFile>)
    ensures Tried(files, false) == files
  {
    if files != [] {
      TriedAll(files[1..]);
      assert files == [files[0]] + files[1..];
    }
  }

  /** From an empty state, the loop over the nodes yields the first download among all
      candidates. */
  lemma {:induction false} PickLoopIsFirst(outputs: Dict<VideoOutput>, download: ImageFile -> Bytes, p: Pick)
    requires |p.content| == 0
    ensures var q := PickLoop(outputs, download, p);
            match FirstDownload(Candidates(outputs), download)
            case Some(d) => q == d
            case None => |q.content| == 0
  {
    if outputs != [] {
      var o := outputs[0].1;
      var here := o.gifs.GetOr([]) + Tried(o.images.GetOr([]), true) + o.video.GetOr([]);
      NodePickIsFirst(o, download, p);
      FirstDownloadAppend(here, Candidates(outputs[1..]), download);
      var q := NodePick(o, download, p);
      if |q.content| == 0 {
        PickLoopIsFirst(outputs[1..], download, q);
      }
    }
  }

  /** The pick returns the first candidate, in manifest order and gifs / video-named
      images / videos within a node, whose download is not empty, under that file's own
      name; when every download is empty it raises. */
  lemma PickVideoIsFirstDownload(outputs: Dict<VideoOutput>, download: ImageFile -> Bytes, pid: string)
    ensures PickVideo(outputs, download, pid) == match FirstDownload(Candidates(outputs), download)
                                                 case Some(d) => Ok(d)
                                                 case None => Err(Raised("video not found"))
  {
    PickLoopIsFirst(outputs, download, Pick([], "video_" + pid + ".mp4"));
  }

  // ---------------------------------------------------------------------------
  // The video job

  /** What a finished task returns. */
  datatype VideoResult = VideoResult(content: Bytes, seed: int, filename: string, workflow: Graph)

  /** A value Python can slice: a string or a list. */
  predicate Sliceable(v: Value)
  {
    v.Str? || v.Ref? || v.EmptyList?
  }

  /** `generate_video_task` once the backend is chosen and the image uploaded: `workflow`
      is the configured workflow (None when there is none), `uploaded` the name the
      upload returned, `events` what the websocket delivers, `outputs` the run's
      history entry, `rnd` the random seed drawn. `Ok(None)` means the run has not
      ended within `events`: the job is still blocked on the socket and returns nothing.
      The job's first step prints `prompt[:30]`, which raises `TypeError` unless the prompt
      is a string or a list. */
  function GenerateVideo(workflow: Option<Graph>, config: Dict<Value>, uploaded: Value,
                         prompt: Value, negative: Value, duration: Value, fps: Value, quality: Value,
                         seed: Value, resolution: Value, rnd: int,
                         events: seq<Event>, pid: string, outputs: Dict<VideoOutput>,
                         download: ImageFile -> Bytes): (r: Result<Option<VideoResult>>)
    ensures !Sliceable(prompt) ==> r == Err(TypeError)
    ensures workflow.None? ==> r.Err?
    ensures r.Ok? && r.value.Some? ==> && VideoWait(events, pid, 0).Ok? && VideoWait(events, pid, 0).value.Some?
                                       && |r.value.value.content| > 0
                                       && SameShape(workflow.value, r.value.value.workflow)
    ensures VideoWait(events, pid, 0) == Ok(None) ==> r.Err? || r == Ok(None)
    ensures VideoWait(events, pid, 0).Err? ==> r.Err?
  {
    if !Sliceable(prompt) then Err(TypeError)
    else if workflow.None? then Err(Raised("no video workflow configured"))
    else
      var finalResolution :- FinalResolution(quality, resolution);
      var params := VideoParams(prompt, negative, duration, fps, finalResolution, seed, config);
      var updated :- UpdateVideoWorkflow(workflow.value, params, uploaded, rnd);
      var stop :- VideoWait(events, pid, 0);
      if stop.None? then Ok(None)
      else
        var picked :- PickVideo(outputs, download, pid);
        Ok(Some(VideoResult(picked.content, updated.1, picked.filename, updated.0)))
  }

  /** A run whose events never end it yields no video, whatever the outputs hold. */
  lemma UnfinishedRunYieldsNothing(workflow: Option<Graph>, config: Dict<Value>, uploaded: Value,
                                   prompt: Value, negative: Value, duration: Value, fps: Value, quality: Value,
                                   seed: Value, resolution: Value, rnd: int,
                                   events: seq<Event>, pid: string, outputs: Dict<VideoOutput>,
                                   download: ImageFile -> Bytes)
    requires forall j :: 0 <= j < |events| ==> !IsExecutionError(events[j]) && !EndsImageWait(events[j], pid)
    ensures var r := GenerateVideo(workflow, config, uploaded, prompt, negative, duration, fps, quality, seed,
                                   resolution, rnd, events, pid, outputs, download);
            r.Err? || r == Ok(None)
  {
    VideoWaitRunsOut(events, pid, 0);
  }

  /** Without an error or an ending event from `i` on, the video wait is still waiting. */
  lemma {:induction false} VideoWaitRunsOut(events: seq<Event>, pid: string, i: nat)
    requires i <= |events|
    requires forall j :: i <= j < |events| ==> !IsExecutionError(events[j]) && !EndsImageWait(events[j], pid)
    ensures VideoWait(events, pid, i) == Ok(None)
    decreases |events| - i
  {
    if i < |events| {
      VideoWaitRunsOut(events, pid, i + 1);
    }
  }

  /** An execution error before the run's end fails the video job, whatever the outputs. */
  lemma ErrorFailsTask(workflow: Option<Graph>, config: Dict<Value>, uploaded: Value,
                       prompt: Value, negative: Value, duration: Value, fps: Value, quality: Value,
                       seed: Value, resolution: Value, rnd: int,
                       events: seq<Event>, pid: string, outputs: Dict<VideoOutput>,
                       download: ImageFile -> Bytes, j: nat)
    requires j < StopOf(events, pid, 0) && IsExecutionError(events[j])
    ensures GenerateVideo(workflow, config, uploaded, prompt, negative, duration, fps, quality, seed, resolution,
                          rnd, events, pid, outputs, download).Err?
  {
    VideoWaitMeaning(events, pid, 0);
  }
}

=== FILE: video_workflow.dfy ===
/** The video workflow: reading its configurable parameters, and adapting a copy of it
    to one request by finding nodes through their titles. */
module VideoWorkflow {
  import opened Results
  import opened Text
  import opened Graphs

  // ----- Analysis -----

  /** One LoRA listed by the analysis; `legacyNode` is the id of a single
      `LoraLoaderModelOnly` node, None for a slot of a LoRA stack. */
  datatype VideoLora = VideoLora(name: Value, strength: Value, legacyNode: Option<string>)

  datatype VideoAnalysis = VideoAnalysis(
    unetHigh: Value, unetLow: Value,
    lorasHigh: seq<VideoLora>, lorasLow: seq<VideoLora>,
    vae: Value, clip: Value,
    blackListTags: Value, enableBlacklist: bool)

  const Defaults := VideoAnalysis(Null, Null, [], [], Null, Null, Null, true)

  /** The LoRAs of the stack slots `i`..6 that hold a truthy name other than "None". */
  function StackSlots(n: Node, i: nat): (r: seq<VideoLora>)
    requires 1 <= i <= 7
    ensures |r| <= 7 - i
    ensures forall k :: 0 <= k < |r| ==>
              Truthy(r[k].name) && r[k].name != Str("None") && r[k].legacyNode.None?
    decreases 7 - i
  {
    if i == 7 then []
    else
      var name := Input(n, LoraNameKey(i));
      var rest := StackSlots(n, i + 1);
      if Truthy(name) && name != Str("None") then
        [VideoLora(name, Get(n.inputs, LoraStrengthKey(i)).GetOr(Num(1.0)), None)] + rest
      else rest
  }

  /** Every slot from `i` on with a usable name is listed, with its strength or 1.0. */
  lemma {:induction false} StackSlotsComplete(n: Node, i: nat, j: nat)
    requires 1 <= i <= j <= 6
    requires Truthy(Input(n, LoraNameKey(j))) && Input(n, LoraNameKey(j)) != Str("None")
    ensures VideoLora(Input(n, LoraNameKey(j)), Get(n.inputs, LoraStrengthKey(j)).GetOr(Num(1.0)), None)
            in StackSlots(n, i)
    decreases j - i
  {
    if i < j {
      StackSlotsComplete(n, i + 1, j);
    }
  }

  /** A legacy LoRA loader whose `lora_name` is present but no string: `.lower()` raises. */
  predicate BadLegacyName(n: Node)
  {
    n.classType == "LoraLoaderModelOnly" && !Get(n.inputs, "lora_name").GetOr(Str("")).Str?
  }

  predicate IsVaeLoader(id: string, n: Node)
  {
    n.classType == "VAELoader"
  }

  predicate IsClipLoader(id: string, n: Node)
  {
    n.classType == "CLIPLoader"
  }

  predicate IsBlackListText(id: string, n: Node)
  {
    Upper(n.title) == "BLACK_LIST_TAGS" && n.classType == "DW_Text"
  }

  /** The effect of one node on the analysis. */
  function AnalyzeVideoNode(a: VideoAnalysis, id: string, n: Node): (r: Result<VideoAnalysis>)
    ensures r.Err? <==> BadLegacyName(n)
    ensures r.Err? ==> r.fault == AttributeError
    ensures r.Ok? ==> r.value.enableBlacklist == a.enableBlacklist
    ensures r.Ok? ==> r.value.vae == if IsVaeLoader(id, n) then Input(n, "vae_name") else a.vae
    ensures r.Ok? ==> r.value.clip == if IsClipLoader(id, n) then Input(n, "clip_name") else a.clip
    ensures r.Ok? ==> r.value.blackListTags
                      == if IsBlackListText(id, n) then Get(n.inputs, "text").GetOr(Str("")) else a.blackListTags
    ensures r.Ok? ==> && a.lorasHigh <= r.value.lorasHigh && a.lorasLow <= r.value.lorasLow
                      && |r.value.lorasHigh| + |r.value.lorasLow| <= |a.lorasHigh| + |a.lorasLow| + 6
    ensures r.Ok? && n.classType == "UNETLoader" && Contains(Upper(n.title), "HIGH")
            ==> r.value == a.(unetHigh := Input(n, "unet_name"))
  {
    var title := Upper(n.title);
    if n.classType == "UNETLoader" then
      Ok(if Contains(title, "HIGH") then a.(unetHigh := Input(n, "unet_name"))
         else if Contains(title, "LOW") then a.(unetLow := Input(n, "unet_name"))
         else a)
    else if n.classType == "VAELoader" then Ok(a.(vae := Input(n, "vae_name")))
    else if n.classType == "CLIPLoader" then Ok(a.(clip := Input(n, "clip_name")))
    else if n.classType == LoraStack then
      Ok(if Contains(title, "HIGH") then a.(lorasHigh := a.lorasHigh + StackSlots(n, 1))
         else if Contains(title, "LOW") then a.(lorasLow := a.lorasLow + StackSlots(n, 1))
         else a)
    else if n.classType == "LoraLoaderModelOnly" then
      var name := Get(n.inputs, "lora_name").GetOr(Str(""));
      if !name.Str? then Err(AttributeError)
      else
        var low := Lower(name.s);
        var entry := VideoLora(name, Get(n.inputs, "strength_model").GetOr(Num(1.0)), Some(id));
        if Contains(low, "high") || id == "26" then
          Ok(if Truthy(name) then a.(lorasHigh := a.lorasHigh + [entry]) else a)
        else if Contains(low, "low") || id == "27" then
          Ok(if Truthy(name) then a.(lorasLow := a.lorasLow + [entry]) else a)
        else Ok(a)
    else if IsBlackListText(id, n) then
      Ok(a.(blackListTags := Get(n.inputs, "text").GetOr(Str(""))))
    else Ok(a)
  }

  /** The nodes in file order; the first error ends the analysis. */
  function AnalyzeVideoNodes(g: Graph, a: VideoAnalysis): (r: Result<VideoAnalysis>)
    ensures r.Ok? ==> r.value.enableBlacklist == a.enableBlacklist
    ensures r.Ok? ==> |r.value.lorasHigh| + |r.value.lorasLow| <= |a.lorasHigh| + |a.lorasLow| + 6 * |g|
    ensures r.Err? ==> r.fault == AttributeError
  {
    if g == [] then Ok(a)
    else
      var a1 :- AnalyzeVideoNode(a, g[0].0, g[0].1);
      AnalyzeVideoNodes(g[1..], a1)
  }

  /** `analyze_video_workflow(workflow_json)`. */
  function AnalyzeVideoWorkflow(doc: Document): (r: Result<VideoAnalysis>)
    ensures doc.NotAnObject? ==> r == Ok(Defaults)
    ensures r.Ok? ==> r.value.enableBlacklist
    ensures r.Ok? && doc.Object? ==> |r.value.lorasHigh| + |r.value.lorasLow| <= 6 * |doc.graph|
  {
    match doc
    case NotAnObject => Ok(Defaults)
    case Object(g) => AnalyzeVideoNodes(g, Defaults)
  }

  /** Every listed LoRA has a truthy name, and a stack slot's name is not "None". */
  predicate WellNamed(a: VideoAnalysis)
  {
    WellNamedLoras(a.lorasHigh) && WellNamedLoras(a.lorasLow)
  }

  predicate WellNamedLoras(s: seq<VideoLora>)
  {
    forall k :: 0 <= k < |s| ==> Truthy(s[k].name) && (s[k].legacyNode.None? ==> s[k].name != Str("None"))
  }

  lemma WellNamedAppend(s: seq<VideoLora>, t: seq<VideoLora>)
    requires WellNamedLoras(s) && WellNamedLoras(t)
    ensures WellNamedLoras(s + t)
  {
    assert forall k :: |s| <= k < |s + t| ==> (s + t)[k] == t[k - |s|];
  }

  /** One node keeps the listed LoRAs well named. */
  lemma AnalyzeVideoNodeWellNamed(a: VideoAnalysis, id: string, n: Node)
    requires WellNamed(a) && AnalyzeVideoNode(a, id, n).Ok?
    ensures WellNamed(AnalyzeVideoNode(a, id, n).value)
  {
    if n.classType == LoraStack {
      WellNamedAppend(a.lorasHigh, StackSlots(n, 1));
      WellNamedAppend(a.lorasLow, StackSlots(n, 1));
    } else if n.classType == "LoraLoaderModelOnly" {
      var name := Get(n.inputs, "lora_name").GetOr(Str(""));
      var entry := VideoLora(name, Get(n.inputs, "strength_model").GetOr(Num(1.0)), Some(id));
      if Truthy(name) {
        WellNamedAppend(a.lorasHigh, [entry]);
        WellNamedAppend(a.lorasLow, [entry]);
      }
    }
  }

  /** Every LoRA the analysis lists is well named. */
  lemma {:induction false} AnalyzeVideoNodesWellNamed(g: Graph, a: VideoAnalysis)
    requires WellNamed(a) && AnalyzeVideoNodes(g, a).Ok?
    ensures WellNamed(AnalyzeVideoNodes(g, a).value)
  {
    if g != [] {
      AnalyzeVideoNodeWellNamed(a, g[0].0, g[0].1);
      AnalyzeVideoNodesWellNamed(g[1..], AnalyzeVideoNode(a, g[0].0, g[0].1).value);
    }
  }

  /** The analysis fails exactly when some legacy loader has a name that is no string. */
  lemma {:induction false} AnalyzeVideoNodesFails(g: Graph, a: VideoAnalysis)
    ensures AnalyzeVideoNodes(g, a).Err? <==> exists i :: 0 <= i < |g| && BadLegacyName(g[i].1)
  {
    if g != [] {
      var s := AnalyzeVideoNode(a, g[0].0, g[0].1);
      if s.Ok? {
        AnalyzeVideoNodesFails(g[1..], s.value);
        if exists i :: 0 <= i < |g[1..]| && BadLegacyName(g[1..][i].1) {
          var i :| 0 <= i < |g[1..]| && BadLegacyName(g[1..][i].1);
          assert BadLegacyName(g[i + 1].1);
        }
        if exists i :: 0 <= i < |g| && BadLegacyName(g[i].1) {
          var i :| 0 <= i < |g| && BadLegacyName(g[i].1);
          assert i > 0 && BadLegacyName(g[1..][i - 1].1);
        }
      }
    }
  }

  /** The value a setting takes after the nodes of `g`: that of the last node the rule
      `p` matches, or the earlier value when none matches. */
  function LastSetting(g: Graph, p: (string, Node) -> bool, read: Node -> Value, before: Value): Value
  {
    match LastIndex(g, p)
    case Some(i) => read(g[i].1)
    case None => before
  }

  function VaeName(n: Node): Value { Input(n, "vae_name") }
  function ClipName(n: Node): Value { Input(n, "clip_name") }
  function TagText(n: Node): Value { Get(n.inputs, "text").GetOr(Str("")) }

  /** For the VAE, the CLIP and the black-list tags the last matching node wins. */
  lemma {:induction false} LastNodeWins(g: Graph, a: VideoAnalysis)
    requires AnalyzeVideoNodes(g, a).Ok?
    ensures AnalyzeVideoNodes(g, a).value.vae == LastSetting(g, IsVaeLoader, VaeName, a.vae)
    ensures AnalyzeVideoNodes(g, a).value.clip == LastSetting(g, IsClipLoader, ClipName, a.clip)
    ensures AnalyzeVideoNodes(g, a).value.blackListTags
            == LastSetting(g, IsBlackListText, TagText, a.blackListTags)
  {
    if g != [] {
      var a1 := AnalyzeVideoNode(a, g[0].0, g[0].1).value;
      LastNodeWins(g[1..], a1);
      LastIndexFront(g, IsVaeLoader);
      LastIndexFront(g, IsClipLoader);
      LastIndexFront(g, IsBlackListText);
      if LastIndex(g[1..], IsVaeLoader).Some? {
        assert g[1..][LastIndex(g[1..], IsVaeLoader).value] == g[LastIndex(g, IsVaeLoader).value];
      }
      if LastIndex(g[1..], IsClipLoader).Some? {
        assert g[1..][LastIndex(g[1..], IsClipLoader).value] == g[LastIndex(g, IsClipLoader).value];
      }
      if LastIndex(g[1..], IsBlackListText).Some? {
        assert g[1..][LastIndex(g[1..], IsBlackListText).value] == g[LastIndex(g, IsBlackListText).value];
      }
    }
  }

  /** The stack's "None" test is case-sensitive: a slot named "none" is listed. */
  lemma LowercaseNoneIsListed()
    ensures var n := Node(LoraStack, "HIGH", [(LoraNameKey(1), Str("none"))]);
            AnalyzeVideoNode(Defaults, "5", n) == Ok(Defaults.(lorasHigh := [VideoLora(Str("none"), Num(1.0), None)]))
  {
    var n := Node(LoraStack, "HIGH", [(LoraNameKey(1), Str("none"))]);
    assert Upper("HIGH") == "HIGH";
    assert StartsWith("HIGH", "HIGH");
    assert Input(n, LoraNameKey(1)) == Str("none");
    assert Get(n.inputs, LoraStrengthKey(1)) == None by {
      LoraKeysDistinct(1, 1);
    }
    forall i | 2 <= i <= 6 ensures Input(n, LoraNameKey(i)) == Null {
      LoraKeysDistinct(1, i);
      assert n.inputs[0].0 != LoraNameKey(i);
      assert n.inputs[1..] == [];
      assert Get(n.inputs[1..], LoraNameKey(i)) == None;
      assert Get(n.inputs, LoraNameKey(i)) == None;
    }
    assert StackSlots(n, 6) == [];
    assert StackSlots(n, 5) == [];
    assert StackSlots(n, 4) == [];
    assert StackSlots(n, 3) == [];
    assert StackSlots(n, 2) == [];
    assert StackSlots(n, 1) == [VideoLora(Str("none"), Num(1.0), None)];
    assert Contains(Upper(n.title), "HIGH");
    assert n.classType != "UNETLoader" && n.classType != "VAELoader" && n.classType != "CLIPLoader";
    assert AnalyzeVideoNode(Defaults, "5", n) == Ok(Defaults.(lorasHigh := Defaults.lorasHigh + StackSlots(n, 1)));
    assert Defaults.lorasHigh + StackSlots(n, 1) == [VideoLora(Str("none"), Num(1.0), None)];
  }

  /** A legacy loader goes to the high list on "high" in its name or id "26", else to the
      low list on "low" or id "27", with its id recorded. */
  lemma LegacyRouting(a: VideoAnalysis, id: string, n: Node, s: string)
    requires n.classType == "LoraLoaderModelOnly" && Get(n.inputs, "lora_name") == Some(Str(s)) && s != ""
    ensures var e := VideoLora(Str(s), Get(n.inputs, "strength_model").GetOr(Num(1.0)), Some(id));
            && (Contains(Lower(s), "high") || id == "26" ==> AnalyzeVideoNode(a, id, n) == Ok(a.(lorasHigh := a.lorasHigh + [e])))
            && (!(Contains(Lower(s), "high") || id == "26") && (Contains(Lower(s), "low") || id == "27")
                ==> AnalyzeVideoNode(a, id, n) == Ok(a.(lorasLow := a.lorasLow + [e])))
  {
  }

  // ----- Update -----

  /** How `update_video_workflow` recognises the nodes it writes to. */
  datatype Role =
    | LoadImage
    | SaveVideo
    | Titled(title: string)
    | DwSeed

  predicate Plays(role: Role, n: Node)
  {
    match role
    case LoadImage => n.classType == "LoadImage"
    case SaveVideo =>
      (Contains(Upper(n.classType), "IMG2VID") || Contains(Upper(n.classType), "SAVE"))
      && Has(n.inputs, "save_output")
    case Titled(t) => Upper(n.title) == t
    case DwSeed => Upper(n.title) == "DW_SEED" || n.classType == "DW_seed"
  }

  /** The id of the last node playing `role`: later nodes overwrite earlier ones. */
  function Found(g: Graph, role: Role): Option<string>
  {
    match LastIndex(g, (id, n) => Plays(role, n))
    case Some(i) => Some(g[i].0)
    case None => None
  }

  /** A role is found exactly when some node plays it, and then it is found at the last
      such node: for a repeated title only the last node is written. */
  lemma FoundMeaning(g: Graph, role: Role)
    ensures Found(g, role).None? <==> forall i :: 0 <= i < |g| ==> !Plays(role, g[i].1)
    ensures Found(g, role).Some? ==>
              exists i :: && 0 <= i < |g| && g[i].0 == Found(g, role).value && Plays(role, g[i].1)
                          && forall j :: i < j < |g| ==> !Plays(role, g[j].1)
  {
    var p := (id: string, n: Node) => Plays(role, n);
    var last := LastIndex(g, p);
    if last.Some? {
      var i := last.value;
      assert p(g[i].0, g[i].1);
      assert forall j :: i < j < |g| ==> !p(g[j].0, g[j].1);
    } else {
      assert forall j :: 0 <= j < |g| ==> !p(g[j].0, g[j].1);
    }
  }

  /** The seed node: a DW_SEED node first, then a SEED node, and none for an empty id. */
  function SeedTarget(g: Graph): Option<string>
  {
    var dw := Found(g, DwSeed);
    var plain := Found(g, Titled("SEED"));
    if dw.Some? && dw.value != "" then dw
    else if plain.Some? && plain.value != "" then plain
    else None
  }

  /** `wf[id]["inputs"][key] = v` when `target` names a node, else no change. */
  function Write(g: Graph, target: Option<string>, key: string, v: Value): (r: Graph)
    ensures SameShape(g, r)
    ensures forall i, k :: 0 <= i < |g| ==>
              Get(r[i].1.inputs, k) == if target == Some(g[i].0) && k == key then Some(v) else Get(g[i].1.inputs, k)
  {
    if target.None? then g
    else
      seq(|g|, i requires 0 <= i < |g| =>
        if g[i].0 == target.value then (g[i].0, g[i].1.(inputs := Put(g[i].1.inputs, key, v))) else g[i])
  }

  /** The text the black-list node receives, if any: the request's tags while the
      black list is enabled (the default) and the key is present, "" once disabled. */
  function BlacklistText(params: Dict<Value>): (r: Option<Value>)
    ensures var enable := Get(params, "enable_blacklist").GetOr(Bool(true));
            && (Truthy(enable) && Has(params, "black_list_tags") ==> r == Get(params, "black_list_tags"))
            && (!Truthy(enable) ==> r == Some(Str("")))
            && (r.None? <==> Truthy(enable) && !Has(params, "black_list_tags"))
  {
    var enable := Get(params, "enable_blacklist").GetOr(Bool(true));
    if Truthy(enable) && Has(params, "black_list_tags") then Get(params, "black_list_tags")
    else if !Truthy(enable) then Some(Str(""))
    else None
  }

  /** `int(params.get(key, default))`. */
  function NumberParam(params: Dict<Value>, key: string, default: int): (r: Result<int>)
    ensures !Has(params, key) ==> r == Ok(default)
    ensures Get(params, key).Some? && Get(params, key).value.Int? ==> r == Ok(Get(params, key).value.i)
  {
    ToInt(Get(params, key).GetOr(Int(default)))
  }

  /** `str(v) == "-1" or str(v) == ""`: only the string or integer minus one and the
      empty string print that way (a float always prints a point or an exponent). */
  predicate BlankSeed(v: Value)
  {
    v == Str("-1") || v == Int(-1) || v == Str("")
  }

  /** The seed the request asks for: the random value for None, "-1", "" or a string that
      does not parse, else `int(seed)`; a list raises `TypeError`. */
  function UsedSeed(params: Dict<Value>, rnd: int): (r: Result<int>)
    ensures var v := Get(params, "seed").GetOr(Null);
            && (v.Null? || BlankSeed(v) ==> r == Ok(rnd))
            && (v.Int? && v.i != -1 ==> r == Ok(v.i))
            && (v.Str? && !BlankSeed(v) ==> r == Ok(ParseInt(v.s).GetOr(rnd)))
            && (r.Err? <==> IsList(v))
  {
    var v := Get(params, "seed").GetOr(Null);
    if v.Null? || BlankSeed(v) then Ok(rnd)
    else
      match ToInt(v)
      case Ok(i) => Ok(i)
      case Err(e) => if e == ValueError then Ok(rnd) else Err(e)
  }

  /** A write that happens only when there is a value to write. */
  function WriteSome(g: Graph, target: Option<string>, key: string, v: Option<Value>): (r: Graph)
    ensures SameShape(g, r)
  {
    if v.Some? then Write(g, target, key, v.value) else g
  }

  lemma WriteSomeAt(g: Graph, target: Option<string>, key: string, v: Option<Value>, i: nat, k: string)
    requires i < |g|
    ensures WriteSome(g, target, key, v)[i].0 == g[i].0
    ensures Get(WriteSome(g, target, key, v)[i].1.inputs, k)
            == if v.Some? && target == Some(g[i].0) && k == key then v else Get(g[i].1.inputs, k)
  {
  }

  /** Steps 2 to 5: the uploaded image, the user prompt and the two tag lists. */
  function WriteTexts(g: Graph, params: Dict<Value>, uploaded: Value): (r: Graph)
    ensures SameShape(g, r)
  {
    var g1 := WriteSome(g, Found(g, LoadImage), "image", if Truthy(uploaded) then Some(uploaded) else None);
    var g2 := WriteSome(g1, Found(g, Titled("PROMP_USUARIO")), "text", Get(params, "prompt"));
    var g3 := WriteSome(g2, Found(g, Titled("BLACK_LIST_TAGS")), "text", BlacklistText(params));
    var g4 := WriteSome(g3, Found(g, Titled("WHITE_LIST_TAGS")), "text", Get(params, "white_list_tags"));
    SameShapeTrans(g, g1, g2);
    SameShapeTrans(g, g2, g3);
    SameShapeTrans(g, g3, g4);
    g4
  }

  /** `int(params.get(key, default))` for a node found by `title`; the parameter is
      not read when no such node exists. */
  function NumberFor(g: Graph, title: string, params: Dict<Value>, key: string, default: int): Result<int>
  {
    if Found(g, Titled(title)).Some? then NumberParam(params, key, default) else Ok(0)
  }

  /** Steps 6 to 8: resolution, duration and frame rate, into the found nodes' `value`. */
  function WriteNumbers(g: Graph, w: Graph, params: Dict<Value>): (r: Result<Graph>)
    ensures r.Ok? ==> SameShape(w, r.value)
    ensures r.Err? ==> r.fault == ValueError || r.fault == TypeError
  {
    var resolution :- NumberFor(g, "RES_LADO", params, "resolution", 768);
    var w5 := Write(w, Found(g, Titled("RES_LADO")), "value", Int(resolution));
    var duration :- NumberFor(g, "SEGUNDOS", params, "duration", 3);
    var w6 := Write(w5, Found(g, Titled("SEGUNDOS")), "value", Int(duration));
    var fps :- NumberFor(g, "FPS", params, "fps", 24);
    Ok(Write(w6, Found(g, Titled("FPS")), "value", Int(fps)))
  }

  /** `update_video_workflow(workflow, params, uploaded_image_name)`: the adapted copy
      and the seed used. The argument is a value, so it is never changed. */
  function UpdateVideoWorkflow(g: Graph, params: Dict<Value>, uploaded: Value, rnd: int): (r: Result<(Graph, int)>)
    ensures r.Ok? ==> SameShape(g, r.value.0)
    ensures r.Err? ==> r.fault == ValueError || r.fault == TypeError
  {
    var w4 := WriteTexts(g, params, uploaded);
    var w7 :- WriteNumbers(g, w4, params);
    var seed :- UsedSeed(params, rnd);
    var w8 := Write(w7, SeedTarget(g), "seed", Int(seed));
    Ok((Write(w8, Found(g, SaveVideo), "save_output", Bool(true)), seed))
  }

  /** `o` when it holds a value, else `d`. */
  function Overlay(o: Option<Value>, d: Option<Value>): Option<Value>
  {
    if o.Some? then o else d
  }

  /** What steps 2 to 5 write into input `k` of node `id`; a later step wins. */
  function TextWritten(g: Graph, params: Dict<Value>, uploaded: Value, id: string, k: string): Option<Value>
  {
    if k == "text" && Has(params, "white_list_tags") && Found(g, Titled("WHITE_LIST_TAGS")) == Some(id) then
      Get(params, "white_list_tags")
    else if k == "text" && BlacklistText(params).Some? && Found(g, Titled("BLACK_LIST_TAGS")) == Some(id) then
      BlacklistText(params)
    else if k == "text" && Has(params, "prompt") && Found(g, Titled("PROMP_USUARIO")) == Some(id) then
      Get(params, "prompt")
    else if k == "image" && Truthy(uploaded) && Found(g, LoadImage) == Some(id) then
      Some(uploaded)
    else None
  }

  /** What steps 6 to 8 write into input `k` of node `id`. */
  function NumberWritten(g: Graph, params: Dict<Value>, id: string, k: string): Option<Value>
  {
    if k != "value" then None
    else if Found(g, Titled("FPS")) == Some(id) then
      (match NumberFor(g, "FPS", params, "fps", 24) case Ok(n) => Some(Int(n)) case Err(_) => None)
    else if Found(g, Titled("SEGUNDOS")) == Some(id) then
      (match NumberFor(g, "SEGUNDOS", params, "duration", 3) case Ok(n) => Some(Int(n)) case Err(_) => None)
    else if Found(g, Titled("RES_LADO")) == Some(id) then
      (match NumberFor(g, "RES_LADO", params, "resolution", 768) case Ok(n) => Some(Int(n)) case Err(_) => None)
    else None
  }

  /** What the whole update writes into input `k` of node `id`, given the seed used. */
  function Written(g: Graph, params: Dict<Value>, uploaded: Value, seed: int, id: string, k: string): Option<Value>
  {
    if k == "save_output" && Found(g, SaveVideo) == Some(id) then Some(Bool(true))
    else if k == "seed" && SeedTarget(g) == Some(id) then Some(Int(seed))
    else Overlay(NumberWritten(g, params, id, k), TextWritten(g, params, uploaded, id, k))
  }

  lemma WriteTextsAt(g: Graph, params: Dict<Value>, uploaded: Value, i: nat, k: string)
    requires i < |g|
    ensures Get(WriteTexts(g, params, uploaded)[i].1.inputs, k)
            == Overlay(TextWritten(g, params, uploaded, g[i].0, k), Get(g[i].1.inputs, k))
  {
    var image := if Truthy(uploaded) then Some(uploaded) else None;
    var g1 := WriteSome(g, Found(g, LoadImage), "image", image);
    WriteSomeAt(g, Found(g, LoadImage), "image", image, i, k);
    var g2 := WriteSome(g1, Found(g, Titled("PROMP_USUARIO")), "text", Get(params, "prompt"));
    WriteSomeAt(g1, Found(g, Titled("PROMP_USUARIO")), "text", Get(params, "prompt"), i, k);
    var g3 := WriteSome(g2, Found(g, Titled("BLACK_LIST_TAGS")), "text", BlacklistText(params));
    WriteSomeAt(g2, Found(g, Titled("BLACK_LIST_TAGS")), "text", BlacklistText(params), i, k);
    WriteSomeAt(g3, Found(g, Titled("WHITE_LIST_TAGS")), "text", Get(params, "white_list_tags"), i, k);
  }

  lemma WriteTextsEffect(g: Graph, params: Dict<Value>, uploaded: Value)
    ensures forall i, k :: 0 <= i < |g| ==>
              Get(WriteTexts(g, params, uploaded)[i].1.inputs, k)
              == Overlay(TextWritten(g, params, uploaded, g[i].0, k), Get(g[i].1.inputs, k))
  {
    forall i, k | 0 <= i < |g|
      ensures Get(WriteTexts(g, params, uploaded)[i].1.inputs, k)
              == Overlay(TextWritten(g, params, uploaded, g[i].0, k), Get(g[i].1.inputs, k))
    {
      WriteTextsAt(g, params, uploaded, i, k);
    }
  }

  lemma WriteNumbersEffect(g: Graph, w: Graph, params: Dict<Value>)
    requires WriteNumbers(g, w, params).Ok?
    ensures forall i, k :: 0 <= i < |w| ==>
              Get(WriteNumbers(g, w, params).value[i].1.inputs, k)
              == Overlay(NumberWritten(g, params, w[i].0, k), Get(w[i].1.inputs, k))
  {
  }

  lemma UpdateVideoAt(g: Graph, params: Dict<Value>, uploaded: Value, rnd: int, i: nat, k: string)
    requires UpdateVideoWorkflow(g, params, uploaded, rnd).Ok? && i < |g|
    ensures var (out, seed) := UpdateVideoWorkflow(g, params, uploaded, rnd).value;
            Get(out[i].1.inputs, k) == Overlay(Written(g, params, uploaded, seed, g[i].0, k), Get(g[i].1.inputs, k))
  {
    var w4 := WriteTexts(g, params, uploaded);
    var w7 := WriteNumbers(g, w4, params).value;
    var seed := UsedSeed(params, rnd).value;
    var w8 := Write(w7, SeedTarget(g), "seed", Int(seed));
    var out := Write(w8, Found(g, SaveVideo), "save_output", Bool(true));
    assert UpdateVideoWorkflow(g, params, uploaded, rnd).value == (out, seed);
    WriteTextsAt(g, params, uploaded, i, k);
    WriteNumbersEffect(g, w4, params);
    assert w4[i].0 == g[i].0 && w7[i].0 == g[i].0 && w8[i].0 == g[i].0;
    var before := Overlay(NumberWritten(g, params, g[i].0, k), Get(w4[i].1.inputs, k));
    assert Get(w7[i].1.inputs, k) == before;
    assert Get(w8[i].1.inputs, k) == if SeedTarget(g) == Some(g[i].0) && k == "seed" then Some(Int(seed)) else before;
    assert Get(out[i].1.inputs, k) ==
      if Found(g, SaveVideo) == Some(g[i].0) && k == "save_output" then Some(Bool(true)) else Get(w8[i].1.inputs, k);
    OverlayAssoc(NumberWritten(g, params, g[i].0, k), TextWritten(g, params, uploaded, g[i].0, k), Get(g[i].1.inputs, k));
  }

  /** Overlaying in two steps is overlaying the combined writes. */
  lemma OverlayAssoc(a: Option<Value>, b: Option<Value>, c: Option<Value>)
    ensures Overlay(a, Overlay(b, c)) == Overlay(Overlay(a, b), c)
  {
  }

  /** The update changes exactly the listed inputs of the found nodes, each to the value
      its step writes, and the seed written is the seed returned. */
  lemma UpdateVideoEffect(g: Graph, params: Dict<Value>, uploaded: Value, rnd: int)
    requires UpdateVideoWorkflow(g, params, uploaded, rnd).Ok?
    ensures var (out, seed) := UpdateVideoWorkflow(g, params, uploaded, rnd).value;
            forall i, k :: 0 <= i < |g| ==>
              Get(out[i].1.inputs, k) == Overlay(Written(g, params, uploaded, seed, g[i].0, k), Get(g[i].1.inputs, k))
  {
    var (out, seed) := UpdateVideoWorkflow(g, params, uploaded, rnd).value;
    forall i, k | 0 <= i < |g|
      ensures Get(out[i].1.inputs, k) == Overlay(Written(g, params, uploaded, seed, g[i].0, k), Get(g[i].1.inputs, k))
    {
      UpdateVideoAt(g, params, uploaded, rnd, i, k);
    }
  }

  /** The last DW_SEED node (by title or by class) takes the seed whenever its id is
      non-empty, whatever SEED-titled nodes exist. */
  lemma SeedTargetPrefersDw(g: Graph, i: nat)
    requires i < |g| && Plays(DwSeed, g[i].1) && g[i].0 != ""
    requires forall j :: i < j < |g| ==> !Plays(DwSeed, g[j].1)
    ensures SeedTarget(g) == Some(g[i].0)
  {
    FoundMeaning(g, DwSeed);
    var i' :| && 0 <= i' < |g| && g[i'].0 == Found(g, DwSeed).value && Plays(DwSeed, g[i'].1)
              && forall j :: i' < j < |g| ==> !Plays(DwSeed, g[j].1);
    assert i' == i;
  }

  /** Without a DW_SEED node, the last SEED-titled node takes the seed when its id is
      non-empty. */
  lemma SeedTargetFallsBack(g: Graph, i: nat)
    requires forall j :: 0 <= j < |g| ==> !Plays(DwSeed, g[j].1)
    requires i < |g| && Plays(Titled("SEED"), g[i].1) && g[i].0 != ""
    requires forall j :: i < j < |g| ==> !Plays(Titled("SEED"), g[j].1)
    ensures SeedTarget(g) == Some(g[i].0)
  {
    FoundMeaning(g, DwSeed);
    FoundMeaning(g, Titled("SEED"));
    var i' :| && 0 <= i' < |g| && g[i'].0 == Found(g, Titled("SEED")).value && Plays(Titled("SEED"), g[i'].1)
              && forall j :: i' < j < |g| ==> !Plays(Titled("SEED"), g[j].1);
    assert i' == i;
  }

  /** The seed the update returns is the seed written into the seed node. */
  lemma UsedSeedWritten(g: Graph, params: Dict<Value>, uploaded: Value, rnd: int, i: nat)
    requires UpdateVideoWorkflow(g, params, uploaded, rnd).Ok? && i < |g|
    requires SeedTarget(g) == Some(g[i].0)
    ensures var (out, seed) := UpdateVideoWorkflow(g, params, uploaded, rnd).value;
            Get(out[i].1.inputs, "seed") == Some(Int(seed))
  {
    UpdateVideoAt(g, params, uploaded, rnd, i, "seed");
  }
}

=== FILE: views.dfy ===
/** The request rules of the views: which stored images a visitor may fetch, and the
    guards in front of an image generation requested by a visitor. */
module Views {
  import opened Results
  import opened Text
  import opened Graphs
  import opened Models
  import opened ImageClassify
  import opened ImageGeneration

  // ---------------------------------------------------------------------------
  // serve_private_media
  // ---------------------------------------------------------------------------

  /** `path.split('/')` cuts after a first segment that holds no '/'. */
  lemma SplitFront(item: string, rest: string)
    requires '/' !in item
    ensures Split(item + "/" + rest, "/") == [item] + Split(rest, "/")
  {
    NoEarlySepOfFirstChar(item, "/");
    SplitCutsAfterItem(item, "/", rest);
    var s := item + "/" + rest;
    assert s[..|item|] == item;
    assert s[|item| + 1..] == rest;
  }

  /** The owner id a media path names: the second '/'-segment, parsed with `int()`, of a
      path whose first segment is "user_images". `None` is the 404 for every other path. */
  function ParseOwner(path: string): Option<int>
  {
    var parts := Split(path, "/");
    if parts[0] == "user_images" && |parts| > 1 then ParseInt(parts[1]) else None
  }

  lemma NoSlashInNumber(n: int)
    ensures '/' !in IntToString(n)
  {
    var s := IntToString(n);
    if n < 0 {
      assert AllDigits(NatToString(-n));
      assert forall i :: 1 <= i < |s| ==> s[i] == NatToString(-n)[i - 1];
    }
  }

  /** The first two '/'-segments of a path whose first two parts hold no '/'. */
  lemma FirstTwoSegments(head: string, id: string, rest: string)
    requires '/' !in head && '/' !in id
    ensures var parts := Split(head + "/" + (id + "/" + rest), "/");
            |parts| > 1 && parts[0] == head && parts[1] == id
  {
    SplitFront(head, id + "/" + rest);
    SplitFront(id, rest);
  }

  /** The storage name of a user's image is "user_images", the id, and the rest. */
  lemma UserImageShape(uid: int, character: string, filename: string)
    ensures CharacterImagePath(Some(uid), character, filename)
            == "user_images" + "/" + (IntToString(uid) + "/" + (character + "/" + filename))
  {
  }

  /** The storage name of a user's image names that user. */
  lemma UserImageOwner(uid: int, character: string, filename: string)
    ensures ParseOwner(CharacterImagePath(Some(uid), character, filename)) == Some(uid)
  {
    UserImageShape(uid, character, filename);
    assert '/' !in "user_images";
    NoSlashInNumber(uid);
    FirstTwoSegments("user_images", IntToString(uid), character + "/" + filename);
    ParseIntOfIntToString(uid);
  }

  /** The storage name of an image without a user names no owner. */
  lemma LegacyImageOwner(character: string, filename: string)
    ensures ParseOwner(CharacterImagePath(None, character, filename)) == None
  {
    var rest := character + "/" + filename;
    var path := CharacterImagePath(None, character, filename);
    assert path == "character_images" + "/" + rest;
    assert '/' !in "character_images";
    SplitFront("character_images", rest);
    assert Split(path, "/")[0] == "character_images";
    assert "character_images" != "user_images";
  }

  /** The owner read back from the storage name of a user's image is that user; the
      storage name of an image without a user names no owner. */
  lemma OwnerOfStoredImage(user: Option<int>, character: string, filename: string)
    ensures ParseOwner(CharacterImagePath(user, character, filename)) == user
  {
    match user
    case Some(uid) => UserImageOwner(uid, character, filename);
    case None => LegacyImageOwner(character, filename);
  }

  /** The requesting visitor. */
  datatype Visitor = Anonymous | Member(id: int, staff: bool)

  /** The access decision for an image of `owner`; `users` maps each existing user's id
      to its staff flag. */
  function HasAccess(visitor: Visitor, owner: int, users: map<int, bool>): (r: bool)
    ensures r <==> (visitor.Member? && (visitor.id == owner || visitor.staff))
                   || (owner in users && users[owner])
  {
    var byVisitor := visitor.Member? && (visitor.id == owner || visitor.staff);
    if byVisitor then true
    else if owner in users then users[owner]
    else false
  }

  datatype Response = File(path: string) | NotFound

  /** `serve_private_media(request, path)`. `inMedia` is the outcome of the check that
      the absolute path stays under the media root; `files` are the stored files. */
  function ServePrivateMedia(path: string, inMedia: bool, visitor: Visitor, users: map<int, bool>,
                             files: set<string>): (r: Response)
    ensures r.File? ==> r.path == path && path in files && inMedia
    ensures r.File? <==> inMedia && ParseOwner(path).Some?
                         && HasAccess(visitor, ParseOwner(path).value, users) && path in files
  {
    if !inMedia then NotFound
    else
      match ParseOwner(path)
      case None => NotFound
      case Some(owner) =>
        if !HasAccess(visitor, owner, users) then NotFound
        else if path in files then File(path)
        else NotFound
  }

  /** A member always gets their own stored images. */
  lemma OwnImageServed(uid: int, staff: bool, character: string, filename: string,
                       users: map<int, bool>, files: set<string>)
    requires CharacterImagePath(Some(uid), character, filename) in files
    ensures ServePrivateMedia(CharacterImagePath(Some(uid), character, filename), true,
                              Member(uid, staff), users, files)
            == File(CharacterImagePath(Some(uid), character, filename))
  {
    OwnerOfStoredImage(Some(uid), character, filename);
  }

  /** Images of staff users are public: every visitor, anonymous ones included, gets
      them. */
  lemma StaffImagesPublic(uid: int, character: string, filename: string, visitor: Visitor,
                          users: map<int, bool>, files: set<string>)
    requires uid in users && users[uid]
    requires CharacterImagePath(Some(uid), character, filename) in files
    ensures ServePrivateMedia(CharacterImagePath(Some(uid), character, filename), true,
                              visitor, users, files).File?
  {
    OwnerOfStoredImage(Some(uid), character, filename);
  }

  /** A customer's image stays hidden from anonymous visitors and from other customers. */
  lemma CustomerImagesPrivate(uid: int, character: string, filename: string, visitor: Visitor,
                              users: map<int, bool>, files: set<string>)
    requires uid in users && !users[uid]
    requires visitor.Anonymous? || (visitor.id != uid && !visitor.staff)
    ensures ServePrivateMedia(CharacterImagePath(Some(uid), character, filename), true,
                              visitor, users, files) == NotFound
  {
    OwnerOfStoredImage(Some(uid), character, filename);
  }

  /** Images stored without a user are never served by this view. */
  lemma UnownedImagesNotServed(character: string, filename: string, inMedia: bool,
                               visitor: Visitor, users: map<int, bool>, files: set<string>)
    ensures ServePrivateMedia(CharacterImagePath(None, character, filename), inMedia,
                              visitor, users, files) == NotFound
  {
    OwnerOfStoredImage(None, character, filename);
  }

  // ---------------------------------------------------------------------------
  // generate_image_view: the guards of an AJAX POST
  // ---------------------------------------------------------------------------

  /** The longest prompt a visitor may send. */
  const MaxPrompt := 500

  /** The seconds between two accepted generations of one session. */
  const Cooldown: real := 10.0

  /** The outcome of the guards: 401, 400, 429 with the seconds to wait, or on to the
      generation. */
  datatype Guard = Unauthorized | TooLong | TooSoon(wait: int) | Accepted

  function StatusCode(g: Guard): int
    requires !g.Accepted?
  {
    match g
    case Unauthorized => 401
    case TooLong => 400
    case TooSoon(_) => 429
  }

  /** The guard's answer and the session's `last_generation_time` afterwards. */
  datatype Gate = Gate(guard: Guard, session: Option<real>)

  /** The session holds a truthy time less than the cooldown before `now`. */
  predicate Recent(last: Option<real>, now: real)
  {
    last.Some? && last.value != 0.0 && now - last.value < Cooldown
  }

  /** The guards of `generate_image_view` for an AJAX POST. `prompt` is `None` when the
      form has no prompt, on which `len()` raises. */
  function GenerateGuard(authenticated: bool, prompt: Option<string>, last: Option<real>, now: real): (r: Result<Gate>)
    ensures !authenticated ==> r == Ok(Gate(Unauthorized, last))
    ensures r.Err? <==> authenticated && prompt.None?
    ensures r.Err? ==> r.fault == TypeError
    ensures (r.Ok? && r.value.guard.TooLong?) <==> authenticated && prompt.Some? && |prompt.value| > MaxPrompt
    ensures (r.Ok? && r.value.guard.TooSoon?)
            <==> authenticated && prompt.Some? && |prompt.value| <= MaxPrompt && Recent(last, now)
    ensures r.Ok? && r.value.guard.Accepted? ==> r.value.session == Some(now)
    ensures r.Ok? && !r.value.guard.Accepted? ==> r.value.session == last
  {
    if !authenticated then Ok(Gate(Unauthorized, last))
    else if prompt.None? then Err(TypeError)
    else if |prompt.value| > MaxPrompt then Ok(Gate(TooLong, last))
    else if last.Some? && last.value != 0.0 && now - last.value < Cooldown then
      Ok(Gate(TooSoon(Truncate(Cooldown - (now - last.value))), last))
    else Ok(Gate(Accepted, Some(now)))
  }

  /** The wait reported with a 429 lies between 0 and the cooldown when the clock has not
      gone back. */
  lemma WaitWithinCooldown(prompt: string, last: real, now: real)
    requires |prompt| <= MaxPrompt && last != 0.0 && last <= now < last + Cooldown
    ensures GenerateGuard(true, Some(prompt), Some(last), now).Ok?
    ensures GenerateGuard(true, Some(prompt), Some(last), now).value.guard.TooSoon?
    ensures 0 <= GenerateGuard(true, Some(prompt), Some(last), now).value.guard.wait <= 10
  {
    var x := Cooldown - (now - last);
    assert 0.0 < x <= 10.0;
    assert x.Floor <= 10;
  }

  /** Two accepted generations of one session, the second reading the time the first
      recorded, are at least the cooldown apart. */
  lemma AcceptedAreSpaced(p1: string, p2: string, last: Option<real>, t1: real, t2: real)
    requires t1 != 0.0
    requires GenerateGuard(true, Some(p1), last, t1) == Ok(Gate(Accepted, Some(t1)))
    requires GenerateGuard(true, Some(p2), Some(t1), t2).Ok?
    requires GenerateGuard(true, Some(p2), Some(t1), t2).value.guard.Accepted?
    ensures t2 - t1 >= Cooldown
  {
  }

  // ---------------------------------------------------------------------------
  // generate_image_view: after the guards
  // ---------------------------------------------------------------------------

  /** What `generate_image_from_character` returns: the saved images with their
      classification, the prompt id and the updated workflow. */
  datatype Generated = Generated(images: seq<(Bytes, Kind)>, promptId: string, workflow: Graph)

  /** The number of values in a `Generated` tuple. */
  const GeneratedArity := 3

  /** Python's `a, b = t` on a tuple of `n` values. */
  function UnpackTwo(n: nat): (r: Result<()>)
    ensures r.Ok? <==> n == 2
  {
    if n == 2 then Ok(()) else Err(ValueError)
  }

  /** The view's answer: the stored image, no image (500), an unknown character (404),
      or an exception caught by the view (500). */
  datatype Reply = Stored(path: string, content: Bytes) | NoImage | NoCharacter | Failed(fault: Fault)

  /** Storing the first generated image under the member's folder. `stored` is the file
      name the storage picks for `user_gen_<character>_<prompt id>.png`. */
  function StoreFirst(uid: int, character: string, out: Generated, stored: string): (r: Reply)
  {
    if |out.images| > 0 then Stored(CharacterImagePath(Some(uid), character, stored), out.images[0].0)
    else NoImage
  }

  /** The generation step as written: `image_bytes, prompt_id = ...` unpacks the three
      returned values into two names. `character` is `None` for an unknown id. */
  function GenerateReplyAsWritten(uid: int, character: Option<string>, out: Generated, stored: string): (r: Reply)
    ensures character.None? ==> r == NoCharacter
  {
    match character
    case None => NoCharacter
    case Some(name) =>
      match UnpackTwo(GeneratedArity)
      case Err(f) => Failed(f)
      case Ok(_) => StoreFirst(uid, name, out, stored)
  }

  /** As written, no accepted request ever stores an image: the unpacking raises and the
      view answers 500, whatever the generation produced. */
  lemma AsWrittenNeverStores(uid: int, name: string, out: Generated, stored: string)
    ensures GenerateReplyAsWritten(uid, Some(name), out, stored) == Failed(ValueError)
  {
    assert UnpackTwo(GeneratedArity) == Err(ValueError);
  }

  /** The generation step as intended: the three values are unpacked and the first image
      is stored for the member. */
  function GenerateReply(uid: int, character: Option<string>, out: Generated, stored: string): (r: Reply)
    ensures r.Stored? <==> character.Some? && |out.images| > 0
    ensures r.Stored? ==> r.content == out.images[0].0
  {
    match character
    case None => NoCharacter
    case Some(name) => StoreFirst(uid, name, out, stored)
  }

  /** An image stored by the intended generation step is served back to the member who
      asked for it. */
  lemma StoredImageServedToMember(uid: int, staff: bool, name: string, out: Generated, stored: string,
                                  users: map<int, bool>, files: set<string>)
    requires GenerateReply(uid, Some(name), out, stored).Stored?
    requires GenerateReply(uid, Some(name), out, stored).path in files
    ensures ServePrivateMedia(GenerateReply(uid, Some(name), out, stored).path, true,
                              Member(uid, staff), users, files).File?
  {
    OwnImageServed(uid, staff, name, stored, users, files);
  }
}

=== FILE: workflow_analysis.dfy ===
/** Reading an image workflow: which outputs it can produce and which parameters
    (checkpoint, LoRAs, resolution, sampler settings) it carries. */
module WorkflowAnalysis {
  import opened Results
  import opened Text
  import opened Graphs

  datatype Capabilities = Capabilities(canUpscale: bool, canFacedetail: bool)

  /** A node whose class or title announces an upscaling stage. */
  predicate UpscaleNode(n: Node)
  {
    var c, t := Lower(n.classType), Lower(n.title);
    Contains(c, "upscale") || Contains(t, "upscale") || Contains(t, "hires")
  }

  const FaceKeywords: seq<string> := ["face", "detailer", "segs", "segmentation", "bbox", "impact"]

  /** A node whose class or title carries one of the face-detailing keywords. */
  predicate FaceNode(n: Node)
  {
    var c, t := Lower(n.classType), Lower(n.title);
    exists k | k in FaceKeywords :: Contains(c, k) || Contains(t, k)
  }

  function ScanCapabilities(g: Graph): (r: Capabilities)
    ensures r.canUpscale <==> exists i :: 0 <= i < |g| && UpscaleNode(g[i].1)
    ensures r.canFacedetail <==> exists i :: 0 <= i < |g| && FaceNode(g[i].1)
  {
    if |g| == 0 then Capabilities(false, false)
    else
      var rest := ScanCapabilities(g[1..]);
      assert forall i :: 1 <= i < |g| ==> g[i] == g[1..][i - 1];
      Capabilities(rest.canUpscale || UpscaleNode(g[0].1), rest.canFacedetail || FaceNode(g[0].1))
  }

  /** `analyze_workflow_outputs`: a capability is reported iff some node announces it. */
  function AnalyzeWorkflowOutputs(doc: Document): (r: Capabilities)
    ensures doc.NotAnObject? ==> r == Capabilities(false, false)
    ensures doc.Object? ==>
      (r.canUpscale <==> exists i :: 0 <= i < |doc.graph| && UpscaleNode(doc.graph[i].1))
    ensures doc.Object? ==>
      (r.canFacedetail <==> exists i :: 0 <= i < |doc.graph| && FaceNode(doc.graph[i].1))
  {
    match doc
    case NotAnObject => Capabilities(false, false)
    case Object(g) => ScanCapabilities(g)
  }

  datatype LoraEntry = LoraEntry(name: Value, strength: Value)

  /** The parameters `analyze_workflow` extracts; `Null` is Python's `None`. */
  datatype Analysis = Analysis(
    checkpoint: Value, vae: Value, loras: seq<LoraEntry>, width: Value, height: Value,
    seed: Value, steps: Value, cfg: Value, samplerName: Value, scheduler: Value, upscaleBy: Value)

  const Initial := Analysis(Null, Null, [], Null, Null, Null, Null, Null, Null, Null, Null)

  /** A LoRA name the first pass keeps: a non-empty string other than "none" in any case. */
  predicate KeptLoraName(v: Value)
  {
    v.Str? && v.s != "" && Lower(v.s) != "none"
  }

  /** Slot `s` holds a truthy non-string name, on which `.lower()` raises. */
  predicate BadLoraSlot(n: Node, s: nat)
    requires 1 <= s <= 6
  {
    Truthy(Input(n, LoraNameKey(s))) && !Input(n, LoraNameKey(s)).Str?
  }

  predicate BadLoraNode(n: Node)
  {
    n.classType == LoraStack && exists s | 1 <= s <= 6 :: BadLoraSlot(n, s)
  }

  /** The LoRAs of slots `i..6` of a LoRA stack node. */
  function StackLoras(n: Node, i: nat): (r: Result<seq<LoraEntry>>)
    requires 1 <= i <= 7
    ensures r.Ok? ==> |r.value| <= 7 - i
    ensures r.Ok? ==> forall e :: e in r.value ==> KeptLoraName(e.name)
    ensures r.Err? <==> exists s | i <= s <= 6 :: BadLoraSlot(n, s)
    decreases 7 - i
  {
    if i == 7 then Ok([])
    else
      var name := Input(n, LoraNameKey(i));
      if !Truthy(name) then StackLoras(n, i + 1)
      else if !name.Str? then
        assert BadLoraSlot(n, i);
        Err(AttributeError)
      else
        var rest :- StackLoras(n, i + 1);
        if Lower(name.s) != "none" then Ok([LoraEntry(name, Input(n, LoraStrengthKey(i)))] + rest)
        else Ok(rest)
  }

  /** One node of the first pass: known classes and titles set their field, the last
      such node winning; `EmptyLatentImage` only fills a size still unset. */
  function FirstPassNode(a: Analysis, n: Node): (r: Result<Analysis>)
    ensures r.Err? <==> BadLoraNode(n)
    ensures r.Ok? && n.classType == "EmptyLatentImage" && a.width != Null ==> r.value.width == a.width
    ensures r.Ok? && n.classType == "EmptyLatentImage" && a.height != Null ==> r.value.height == a.height
  {
    var c, t := n.classType, Upper(n.title);
    if c == "CheckpointLoaderSimple" then Ok(a.(checkpoint := Input(n, "ckpt_name")))
    else if c == "VAELoader" then Ok(a.(vae := Input(n, "vae_name")))
    else if c == LoraStack then
      var more :- StackLoras(n, 1);
      Ok(a.(loras := a.loras + more))
    else if c == "DW_resolution" then Ok(a.(width := Input(n, "WIDTH"), height := Input(n, "HEIGHT")))
    else if c == "DW_seed" then Ok(a.(seed := Input(n, "seed")))
    else if t == "STEPS" then Ok(a.(steps := Input(n, "value")))
    else if t == "CFG" then Ok(a.(cfg := Input(n, "value")))
    else if t == "UPSCALER BY" then Ok(a.(upscaleBy := Input(n, "value")))
    else if c == "DW_SamplerSelector" then Ok(a.(samplerName := Input(n, "sampler_name")))
    else if c == "DW_SchedulerSelector" then Ok(a.(scheduler := Input(n, "scheduler")))
    else if c == "EmptyLatentImage" then
      Ok(a.(width := if a.width == Null then Input(n, "width") else a.width,
            height := if a.height == Null then Input(n, "height") else a.height))
    else Ok(a)
  }

  function CountClass(g: Graph, c: string): nat
  {
    if |g| == 0 then 0
    else CountClass(g[..|g| - 1], c) + (if g[|g| - 1].1.classType == c then 1 else 0)
  }

  /** The first pass over the nodes in file order. */
  function FirstPass(g: Graph): (r: Result<Analysis>)
    ensures r.Err? <==> exists i :: 0 <= i < |g| && BadLoraNode(g[i].1)
    ensures r.Ok? ==> |r.value.loras| <= 6 * CountClass(g, LoraStack)
    ensures r.Ok? ==> forall e :: e in r.value.loras ==> KeptLoraName(e.name)
  {
    if |g| == 0 then Ok(Initial)
    else
      var prefix := g[..|g| - 1];
      assert forall i :: 0 <= i < |g| - 1 ==> g[i] == prefix[i];
      match FirstPass(prefix)
      case Err(f) => Err(f)
      case Ok(a) => FirstPassNode(a, g[|g| - 1].1)
  }

  predicate IsNumber(v: Value)
  {
    v.Int? || v.Num? || v.Bool?   // isinstance(v, (int, float)); bool is an int subclass
  }

  predicate IsInteger(v: Value)
  {
    v.Int? || v.Bool?             // isinstance(v, int)
  }

  predicate IsString(v: Value)
  {
    v.Str?
  }

  /** One node of the second pass: fill each still-unset field from a same-named input
      of the right type. */
  function SecondPassNode(a: Analysis, n: Node): Analysis
  {
    var seed, steps, cfg := Input(n, "seed"), Input(n, "steps"), Input(n, "cfg");
    var sampler, scheduler := Input(n, "sampler_name"), Input(n, "scheduler");
    a.(seed := if a.seed == Null && IsNumber(seed) then seed else a.seed,
       steps := if a.steps == Null && IsInteger(steps) then steps else a.steps,
       cfg := if a.cfg == Null && IsNumber(cfg) then cfg else a.cfg,
       samplerName := if a.samplerName == Null && IsString(sampler) then sampler else a.samplerName,
       scheduler := if a.scheduler == Null && IsString(scheduler) then scheduler else a.scheduler)
  }

  function SecondPass(a: Analysis, g: Graph): Analysis
    decreases |g|
  {
    if |g| == 0 then a else SecondPass(SecondPassNode(a, g[0].1), g[1..])
  }

  /** The first input `key` of type `ok` among the nodes, or `Null` when there is none. */
  function FirstOfType(g: Graph, key: string, ok: Value -> bool): (r: Value)
    ensures r == Null <==> forall i :: 0 <= i < |g| ==> !ok(Input(g[i].1, key))
    ensures r != Null ==> exists i :: 0 <= i < |g| && r == Input(g[i].1, key) && ok(r)
                                      && forall j :: 0 <= j < i ==> !ok(Input(g[j].1, key))
    requires !ok(Null)
  {
    if |g| == 0 then Null
    else if ok(Input(g[0].1, key)) then Input(g[0].1, key)
    else
      var r := FirstOfType(g[1..], key, ok);
      assert forall i :: 1 <= i < |g| ==> g[i] == g[1..][i - 1];
      if r != Null then
        var i :| 0 <= i < |g[1..]| && r == Input(g[1..][i].1, key) && ok(r)
                 && forall j :: 0 <= j < i ==> !ok(Input(g[1..][j].1, key));
        assert r == Input(g[i + 1].1, key);
        r
      else r
  }

  /** The second pass fills exactly the fields still unset, each with the first input
      of the right type in file order, and touches nothing else. */
  lemma {:induction false} SecondPassFillsUnset(a: Analysis, g: Graph)
    ensures var r := SecondPass(a, g);
      && r.seed == (if a.seed == Null then FirstOfType(g, "seed", IsNumber) else a.seed)
      && r.steps == (if a.steps == Null then FirstOfType(g, "steps", IsInteger) else a.steps)
      && r.cfg == (if a.cfg == Null then FirstOfType(g, "cfg", IsNumber) else a.cfg)
      && r.samplerName == (if a.samplerName == Null then FirstOfType(g, "sampler_name", IsString) else a.samplerName)
      && r.scheduler == (if a.scheduler == Null then FirstOfType(g, "scheduler", IsString) else a.scheduler)
      && r.checkpoint == a.checkpoint && r.vae == a.vae && r.loras == a.loras
      && r.width == a.width && r.height == a.height && r.upscaleBy == a.upscaleBy
    decreases |g|
  {
    if |g| > 0 {
      SecondPassFillsUnset(SecondPassNode(a, g[0].1), g[1..]);
    }
  }

  /** `analyze_workflow`. */
  function AnalyzeWorkflow(doc: Document): (r: Result<Analysis>)
    ensures doc.NotAnObject? ==> r == Ok(Initial)
    ensures doc.Object? ==> (r.Err? <==> exists i :: 0 <= i < |doc.graph| && BadLoraNode(doc.graph[i].1))
    ensures r.Ok? && doc.Object? ==> |r.value.loras| <= 6 * CountClass(doc.graph, LoraStack)
    ensures r.Ok? ==> forall e :: e in r.value.loras ==> KeptLoraName(e.name)
  {
    match doc
    case NotAnObject => Ok(Initial)
    case Object(g) =>
      var a :- FirstPass(g);
      SecondPassFillsUnset(a, g);
      Ok(SecondPass(a, g))
  }

  predicate IsCheckpointLoader(id: string, n: Node)
  {
    n.classType == "CheckpointLoaderSimple"
  }

  /** The checkpoint is the `ckpt_name` of the last `CheckpointLoaderSimple` node. */
  lemma {:induction false} CheckpointFromLastLoader(g: Graph)
    requires FirstPass(g).Ok?
    ensures FirstPass(g).value.checkpoint ==
      match LastIndex(g, IsCheckpointLoader)
      case None => Null
      case Some(i) => Input(g[i].1, "ckpt_name")
  {
    if |g| > 0 {
      var prefix := g[..|g| - 1];
      assert forall i :: 0 <= i < |g| - 1 ==> g[i] == prefix[i];
      CheckpointFromLastLoader(prefix);
      FirstPassNodeCheckpoint(FirstPass(prefix).value, g[|g| - 1].1);
    }
  }

  /** A checkpoint loader sets the checkpoint; no other node changes it. */
  lemma FirstPassNodeCheckpoint(a: Analysis, n: Node)
    requires FirstPassNode(a, n).Ok?
    ensures FirstPassNode(a, n).value.checkpoint ==
      if n.classType == "CheckpointLoaderSimple" then Input(n, "ckpt_name") else a.checkpoint
  {
  }
}

=== FILE: workflow_update.dfy ===
/** `update_workflow`: writes a request's prompts, LoRAs, model, resolution and seed
    into an image workflow, node by node, after the role detection and the scan for
    the samplers' linked parameter sources. An uncaught `int()`, `float()`, `[0]` or
    missing-key error makes the whole update an `Err`. */
module WorkflowUpdate {
  import opened Results
  import opened Text
  import opened Graphs
  import opened PromptRoles

  /** The values the caller supplies: `new_values` and the two LoRA lists
      (`None` and `[]` both read as the empty list). */
  datatype Request = Request(values: Dict<Value>, loraNames: seq<Value>, loraStrengths: seq<Value>)

  /** `new_values[k]` for a key known to be present. */
  function Param(req: Request, k: string): Value
    requires Has(req.values, k)
  {
    Get(req.values, k).value
  }

  /** The prompt-carrying input keys. */
  const PromptKeys: seq<string> := ["text", "text_g", "text_l", "prompt", "text_positive", "positive_prompt", "value"]

  predicate IsPromptKey(k: string)
  {
    k in PromptKeys
  }

  // ---------------------------------------------------------------------------
  // Parameter sources

  /** The samplers' links for steps, cfg and seed; the node a link points to is a
      parameter source. */
  datatype Sources = Sources(steps: Option<string>, cfg: Option<string>, seed: Option<string>)

  /** A sampler whose `key` input is a reference. */
  predicate LinksAt(n: Node, key: string)
  {
    IsSamplerClass(n.classType) && Input(n, key).Ref?
  }

  /** A sampler whose `key` input is the empty list: `inputs[key][0]` raises. */
  predicate EmptyLinkAt(n: Node, key: string)
  {
    IsSamplerClass(n.classType) && Input(n, key).EmptyList?
  }

  /** The scan over the samplers in file order: each reference overwrites the source
      found so far, an empty list raises `IndexError`. */
  function ScanLinks(g: Graph, key: string, acc: Option<string>): (r: Result<Option<string>>)
    ensures r.Err? <==> exists i :: 0 <= i < |g| && EmptyLinkAt(g[i].1, key)
    ensures r.Err? ==> r.fault == IndexError
  {
    if |g| == 0 then Ok(acc)
    else
      assert forall j :: 0 <= j < |g| - 1 ==> g[1..][j] == g[j + 1];
      var n := g[0].1;
      if EmptyLinkAt(n, key) then Err(IndexError)
      else ScanLinks(g[1..], key, if LinksAt(n, key) then Some(Input(n, key).id) else acc)
  }

  /** A successful scan keeps the starting value when no sampler links `key`, and
      otherwise ends on the link of the last sampler that does. */
  lemma {:induction false} ScanLinksLast(g: Graph, key: string, acc: Option<string>)
    requires ScanLinks(g, key, acc).Ok?
    ensures (forall i :: 0 <= i < |g| ==> !LinksAt(g[i].1, key)) ==> ScanLinks(g, key, acc).value == acc
    ensures (exists i :: 0 <= i < |g| && LinksAt(g[i].1, key)) ==>
      exists i :: 0 <= i < |g| && LinksAt(g[i].1, key) && ScanLinks(g, key, acc).value == Some(Input(g[i].1, key).id)
        && forall j :: i < j < |g| ==> !LinksAt(g[j].1, key)
  {
    if |g| > 0 {
      var n, tail := g[0].1, g[1..];
      assert forall j :: 0 <= j < |tail| ==> tail[j] == g[j + 1];
      var acc1 := if LinksAt(n, key) then Some(Input(n, key).id) else acc;
      assert ScanLinks(g, key, acc) == ScanLinks(tail, key, acc1);
      ScanLinksLast(tail, key, acc1);
      if exists i :: 0 <= i < |tail| && LinksAt(tail[i].1, key) {
        var i :| 0 <= i < |tail| && LinksAt(tail[i].1, key) && ScanLinks(tail, key, acc1).value == Some(Input(tail[i].1, key).id)
          && forall j :: i < j < |tail| ==> !LinksAt(tail[j].1, key);
        assert LinksAt(g[i + 1].1, key) && forall j :: i + 1 < j < |g| ==> !LinksAt(g[j].1, key);
      } else if LinksAt(n, key) {
        assert forall j :: 0 < j < |g| ==> !LinksAt(g[j].1, key);
      }
    }
  }

  /** Some sampler's `key` input is the empty list. */
  predicate HasEmptyLink(g: Graph, key: string)
  {
    exists i :: 0 <= i < |g| && EmptyLinkAt(g[i].1, key)
  }

  /** The steps, cfg and seed sources of `update_workflow`: the last sampler holding a
      reference wins. */
  function ScanSources(g: Graph): (r: Result<Sources>)
    ensures r.Err? <==> HasEmptyLink(g, "steps") || HasEmptyLink(g, "cfg") || HasEmptyLink(g, "seed")
    ensures r.Err? ==> r.fault == IndexError
    ensures r.Ok? ==> (r.value.seed.None? <==> forall i :: 0 <= i < |g| ==> !LinksAt(g[i].1, "seed"))
  {
    var steps, cfg, seed := ScanLinks(g, "steps", None), ScanLinks(g, "cfg", None), ScanLinks(g, "seed", None);
    if steps.Err? then Err(steps.fault)
    else if cfg.Err? then Err(cfg.fault)
    else if seed.Err? then Err(seed.fault)
    else
      ScanLinksLast(g, "seed", None);
      Ok(Sources(steps.value, cfg.value, seed.value))
  }

  // ---------------------------------------------------------------------------
  // Per-node steps

  /** Writes `v` under every key of `keys` the inputs already hold; adds no key.
      (The loop over the keys with `if k in inputs: inputs[k] = v`, written as one
      pass over the inputs.) */
  function SetPresent(ins: Dict<Value>, keys: seq<string>, v: Value): (r: Dict<Value>)
    ensures |r| == |ins| && forall i :: 0 <= i < |r| ==> r[i].0 == ins[i].0
    ensures forall k :: Has(r, k) <==> Has(ins, k)
    ensures forall k :: k in keys && Has(ins, k) ==> Get(r, k) == Some(v)
    ensures forall k :: k !in keys ==> Get(r, k) == Get(ins, k)
  {
    if |ins| == 0 then []
    else
      var rest := SetPresent(ins[1..], keys, v);
      var r := [(ins[0].0, if ins[0].0 in keys then v else ins[0].1)] + rest;
      assert r[1..] == rest;
      assert forall k :: Has(r, k) <==> Has(ins, k) by {
        forall k ensures Has(r, k) <==> Has(ins, k) {
          SameKeysHas(r, ins, k);
        }
      }
      r
  }

  /** The prompt writes of one node: the positive prompt, then the negative one. */
  function InjectPrompts(id: string, ins: Dict<Value>, roles: Roles, req: Request): (r: Dict<Value>)
    ensures forall k :: Has(r, k) <==> Has(ins, k)
    ensures forall k :: !IsPromptKey(k) ==> Get(r, k) == Get(ins, k)
    ensures forall k :: IsPromptKey(k) && Has(ins, k) ==>
      Get(r, k) == (if id in roles.neg && Has(req.values, "negative_prompt") then Get(req.values, "negative_prompt")
                    else if id in roles.pos && Has(req.values, "prompt") then Get(req.values, "prompt")
                    else Get(ins, k))
  {
    var ins1 := if id in roles.pos && Has(req.values, "prompt") then SetPresent(ins, PromptKeys, Param(req, "prompt")) else ins;
    if id in roles.neg && Has(req.values, "negative_prompt") then SetPresent(ins1, PromptKeys, Param(req, "negative_prompt")) else ins1
  }

  /** One of the twelve LoRA slot keys. */
  predicate IsLoraKey(k: string)
  {
    exists s :: 1 <= s <= 6 && (k == LoraNameKey(s) || k == LoraStrengthKey(s))
  }

  /** Every LoRA slot key starts with 'l'. */
  lemma NotLoraKey(k: string)
    requires |k| == 0 || k[0] != 'l'
    ensures !IsLoraKey(k)
  {
    forall s | 1 <= s <= 6 ensures k != LoraNameKey(s) && k != LoraStrengthKey(s) {
      assert LoraNameKey(s)[0] == 'l' && LoraStrengthKey(s)[0] == 'l';
    }
  }

  /** Slots `from`..6 reset to name "None" and strength 1.0. */
  function ResetLoras(ins: Dict<Value>, from: nat): (r: Dict<Value>)
    requires 1 <= from <= 7
    ensures forall k :: !IsLoraKey(k) ==> Get(r, k) == Get(ins, k)
    decreases 7 - from
  {
    if from == 7 then ins
    else ResetLoras(Put(Put(ins, LoraNameKey(from), Str("None")), LoraStrengthKey(from), Num(1.0)), from + 1)
  }

  /** After the reset, slots before `from` are as they were and the rest are reset. */
  lemma {:induction false} ResetSlot(ins: Dict<Value>, from: nat, s: nat)
    requires 1 <= from <= 7 && 1 <= s <= 6
    ensures Get(ResetLoras(ins, from), LoraNameKey(s)) == if s < from then Get(ins, LoraNameKey(s)) else Some(Str("None"))
    ensures Get(ResetLoras(ins, from), LoraStrengthKey(s)) == if s < from then Get(ins, LoraStrengthKey(s)) else Some(Num(1.0))
    decreases 7 - from
  {
    if from < 7 {
      var next := Put(Put(ins, LoraNameKey(from), Str("None")), LoraStrengthKey(from), Num(1.0));
      LoraKeysDistinct(s, from);
      LoraKeysDistinct(from, s);
      ResetSlot(next, from + 1, s);
    }
  }

  /** The number of LoRA slots the request fills: `lora_names[:6]`. */
  function Filled(req: Request): nat
  {
    if |req.loraNames| < 6 then |req.loraNames| else 6
  }

  /** `float()` succeeds on every strength that pairs with a filled slot from `i` on. */
  predicate StrengthsParse(req: Request, i: nat)
  {
    forall j :: i <= j < Filled(req) && j < |req.loraStrengths| ==> ToFloat(req.loraStrengths[j]).Ok?
  }

  /** `float()` succeeds on the strength paired with slot `i+1`, if there is one. */
  predicate SlotParses(req: Request, i: nat)
  {
    i < |req.loraStrengths| ==> ToFloat(req.loraStrengths[i]).Ok?
  }

  /** The strengths parse from `i` on iff slot `i+1`'s does and those after it do. */
  lemma StrengthsParseStep(req: Request, i: nat)
    requires i < Filled(req)
    ensures StrengthsParse(req, i) <==> SlotParses(req, i) && StrengthsParse(req, i + 1)
  {
  }

  /** Both keys of slot `s` are LoRA slot keys. */
  lemma SlotKeysAreLoraKeys(s: nat)
    requires 1 <= s <= 6
    ensures IsLoraKey(LoraNameKey(s)) && IsLoraKey(LoraStrengthKey(s))
  {
  }

  /** The writes of slot `i+1`: the name, then the parsed strength when one is supplied. */
  function FillStep(ins: Dict<Value>, req: Request, i: nat): (r: Dict<Value>)
    requires i < Filled(req) && SlotParses(req, i)
    ensures forall k :: !IsLoraKey(k) ==> Get(r, k) == Get(ins, k)
  {
    SlotKeysAreLoraKeys(i + 1);
    var ins1 := Put(ins, LoraNameKey(i + 1), req.loraNames[i]);
    if i < |req.loraStrengths| then Put(ins1, LoraStrengthKey(i + 1), ToFloat(req.loraStrengths[i]).value) else ins1
  }

  /** Fills slots `i+1`.. from the request: the name always, the strength when one is
      supplied for that position; fails on the first strength `float()` rejects. */
  function ApplyLoras(ins: Dict<Value>, req: Request, i: nat): (r: Result<Dict<Value>>)
    requires i <= 6
    ensures r.Ok? <==> StrengthsParse(req, i)
    ensures r.Ok? ==> forall k :: !IsLoraKey(k) ==> Get(r.value, k) == Get(ins, k)
    decreases 6 - i
  {
    if i >= Filled(req) then Ok(ins)
    else
      StrengthsParseStep(req, i);
      if !SlotParses(req, i) then Err(ToFloat(req.loraStrengths[i]).fault)
    else ApplyLoras(FillStep(ins, req, i), req, i + 1)
  }

  /** The name of slot `j+1` after the writes of slot `i+1`. */
  lemma FillStepName(ins: Dict<Value>, req: Request, i: nat, j: nat)
    requires i < Filled(req) && SlotParses(req, i) && j < 6
    ensures Get(FillStep(ins, req, i), LoraNameKey(j + 1)) ==
      if j == i then Some(req.loraNames[i]) else Get(ins, LoraNameKey(j + 1))
  {
    LoraKeysDistinct(j + 1, i + 1);
    var ins1 := Put(ins, LoraNameKey(i + 1), req.loraNames[i]);
    assert Get(ins1, LoraNameKey(j + 1)) == if j == i then Some(req.loraNames[i]) else Get(ins, LoraNameKey(j + 1));
  }

  /** The strength of slot `j+1` after the writes of slot `i+1`. */
  lemma FillStepStrength(ins: Dict<Value>, req: Request, i: nat, j: nat)
    requires i < Filled(req) && SlotParses(req, i) && j < 6
    ensures Get(FillStep(ins, req, i), LoraStrengthKey(j + 1)) ==
      if j == i && i < |req.loraStrengths| then Some(ToFloat(req.loraStrengths[i]).value) else Get(ins, LoraStrengthKey(j + 1))
  {
    LoraKeysDistinct(i + 1, j + 1);
    LoraKeysDistinct(j + 1, i + 1);
    var ins1 := Put(ins, LoraNameKey(i + 1), req.loraNames[i]);
    assert Get(ins1, LoraStrengthKey(j + 1)) == Get(ins, LoraStrengthKey(j + 1));
  }

  /** The name of slot `j+1` after filling from `i`. */
  lemma {:induction false} ApplyNameSlot(ins: Dict<Value>, req: Request, i: nat, j: nat)
    requires i <= 6 && j < 6 && StrengthsParse(req, i)
    ensures Get(ApplyLoras(ins, req, i).value, LoraNameKey(j + 1)) ==
      if i <= j < Filled(req) then Some(req.loraNames[j]) else Get(ins, LoraNameKey(j + 1))
    decreases 6 - i
  {
    if i < Filled(req) {
      assert SlotParses(req, i);
      var next := FillStep(ins, req, i);
      assert ApplyLoras(ins, req, i) == ApplyLoras(next, req, i + 1);
      FillStepName(ins, req, i, j);
      ApplyNameSlot(next, req, i + 1, j);
    }
  }

  /** The strength of slot `j+1` after filling from `i`. */
  lemma {:induction false} ApplyStrengthSlot(ins: Dict<Value>, req: Request, i: nat, j: nat)
    requires i <= 6 && j < 6 && StrengthsParse(req, i)
    ensures Get(ApplyLoras(ins, req, i).value, LoraStrengthKey(j + 1)) ==
      if i <= j < Filled(req) && j < |req.loraStrengths| then Some(ToFloat(req.loraStrengths[j]).value)
      else Get(ins, LoraStrengthKey(j + 1))
    decreases 6 - i
  {
    if i < Filled(req) {
      assert SlotParses(req, i);
      var next := FillStep(ins, req, i);
      assert ApplyLoras(ins, req, i) == ApplyLoras(next, req, i + 1);
      FillStepStrength(ins, req, i, j);
      ApplyStrengthSlot(next, req, i + 1, j);
    }
  }

  /** Slot `j+1` after filling from `i`: filled slots hold the requested name and,
      where supplied, the parsed strength; every other slot value is kept. */
  lemma ApplySlot(ins: Dict<Value>, req: Request, i: nat, j: nat)
    requires i <= 6 && j < 6 && StrengthsParse(req, i)
    ensures Get(ApplyLoras(ins, req, i).value, LoraNameKey(j + 1)) ==
      if i <= j < Filled(req) then Some(req.loraNames[j]) else Get(ins, LoraNameKey(j + 1))
    ensures Get(ApplyLoras(ins, req, i).value, LoraStrengthKey(j + 1)) ==
      if i <= j < Filled(req) && j < |req.loraStrengths| then Some(ToFloat(req.loraStrengths[j]).value)
      else Get(ins, LoraStrengthKey(j + 1))
  {
    ApplyNameSlot(ins, req, i, j);
    ApplyStrengthSlot(ins, req, i, j);
  }

  /** The LoRA writes of a LoRA stack node: reset all six slots, then fill them. */
  function InjectLoras(ins: Dict<Value>, req: Request): (r: Result<Dict<Value>>)
    ensures r.Ok? <==> StrengthsParse(req, 0)
    ensures r.Ok? ==> forall k :: !IsLoraKey(k) ==> Get(r.value, k) == Get(ins, k)
  {
    ApplyLoras(ResetLoras(ins, 1), req, 0)
  }

  /** Slot `s` of a LoRA stack node after the writes: the requested name in the first
      `min(6, |names|)` slots and "None" after them; the strength where one was
      supplied for a kept name, 1.0 otherwise. */
  lemma InjectLorasSlot(ins: Dict<Value>, req: Request, s: nat)
    requires StrengthsParse(req, 0) && 1 <= s <= 6
    ensures Get(InjectLoras(ins, req).value, LoraNameKey(s)) ==
      Some(if s - 1 < Filled(req) then req.loraNames[s - 1] else Str("None"))
    ensures Get(InjectLoras(ins, req).value, LoraStrengthKey(s)) ==
      Some(if s - 1 < Filled(req) && s - 1 < |req.loraStrengths| then ToFloat(req.loraStrengths[s - 1]).value else Num(1.0))
  {
    ResetSlot(ins, 1, s);
    ApplySlot(ResetLoras(ins, 1), req, 0, s - 1);
  }

  /** `int(new_values[k])`, where a missing key raises `KeyError`. */
  function IntParam(req: Request, k: string): (r: Result<int>)
    ensures !Has(req.values, k) ==> r == Err(KeyError(k))
    ensures Has(req.values, k) ==> r == ToInt(Param(req, k))
  {
    if Has(req.values, k) then ToInt(Param(req, k)) else Err(KeyError(k))
  }

  /** The checkpoint / VAE / resolution chain. Both `int()` conversions happen before
      either write, so a failure leaves nothing half-written. */
  function InjectModel(cls: string, ins: Dict<Value>, req: Request): (r: Result<Dict<Value>>)
    ensures r.Ok? ==> forall k :: k !in {"ckpt_name", "vae_name", "WIDTH", "HEIGHT", "width", "height"} ==> Get(r.value, k) == Get(ins, k)
    ensures cls !in {"CheckpointLoaderSimple", "VAELoader", "DW_resolution", "EmptyLatentImage"} ==> r == Ok(ins)
    ensures (cls in {"DW_resolution", "EmptyLatentImage"} && Has(req.values, "width") && ToInt(Param(req, "width")).Ok?
             && !Has(req.values, "height")) ==> r == Err(KeyError("height"))
    ensures cls == "VAELoader" && Has(req.values, "vae") && Param(req, "vae") == Str("None") ==> r == Ok(ins)
  {
    if cls == "CheckpointLoaderSimple" && Has(req.values, "checkpoint") then
      Ok(Put(ins, "ckpt_name", Param(req, "checkpoint")))
    else if cls == "VAELoader" && Has(req.values, "vae") && Param(req, "vae") != Str("None") then
      Ok(Put(ins, "vae_name", Param(req, "vae")))
    else if (cls == "DW_resolution" || cls == "EmptyLatentImage") && Has(req.values, "width") then
      var w :- ToInt(Param(req, "width"));
      var h :- IntParam(req, "height");
      if cls == "DW_resolution" then Ok(Put(Put(ins, "WIDTH", Int(w)), "HEIGHT", Int(h)))
      else Ok(Put(Put(ins, "width", Int(w)), "height", Int(h)))
    else Ok(ins)
  }

  /** `inputs["seed"] = int(new_values["seed"])`. */
  function SeedWrite(ins: Dict<Value>, req: Request): (r: Result<Dict<Value>>)
    requires Has(req.values, "seed")
    ensures r.Ok? <==> ToInt(Param(req, "seed")).Ok?
    ensures r.Ok? ==> Get(r.value, "seed") == Some(Int(ToInt(Param(req, "seed")).value))
    ensures r.Ok? ==> forall k :: k != "seed" ==> Get(r.value, k) == Get(ins, k)
  {
    var s :- ToInt(Param(req, "seed"));
    Ok(Put(ins, "seed", Int(s)))
  }

  /** The width / height / upscale writes of the `DW_IntValue` and `DW_FloatValue`
      nodes, chosen by the upper-cased `title`. */
  function ValueWrite(cls: string, title: string, ins: Dict<Value>, req: Request): (r: Result<Dict<Value>>)
    ensures r.Ok? ==> forall k :: k != "value" ==> Get(r.value, k) == Get(ins, k)
    ensures cls != "DW_IntValue" && cls != "DW_FloatValue" ==> r == Ok(ins)
  {
    if cls == "DW_IntValue" && title == "WIDTH" && Has(req.values, "width") then
      var w :- ToInt(Param(req, "width"));
      Ok(Put(ins, "value", Int(w)))
    else if cls == "DW_IntValue" && title == "HEIGHT" && Has(req.values, "height") then
      var h :- ToInt(Param(req, "height"));
      Ok(Put(ins, "value", Int(h)))
    else if cls == "DW_FloatValue" && title == "UPSCALER BY" && Has(req.values, "upscale_by") then
      var u :- ToFloat(Param(req, "upscale_by"));
      Ok(Put(ins, "value", u))
    else Ok(ins)
  }

  /** The node is the samplers' seed source or a `DW_seed` node, and a seed is requested. */
  predicate TakesSeed(id: string, cls: string, req: Request, src: Sources)
  {
    (src.seed == Some(id) || cls == "DW_seed") && Has(req.values, "seed")
  }

  /** The seed / width / height / upscale chain; `title` is upper-cased. */
  function InjectValues(id: string, cls: string, title: string, ins: Dict<Value>, req: Request, src: Sources): (r: Result<Dict<Value>>)
    ensures r.Ok? ==> forall k :: k != "seed" && k != "value" ==> Get(r.value, k) == Get(ins, k)
    ensures src.seed != Some(id) && cls != "DW_seed" && r.Ok? ==> Get(r.value, "seed") == Get(ins, "seed")
    ensures cls != "DW_IntValue" && cls != "DW_FloatValue" && r.Ok? ==> Get(r.value, "value") == Get(ins, "value")
  {
    if TakesSeed(id, cls, req, src) then SeedWrite(ins, req) else ValueWrite(cls, title, ins, req)
  }

  /** The seed source and every `DW_seed` node get `int(seed)`, failing exactly when
      the conversion does; no other key changes. */
  lemma InjectValuesSeed(id: string, cls: string, title: string, ins: Dict<Value>, req: Request, src: Sources)
    requires TakesSeed(id, cls, req, src)
    ensures var r := InjectValues(id, cls, title, ins, req, src);
      && (r.Ok? <==> ToInt(Param(req, "seed")).Ok?)
      && (r.Ok? ==> Get(r.value, "seed") == Some(Int(ToInt(Param(req, "seed")).value))
                    && forall k :: k != "seed" ==> Get(r.value, k) == Get(ins, k))
  {
  }

  /** `id` is the target of one of the samplers' steps, cfg or seed links. */
  predicate IsSource(id: string, src: Sources)
  {
    Some(id) == src.steps || Some(id) == src.cfg || Some(id) == src.seed
  }

  /** A sampler's own seed: overwritten only when the sampler is no parameter source,
      a seed is requested, and its current seed is present and not a link. */
  function SamplerSeed(id: string, cls: string, ins: Dict<Value>, req: Request, src: Sources): (r: Result<Dict<Value>>)
    ensures r.Ok? ==> forall k :: k != "seed" ==> Get(r.value, k) == Get(ins, k)
    ensures (!IsSamplerClass(cls) || IsSource(id, src) || !Has(ins, "seed") || IsList(Get(ins, "seed").value)) ==> r == Ok(ins)
    ensures (IsSamplerClass(cls) && !IsSource(id, src) && Has(req.values, "seed") && Has(ins, "seed") && !IsList(Get(ins, "seed").value)
             && r.Ok?) ==> ToInt(Param(req, "seed")).Ok? && Get(r.value, "seed") == Some(Int(ToInt(Param(req, "seed")).value))
  {
    if IsSamplerClass(cls) && !IsSource(id, src) && Has(req.values, "seed") && Has(ins, "seed") && !IsList(Get(ins, "seed").value) then
      var s :- ToInt(Param(req, "seed"));
      Ok(Put(ins, "seed", Int(s)))
    else Ok(ins)
  }

  /** `if k not in inputs: inputs[k] = v`. */
  function SetDefault(ins: Dict<Value>, k: string, v: Value): (r: Dict<Value>)
    ensures Get(r, k) == if Has(ins, k) then Get(ins, k) else Some(v)
    ensures forall k' :: k' != k ==> Get(r, k') == Get(ins, k')
  {
    if Has(ins, k) then ins else Put(ins, k, v)
  }

  /** The `DW_KsamplerAdvanced` repair: default tiling inputs, drop two invalid ones. */
  function PatchAdvanced(ins: Dict<Value>): (r: Dict<Value>)
    ensures Get(r, "tiled_width") == if Has(ins, "tiled_width") then Get(ins, "tiled_width") else Some(Int(512))
    ensures Get(r, "tiled_height") == if Has(ins, "tiled_height") then Get(ins, "tiled_height") else Some(Int(512))
    ensures Get(r, "tiled_overlap") == if Has(ins, "tiled_overlap") then Get(ins, "tiled_overlap") else Some(Int(32))
    ensures !Has(r, "guide_size") && !Has(r, "max_size")
    ensures forall k :: k !in {"tiled_width", "tiled_height", "tiled_overlap", "guide_size", "max_size"} ==> Get(r, k) == Get(ins, k)
  {
    PatchKeysDistinct();
    PatchSteps(ins, "tiled_width", "tiled_height", "tiled_overlap", "guide_size", "max_size");
    var a := SetDefault(ins, "tiled_width", Int(512));
    var b := SetDefault(a, "tiled_height", Int(512));
    var c := SetDefault(b, "tiled_overlap", Int(32));
    var d := Delete(c, "guide_size");
    Delete(d, "max_size")
  }

  /** The repair's three defaults and two deletions, for any five distinct keys. */
  lemma PatchSteps(ins: Dict<Value>, w: string, h: string, o: string, gs: string, ms: string)
    requires w != h && w != o && h != o && gs != ms
    requires w != gs && h != gs && o != gs && w != ms && h != ms && o != ms
    ensures var r := Delete(Delete(SetDefault(SetDefault(SetDefault(ins, w, Int(512)), h, Int(512)), o, Int(32)), gs), ms);
      && Get(r, w) == (if Has(ins, w) then Get(ins, w) else Some(Int(512)))
      && Get(r, h) == (if Has(ins, h) then Get(ins, h) else Some(Int(512)))
      && Get(r, o) == (if Has(ins, o) then Get(ins, o) else Some(Int(32)))
      && !Has(r, gs) && !Has(r, ms)
      && forall k :: k != w && k != h && k != o && k != gs && k != ms ==> Get(r, k) == Get(ins, k)
  {
  }

  /** The five keys the repair touches are distinct. */
  lemma PatchKeysDistinct()
    ensures "tiled_width" != "tiled_height" && "tiled_width" != "tiled_overlap" && "tiled_height" != "tiled_overlap"
    ensures "guide_size" != "max_size"
    ensures "tiled_width" != "guide_size" && "tiled_height" != "guide_size" && "tiled_overlap" != "guide_size"
    ensures "tiled_width" != "max_size" && "tiled_height" != "max_size" && "tiled_overlap" != "max_size"
  {
    assert |"tiled_width"| == 11 && |"tiled_height"| == 12 && |"tiled_overlap"| == 13;
    assert |"guide_size"| == 10 && |"max_size"| == 8;
    assert "tiled_height"[0] != "guide_size"[0];
  }

  /** Patching a patched node changes nothing. */
  lemma PatchIdempotent(ins: Dict<Value>)
    ensures PatchAdvanced(PatchAdvanced(ins)) == PatchAdvanced(ins)
  {
    var p := PatchAdvanced(ins);
    DeleteAbsent(p, "guide_size");
    DeleteAbsent(p, "max_size");
  }

  /** The sampler's own seed write followed by the `DW_KsamplerAdvanced` repair. */
  function SeedAndPatch(id: string, cls: string, ins: Dict<Value>, req: Request, src: Sources): Result<Dict<Value>>
  {
    var ins5 :- SamplerSeed(id, cls, ins, req, src);
    Ok(if cls == "DW_KsamplerAdvanced" then PatchAdvanced(ins5) else ins5)
  }

  /** The writes to one node that precede the sampler's own seed write. */
  function BeforeSeed(id: string, n: Node, roles: Roles, src: Sources, req: Request): Result<Dict<Value>>
  {
    var ins1 := InjectPrompts(id, n.inputs, roles, req);
    var ins2 :- if n.classType == LoraStack then InjectLoras(ins1, req) else Ok(ins1);
    var ins3 :- InjectModel(n.classType, ins2, req);
    InjectValues(id, n.classType, Upper(n.title), ins3, req, src)
  }

  /** All writes to one node, in the order of the loop body. */
  function UpdateNode(id: string, n: Node, roles: Roles, src: Sources, req: Request): (r: Result<Node>)
    ensures r.Ok? ==> r.value.classType == n.classType && r.value.title == n.title
  {
    var ins4 :- BeforeSeed(id, n, roles, src, req);
    var ins6 :- SeedAndPatch(id, n.classType, ins4, req, src);
    Ok(Node(n.classType, n.title, ins6))
  }

  /** A node-by-node pass over a workflow in file order, the first failure aborting it. */
  function MapNodes(g: Graph, f: (string, Node) -> Result<Node>): (r: Result<Graph>)
    ensures r.Ok? <==> forall i :: 0 <= i < |g| ==> f(g[i].0, g[i].1).Ok?
    ensures r.Ok? ==> |r.value| == |g| && forall i :: 0 <= i < |g| ==> r.value[i] == (g[i].0, f(g[i].0, g[i].1).value)
    ensures r.Err? ==> exists i :: 0 <= i < |g| && f(g[i].0, g[i].1) == Err(r.fault)
  {
    if |g| == 0 then Ok([])
    else
      assert forall j :: 0 <= j < |g| - 1 ==> g[1..][j] == g[j + 1];
      var n :- f(g[0].0, g[0].1);
      var rest :- MapNodes(g[1..], f);
      Ok([(g[0].0, n)] + rest)
  }

  /** The update loop: every node in file order; the first failure aborts. */
  function UpdateNodes(g: Graph, roles: Roles, src: Sources, req: Request): (r: Result<Graph>)
    ensures r.Ok? <==> forall i :: 0 <= i < |g| ==> UpdateNode(g[i].0, g[i].1, roles, src, req).Ok?
    ensures r.Ok? ==> SameShape(g, r.value)
    ensures r.Ok? ==> forall i :: 0 <= i < |g| ==> r.value[i].1 == UpdateNode(g[i].0, g[i].1, roles, src, req).value
    ensures r.Err? ==> exists i :: 0 <= i < |g| && UpdateNode(g[i].0, g[i].1, roles, src, req) == Err(r.fault)
  {
    MapNodes(g, (id, n) => UpdateNode(id, n, roles, src, req))
  }

  /** `update_workflow(prompt_workflow, new_values, lora_names, lora_strengths)`. */
  function UpdateWorkflow(g: Graph, req: Request): (r: Result<Graph>)
    ensures r.Ok? ==> SameShape(g, r.value)
    ensures HasEmptyLink(g, "steps") || HasEmptyLink(g, "cfg") || HasEmptyLink(g, "seed") ==> r == Err(IndexError)
  {
    var src :- ScanSources(g);
    UpdateNodes(g, DetectRoles(g), src, req)
  }

  // ---------------------------------------------------------------------------
  // Properties of one node's update

  /** The prompt keys are written by no later step except `value`. */
  lemma PromptKeysApart(k: string)
    requires IsPromptKey(k)
    ensures k !in {"ckpt_name", "vae_name", "WIDTH", "HEIGHT", "width", "height"}
    ensures k != "seed" && !IsLoraKey(k)
    ensures k !in {"tiled_width", "tiled_height", "tiled_overlap", "guide_size", "max_size"}
  {
    NotLoraKey(k);
  }

  /** The LoRA slot keys are written by no later step. */
  lemma LoraKeysApart(s: nat)
    requires 1 <= s <= 6
    ensures LoraNameKey(s) != "seed" && LoraNameKey(s) != "value" && LoraStrengthKey(s) != "seed" && LoraStrengthKey(s) != "value"
  {
    assert |LoraNameKey(s)| == 11 && |LoraStrengthKey(s)| == 15;
  }

  /** `seed` is written by no step but the seed writes. */
  lemma SeedApart()
    ensures !IsPromptKey("seed") && !IsLoraKey("seed")
    ensures "seed" !in {"ckpt_name", "vae_name", "WIDTH", "HEIGHT", "width", "height"}
    ensures "seed" !in {"tiled_width", "tiled_height", "tiled_overlap", "guide_size", "max_size"}
  {
    NotLoraKey("seed");
  }

  /** Every present prompt key of a role node receives the prompt, even when it held a
      link; the negative prompt is written last and wins. Only a `value` key that a
      value node may overwrite later is excepted. */
  lemma NodePrompt(id: string, n: Node, roles: Roles, src: Sources, req: Request, k: string)
    requires UpdateNode(id, n, roles, src, req).Ok?
    requires IsPromptKey(k) && Has(n.inputs, k)
    requires k == "value" ==> n.classType != "DW_IntValue" && n.classType != "DW_FloatValue"
    ensures Get(UpdateNode(id, n, roles, src, req).value.inputs, k) ==
      if id in roles.neg && Has(req.values, "negative_prompt") then Get(req.values, "negative_prompt")
      else if id in roles.pos && Has(req.values, "prompt") then Get(req.values, "prompt")
      else Get(n.inputs, k)
  {
    var ins1 := InjectPrompts(id, n.inputs, roles, req);
    var ins2 := if n.classType == LoraStack then InjectLoras(ins1, req).value else ins1;
    var ins3 := InjectModel(n.classType, ins2, req).value;
    var ins4 := InjectValues(id, n.classType, Upper(n.title), ins3, req, src).value;
    var ins5 := SamplerSeed(id, n.classType, ins4, req, src).value;
    var ins6 := if n.classType == "DW_KsamplerAdvanced" then PatchAdvanced(ins5) else ins5;
    assert UpdateNode(id, n, roles, src, req).value.inputs == ins6;
    PromptKeysApart(k);
    assert Get(ins2, k) == Get(ins1, k);
    assert Get(ins3, k) == Get(ins2, k);
    assert Get(ins4, k) == Get(ins3, k);
    assert Get(ins5, k) == Get(ins4, k);
  }

  /** The LoRA slots of a LoRA stack node after its update. */
  lemma NodeLoras(id: string, n: Node, roles: Roles, src: Sources, req: Request, s: nat)
    requires UpdateNode(id, n, roles, src, req).Ok? && n.classType == LoraStack && 1 <= s <= 6
    ensures StrengthsParse(req, 0)
    ensures Get(UpdateNode(id, n, roles, src, req).value.inputs, LoraNameKey(s)) ==
      Some(if s - 1 < Filled(req) then req.loraNames[s - 1] else Str("None"))
    ensures Get(UpdateNode(id, n, roles, src, req).value.inputs, LoraStrengthKey(s)) ==
      Some(if s - 1 < Filled(req) && s - 1 < |req.loraStrengths| then ToFloat(req.loraStrengths[s - 1]).value else Num(1.0))
  {
    var ins1 := InjectPrompts(id, n.inputs, roles, req);
    assert BeforeSeed(id, n, roles, src, req).Ok?;
    assert InjectLoras(ins1, req).Ok?;
    var ins2 := InjectLoras(ins1, req).value;
    var ins3 := InjectModel(n.classType, ins2, req).value;
    var ins4 := InjectValues(id, n.classType, Upper(n.title), ins3, req, src).value;
    var ins5 := SamplerSeed(id, n.classType, ins4, req, src).value;
    assert UpdateNode(id, n, roles, src, req).value.inputs == ins5;
    InjectLorasSlot(ins1, req, s);
    assert ins3 == ins2;
    var name, strength := LoraNameKey(s), LoraStrengthKey(s);
    LoraKeysApart(s);
    assert Get(ins4, name) == Get(ins3, name) && Get(ins4, strength) == Get(ins3, strength);
    assert Get(ins5, name) == Get(ins4, name) && Get(ins5, strength) == Get(ins4, strength);
  }

  /** The seed a sampler holds just before its own seed write: no earlier step
      touches it unless the sampler is the seed source or a `DW_seed` node. */
  lemma SeedBeforeSamplerStep(id: string, n: Node, roles: Roles, src: Sources, req: Request)
    requires BeforeSeed(id, n, roles, src, req).Ok?
    requires n.classType != "DW_seed" && src.seed != Some(id)
    ensures Get(BeforeSeed(id, n, roles, src, req).value, "seed") == Get(n.inputs, "seed")
  {
    var ins1 := InjectPrompts(id, n.inputs, roles, req);
    var ins2 := if n.classType == LoraStack then InjectLoras(ins1, req).value else ins1;
    var ins3 := InjectModel(n.classType, ins2, req).value;
    SeedApart();
    assert Get(ins1, "seed") == Get(n.inputs, "seed");
    assert Get(ins2, "seed") == Get(ins1, "seed");
    assert Get(ins3, "seed") == Get(ins2, "seed");
  }

  /** A sampler that is neither the seed source nor a `DW_seed` node keeps a linked or
      absent seed, and takes the requested seed otherwise only when it is no source of
      steps or cfg either. */
  lemma NodeSamplerSeed(id: string, n: Node, roles: Roles, src: Sources, req: Request)
    requires UpdateNode(id, n, roles, src, req).Ok?
    requires IsSamplerClass(n.classType) && n.classType != "DW_seed" && src.seed != Some(id)
    ensures IsSource(id, src) || !Has(n.inputs, "seed") || IsList(Input(n, "seed")) ==>
      Get(UpdateNode(id, n, roles, src, req).value.inputs, "seed") == Get(n.inputs, "seed")
    ensures !IsSource(id, src) && Has(req.values, "seed") && Has(n.inputs, "seed") && !IsList(Input(n, "seed")) ==>
      ToInt(Param(req, "seed")).Ok? && Get(UpdateNode(id, n, roles, src, req).value.inputs, "seed") == Some(Int(ToInt(Param(req, "seed")).value))
  {
    var ins4 := BeforeSeed(id, n, roles, src, req).value;
    SeedBeforeSamplerStep(id, n, roles, src, req);
    SamplerStepSeed(id, n.classType, ins4, req, src);
    assert UpdateNode(id, n, roles, src, req).value.inputs == SeedAndPatch(id, n.classType, ins4, req, src).value;
    assert Has(n.inputs, "seed") == Has(ins4, "seed");
    assert Has(n.inputs, "seed") ==> Input(n, "seed") == Get(ins4, "seed").value;
  }

  /** The sampler seed step and the patch of a sampler. */
  lemma SamplerStepSeed(id: string, cls: string, ins: Dict<Value>, req: Request, src: Sources)
    requires SeedAndPatch(id, cls, ins, req, src).Ok? && IsSamplerClass(cls)
    ensures var out := SeedAndPatch(id, cls, ins, req, src).value;
      && (IsSource(id, src) || !Has(ins, "seed") || IsList(Get(ins, "seed").value) ==> Get(out, "seed") == Get(ins, "seed"))
      && (!IsSource(id, src) && Has(req.values, "seed") && Has(ins, "seed") && !IsList(Get(ins, "seed").value) ==>
            ToInt(Param(req, "seed")).Ok? && Get(out, "seed") == Some(Int(ToInt(Param(req, "seed")).value)))
  {
    var s5 := SamplerSeed(id, cls, ins, req, src).value;
    assert SeedAndPatch(id, cls, ins, req, src).value == if cls == "DW_KsamplerAdvanced" then PatchAdvanced(s5) else s5;
    SeedApart();
    assert Get(SeedAndPatch(id, cls, ins, req, src).value, "seed") == Get(s5, "seed");
  }

  /** A node with no role, no special class, no sampler class and no source link keeps
      its inputs unchanged. */
  lemma NodeUnchanged(id: string, n: Node, roles: Roles, src: Sources, req: Request)
    requires UpdateNode(id, n, roles, src, req).Ok?
    requires id !in roles.pos + roles.neg && !IsSamplerClass(n.classType) && !IsSource(id, src)
    requires n.classType !in {LoraStack, "CheckpointLoaderSimple", "VAELoader", "DW_resolution", "EmptyLatentImage",
                              "DW_seed", "DW_IntValue", "DW_FloatValue", "DW_KsamplerAdvanced"}
    ensures UpdateNode(id, n, roles, src, req).value.inputs == n.inputs
  {
  }

  // ---------------------------------------------------------------------------
  // Properties of the whole update

  /** The updated inputs of node `i`, when the update succeeds. */
  function Updated(g: Graph, req: Request, i: nat): Dict<Value>
    requires UpdateWorkflow(g, req).Ok? && i < |g|
  {
    UpdateWorkflow(g, req).value[i].1.inputs
  }

  /** Node `i` of a successful update is that node's own update, under the graph's
      roles and sources. */
  lemma UpdatedIsNodeUpdate(g: Graph, req: Request, i: nat)
    requires UpdateWorkflow(g, req).Ok? && i < |g|
    ensures ScanSources(g).Ok?
    ensures UpdateNode(g[i].0, g[i].1, DetectRoles(g), ScanSources(g).value, req).Ok?
    ensures Updated(g, req, i) == UpdateNode(g[i].0, g[i].1, DetectRoles(g), ScanSources(g).value, req).value.inputs
  {
  }

  /** `NodePrompt` for every node of a successful update. */
  lemma PromptReachesRoleNodes(g: Graph, req: Request, i: nat, k: string)
    requires UpdateWorkflow(g, req).Ok? && i < |g|
    requires IsPromptKey(k) && Has(g[i].1.inputs, k)
    requires k == "value" ==> g[i].1.classType != "DW_IntValue" && g[i].1.classType != "DW_FloatValue"
    ensures var roles, id := DetectRoles(g), g[i].0;
      Get(Updated(g, req, i), k) ==
        if id in roles.neg && Has(req.values, "negative_prompt") then Get(req.values, "negative_prompt")
        else if id in roles.pos && Has(req.values, "prompt") then Get(req.values, "prompt")
        else Get(g[i].1.inputs, k)
  {
    UpdatedIsNodeUpdate(g, req, i);
    NodePrompt(g[i].0, g[i].1, DetectRoles(g), ScanSources(g).value, req, k);
  }

  /** `NodeLoras` for every LoRA stack node of a successful update. */
  lemma LoraSlotsFilled(g: Graph, req: Request, i: nat, s: nat)
    requires UpdateWorkflow(g, req).Ok? && i < |g| && g[i].1.classType == LoraStack
    requires 1 <= s <= 6
    ensures StrengthsParse(req, 0)
    ensures Get(Updated(g, req, i), LoraNameKey(s)) == Some(if s - 1 < Filled(req) then req.loraNames[s - 1] else Str("None"))
    ensures Get(Updated(g, req, i), LoraStrengthKey(s)) ==
      Some(if s - 1 < Filled(req) && s - 1 < |req.loraStrengths| then ToFloat(req.loraStrengths[s - 1]).value else Num(1.0))
  {
    UpdatedIsNodeUpdate(g, req, i);
    NodeLoras(g[i].0, g[i].1, DetectRoles(g), ScanSources(g).value, req, s);
  }

  /** `NodeSamplerSeed` for every sampler of a successful update. */
  lemma SamplerSeedGuarded(g: Graph, req: Request, i: nat)
    requires UpdateWorkflow(g, req).Ok? && i < |g|
    requires IsSamplerClass(g[i].1.classType) && g[i].1.classType != "DW_seed"
    requires ScanSources(g).Ok? && ScanSources(g).value.seed != Some(g[i].0)
    ensures var n, src := g[i].1, ScanSources(g).value;
      && (IsSource(g[i].0, src) || !Has(n.inputs, "seed") || IsList(Input(n, "seed")) ==>
            Get(Updated(g, req, i), "seed") == Get(n.inputs, "seed"))
      && (!IsSource(g[i].0, src) && Has(req.values, "seed") && Has(n.inputs, "seed") && !IsList(Input(n, "seed")) ==>
            ToInt(Param(req, "seed")).Ok? && Get(Updated(g, req, i), "seed") == Some(Int(ToInt(Param(req, "seed")).value)))
  {
    UpdatedIsNodeUpdate(g, req, i);
    NodeSamplerSeed(g[i].0, g[i].1, DetectRoles(g), ScanSources(g).value, req);
  }

  /** `NodeUnchanged` for every node of a successful update. */
  lemma OtherNodesUnchanged(g: Graph, req: Request, i: nat)
    requires UpdateWorkflow(g, req).Ok? && i < |g| && ScanSources(g).Ok?
    requires g[i].0 !in DetectRoles(g).pos + DetectRoles(g).neg
    requires !IsSamplerClass(g[i].1.classType) && !IsSource(g[i].0, ScanSources(g).value)
    requires g[i].1.classType !in {LoraStack, "CheckpointLoaderSimple", "VAELoader", "DW_resolution", "EmptyLatentImage",
                                  "DW_seed", "DW_IntValue", "DW_FloatValue", "DW_KsamplerAdvanced"}
    ensures Updated(g, req, i) == g[i].1.inputs
  {
    UpdatedIsNodeUpdate(g, req, i);
    NodeUnchanged(g[i].0, g[i].1, DetectRoles(g), ScanSources(g).value, req);
  }
}
